=== FILE: README.md ===
# CSV Service Matcher (v2) — a Dafny model of its data core

The CSV Service Matcher is a browser tool for release engineers. It takes a list
of Jenkins deployment links and builds one table row per deployed service. The
rows are then enriched:

- with the tracker (Jira) CSV export, matched on the service name in an issue
  summary;
- with one or more services CSV files;
- with one or more per-environment version manifests (JSON).

The table shows which environments drift in version or bundle. It can be
filtered, reordered and exported back to CSV. A settings panel adds three more
kinds of column: the last successful build, service health, and build versions
fetched from Jenkins.

This project models the data core of that tool in Dafny and proves what it
promises:

| module | models | form |
|---|---|---|
| `Text` | string helpers the code relies on: `trim`, `split`, `includes`, case mapping, `replace(/x+/g, …)` | pure |
| `Records` | a JavaScript object used as a row: an ordered list of distinct keys with string values; read, write, spread-merge | pure |
| `Utils` | `v2/js/utils.js`: service name from a link, CSV parsing, manifest validation, column classification, version equality | pure, with loops as methods |
| `DataProcessor` | `v2/js/dataProcessor.js`: base rows, the three enrichments, adding every linked service, header organisation | pure, with loops as methods |
| `TableRenderer` | `v2/js/tableRenderer.js`: build numbers, drift classification, the filter chain, and the module's state as the class `TableState` | mixed |
| `Exporter` | `v2/js/exporter.js`: `convertToCSV` and a reader that inverts it | pure |
| `Settings` | `v2/js/settings.js`: the three Jenkins-backed column builders | loops as methods over fetched data |

In `TableState`, the module-level `let` variables of `tableRenderer.js` are
fields, and the functions that reassign them are methods with `modifies this`.

Loops that build a value step by step are methods with invariants. Each is
proved equal to a specification function. The properties are proved about those
functions: round trips, first-match choices, order, membership, and what stays
unchanged.

Calls the model cannot see become parameters:

- browser storage: the saved text;
- `fetch` results: maps from URL or job to the decoded reply, where a failed or
  non-array reply is an empty list;
- `confirm`/`alert`: a boolean;
- the progress callback: the sequence of values it would receive.

## Model

| member | source | states |
|---|---|---|
| Utils.ExtractServiceNameFromLink | v2/js/utils.js:49-59 | a non-empty result is a name without `/` that the link ends with, as `/deploy_<name>` with or without a trailing `/` |
| Utils.ExtractServiceNameComplete | v2/js/utils.js:49-59 | conversely, a link that ends in `/deploy_<name>` (optional `/`, name without `/`) yields exactly that name, so the result is empty only for links carrying none |
| Utils.SplitCsvLineJoin | v2/js/utils.js:98 | splitting a data line on the commas outside double quotes loses nothing: joining the fields with commas gives the line back |
| Utils.SplitCsvLineUnquoted | v2/js/utils.js:98 | on a line without quotes the quote-aware split is the plain comma split used for the header line |
| Utils.RowFromKeys | v2/js/utils.js:99-105 | a parsed row has a key exactly for each non-empty header name |
| Utils.RowFromDistinct | v2/js/utils.js:99-105 | a parsed row never holds a key twice |
| Utils.RowFromValue | v2/js/utils.js:99-105 | each column holds the cleaned cell at the position of the last occurrence of its name in the header, or `''` when the line is too short |
| Utils.BuildRow | v2/js/utils.js:99-106 | the field-by-field loop builds the row described by the three lemmas above |
| Utils.HeaderFrom | v2/js/utils.js:72-85 | the header index is the first among the first `min(n, 10)` lines whose cleaned comma cells contain the key column, and `-1` when none does |
| Utils.FindHeader | v2/js/utils.js:72-85 | the scanning loop with its early break returns that header index |
| Utils.ReadLine | v2/js/utils.js:94-108 | one step of the row loop: a blank line adds nothing, any other line adds its row |
| Utils.ReadRows | v2/js/utils.js:92-110 | the row loop returns the rows of the data lines, in order |
| Utils.ParseCSV | v2/js/utils.js:68-111 | the parser returns the rows below the detected header, or `[]` when no header line is found |
| Utils.ParseLinesNoHeader | v2/js/utils.js:87-90 | without a line containing the key column the result is empty |
| Utils.ParseLinesShape | v2/js/utils.js:99-105 | every parsed row has exactly the header's named columns, each once |
| Utils.DataRowsCount | v2/js/utils.js:95-109 | the parser yields one row per non-blank line after the header |
| Utils.ValidateVersionsJson | v2/js/utils.js:132-160 | a manifest is accepted exactly when `service_versions` is a non-empty array whose first entry has a truthy `service`, and then the document itself is returned; the missing-array error is returned exactly when a non-null document lacks a truthy array there, and the empty-array error exactly when the array is empty |
| Utils.FilePrefix | v2/js/utils.js:206-218 | the column prefix of a versions file holds no underscore unless the base name starts with one |
| Utils.IsVersionColumn | v2/js/utils.js:197-239 | the method with its early returns decides the one-formula predicate: a non-empty name that is `Version <env>` (any case), starts with `version_`, starts with a listed file's prefix followed by `_version_`, or is `<token>_version_...` for a token without underscores |
| Utils.FileColumnIsVersionColumn | v2/js/utils.js:208-218 | every `<prefix>_version_<field>` column of a listed versions file is a version column |
| Utils.VersionEnvColumn | v2/js/utils.js:201 | `Version <env>` is a version column and not a bundle column |
| Utils.BundleEnvColumn | v2/js/utils.js:246-252 | `Bundle <env>` is a bundle column and not a version column |
| Utils.PlainNameNotClassified | v2/js/utils.js:197-252 | a name without underscores whose first letter is neither `v` nor `b` (such as `Service0` or `Jenkins Link`) is neither a version nor a bundle column, whatever the files |
| Utils.AreVersionsEqual | v2/js/utils.js:260-283 | two versions are equal only if both are non-empty |
| Utils.AreVersionsEqualIff | v2/js/utils.js:260-283 | two versions are equal exactly when both are non-empty and their trimmed lower-case forms are equal or one is the other followed by `_` and further segments |
| Utils.AreVersionsEqualSymmetric | v2/js/utils.js:260-283 | the comparison does not depend on argument order |
| Utils.BuildNumberIgnored | v2/js/utils.js:275-283 | a plain version equals itself with `_<build>` appended, in either argument position |
| Utils.SameLengthDifferentUnequal | v2/js/utils.js:260-283 | two different plain versions of the same length are never equal |
| Utils.AreVersionsEqualNotTransitive | v2/js/utils.js:260-283 | the relation is not transitive: `v_b1` and `v_b2` both equal `v` but not each other when `b1` and `b2` differ and have the same length |
| Records.MergeAbsentSpec | v2/js/dataProcessor.js:69-75 | merging another row's fields never overwrites: old fields keep place and value, the key set becomes the union, and each added key carries the other row's value |
| DataProcessor.DeploymentLinks | v2/js/dataProcessor.js:13-19 | every deployment link is non-empty and trimmed |
| DataProcessor.DeploymentLinksComplete | v2/js/dataProcessor.js:13-19 | every non-blank line of the saved text, or of the default list when nothing is saved, appears trimmed among the links |
| DataProcessor.DeploymentLinksSound | v2/js/dataProcessor.js:13-19 | every link is a trimmed line of that text |
| DataProcessor.CreateBaseDataFromDeploymentLinks | v2/js/dataProcessor.js:26-43 | the loop with its set of processed names returns the specified base rows |
| DataProcessor.FirstLinks | v2/js/dataProcessor.js:31-40 | lists, in increasing order, exactly the positions of links that carry a name not seen (up to case) at an earlier link |
| DataProcessor.BaseRowsAt | v2/js/dataProcessor.js:31-40 | the i-th base row comes from the i-th link that opens a new service name, so link order is kept and the first link wins |
| DataProcessor.BaseDataRecord | v2/js/dataProcessor.js:34-37 | each base row has exactly the fields `Service0` (the name) and `Jenkins Link` (an anchor to its link) |
| DataProcessor.BaseDataDistinct | v2/js/dataProcessor.js:33-38 | no two base rows name the same service, up to case |
| DataProcessor.BaseDataComplete | v2/js/dataProcessor.js:31-40 | every link that carries a service name has a base row for that name |
| DataProcessor.FindJiraRow | v2/js/dataProcessor.js:60-65 | the tracker row chosen is the first whose summary mentions the service's key, and `-1` means no summary does |
| DataProcessor.MentionsSpaced | v2/js/dataProcessor.js:63 | a summary holding the name as a word between spaces, spelled with `-` or `_` wherever the name has a `-`, mentions it |
| DataProcessor.MentionsUnderscored | v2/js/dataProcessor.js:63 | the underscore spelling of a name between spaces is found too |
| DataProcessor.MentionsContains | v2/js/dataProcessor.js:63 | for a name without `-`, a mention is an occurrence in the summary |
| DataProcessor.NotMentionedInsideWord | v2/js/dataProcessor.js:63 | a name glued to a preceding letter or digit is not a mention at that place |
| DataProcessor.ServiceKeyHeadless | v2/js/dataProcessor.js:57 | a name with `-headless` appended matches as the lower-cased name without it |
| DataProcessor.EnrichRowWithJira | v2/js/dataProcessor.js:54-80 | an enriched row extends the original; an unmatched row is unchanged; a matched row gains exactly the tracker fields it lacked, with the tracker's values |
| DataProcessor.EnrichWithJiraData | v2/js/dataProcessor.js:51-81 | enrichment keeps the row count and order, never overwrites a field, and leaves rows without a mention unchanged |
| DataProcessor.EnrichWithJiraMatched | v2/js/dataProcessor.js:67-76 | a row whose service is mentioned gains every field of the first tracker row mentioning it |
| DataProcessor.NamesMatchIff | v2/js/dataProcessor.js:108-113 | two names match exactly when their keys (lower-cased, one trailing `-headless` dropped) agree once every `-` is read as `_` |
| DataProcessor.NamesMatchEquivalence | v2/js/dataProcessor.js:108-113 | name matching is reflexive, symmetric and transitive |
| DataProcessor.FindService | v2/js/dataProcessor.js:108-113 | a services row found matches the base row's name |
| DataProcessor.FindServiceFirst | v2/js/dataProcessor.js:108-113 | no row before the one found matches, and with `-1` no row matches |
| DataProcessor.FileRowSpec | v2/js/dataProcessor.js:115-126 | a row merged with a file's match holds `Environment` set to the file's name, keeps every other base field, and adds the match's fields it lacked with their values |
| DataProcessor.MatchAcrossFiles | v2/js/dataProcessor.js:97-136 | the per-file loop with its `foundMatch` flag returns one merged row per file with a match, in file order, or the base row alone |
| DataProcessor.EnrichWithServicesData | v2/js/dataProcessor.js:90-139 | the rows loop returns each base row's output rows in base-row order, and the base data itself when there are no services files |
| DataProcessor.RowsWithCount | v2/js/dataProcessor.js:97-135 | a base row yields one row per file with a match, or exactly itself when no file has one |
| DataProcessor.RowsForSpec | v2/js/dataProcessor.js:97-136 | the number of rows a base row yields is the number of files where the search succeeds, or one |
| DataProcessor.RowsForUnmatched | v2/js/dataProcessor.js:133-135 | a row matched by no file is passed through unchanged |
| DataProcessor.RowsForMatched | v2/js/dataProcessor.js:104-130 | the j-th row yielded comes from the j-th file where the search succeeds: it carries that file's name in `Environment`, keeps the base row's other values and takes the rest from the file's first match |
| DataProcessor.CellText | v2/js/dataProcessor.js:185 | a manifest value is stored as `''` when it is falsy and as itself when it is a string |
| DataProcessor.FindEntry | v2/js/dataProcessor.js:161-166 | the manifest entry chosen is the first whose name matches, and `-1` when none does |
| DataProcessor.FindEntryFirst | v2/js/dataProcessor.js:161-166 | a matching entry at index j means one is found at or before j |
| DataProcessor.AddEntryColumns | v2/js/dataProcessor.js:180-188 | the loop over the entry's keys computes the added version columns (their meaning is stated by the lemmas below) |
| DataProcessor.ApplyVersionFile | v2/js/dataProcessor.js:155-189 | one manifest adds the columns `Object.keys` sees in its first matching entry, and nothing when no entry matches or that entry is falsy; it requires only what keeps the source from throwing: a truthy `service_versions` is an array, and no entry up to the match is `null` or has a truthy non-string `service` |
| DataProcessor.ApplyVersionFiles | v2/js/dataProcessor.js:155-190 | the files loop applies every manifest in order, under the same no-throw condition for the row's name |
| DataProcessor.VersionRow | v2/js/dataProcessor.js:150-193 | the per-row step returns the row with every manifest applied, matched by its `Service0`, under the no-throw condition for that name |
| DataProcessor.EnrichWithVersionsData | v2/js/dataProcessor.js:147-194 | the rows loop returns each row enriched with the version columns, whenever no row's lookup would throw; entries that are numbers, strings or arrays are accepted as the source accepts them |
| DataProcessor.VersionedRowExtends | v2/js/dataProcessor.js:155-190 | version enrichment keeps every existing key |
| DataProcessor.VersionedRowHas | v2/js/dataProcessor.js:155-190 | a row gains a column exactly when some manifest's first matching entry has a key naming it |
| DataProcessor.VersionedRowValue | v2/js/dataProcessor.js:180-188 | a new column holds the value from the first manifest whose entry names it, no earlier manifest naming it |
| DataProcessor.AddedColumnsAreVersionColumns | v2/js/dataProcessor.js:180-188 | every column added by enrichment is classified as a version column once its file is listed |
| DataProcessor.EnrichedWithVersionsAt | v2/js/dataProcessor.js:147-193 | enrichment keeps the row count, and each row is its own enriched row |
| DataProcessor.OfferedIsFirstMatch | v2/js/dataProcessor.js:161-166 | for every manifest, when some entry matches the values are what `Object.keys` sees in the first matching entry, never a later one, and with no match nothing is offered |
| DataProcessor.EntryMembers | v2/js/dataProcessor.js:168-187 | `Object.keys` of an entry: an object's own members, and for a string or an array index keys of digits only, never `service`; a falsy entry offers nothing |
| DataProcessor.NonObjectEntryAccepted | v2/js/dataProcessor.js:161-166 | a manifest whose later entry is the string `"note"` is read without error and offers the matching entry's members |
| DataProcessor.ExtractServices | v2/js/dataProcessor.js:208-216 | the loop returns the map of every non-empty name to the first link carrying it, in order of first appearance |
| DataProcessor.ExtractedEntry | v2/js/dataProcessor.js:211-216 | each map entry is a name that its link carries, no earlier link carries, and no later entry repeats |
| DataProcessor.ExtractedComplete | v2/js/dataProcessor.js:211-216 | every link carrying a name contributes that name |
| DataProcessor.ExistingServices | v2/js/dataProcessor.js:219-222 | the set of existing names is exactly the trimmed lower-case names of the present rows |
| DataProcessor.NewRow | v2/js/dataProcessor.js:231-241 | a new row is the service's base row padded with `''` for every header |
| DataProcessor.NewRowFields | v2/js/dataProcessor.js:231-241 | a new row holds the name under `Service0`, the link's anchor under `Jenkins Link`, every header, and no key twice |
| DataProcessor.PadSpec | v2/js/dataProcessor.js:237-241 | padding adds `''` for every header the row lacks and keeps its other fields |
| DataProcessor.AddAllServicesFromDeploymentLinks | v2/js/dataProcessor.js:201-265 | the method returns the specified result: nothing without links; else one row per map entry whose key is not already in the data |
| DataProcessor.AddAllServicesRows | v2/js/dataProcessor.js:219-263 | every added row is a map entry with its name and anchor, whose key was not in the data, holding every header when there was data; the count is the number of rows |
| DataProcessor.AddAllServicesComplete | v2/js/dataProcessor.js:224-257 | every map entry whose key is not in the data, or every entry when there is no data, gets a row |
| DataProcessor.AddAllServicesIdempotentWhenTrimmed | v2/js/dataProcessor.js:201-265 | when every linked name equals its trimmed form, a second call adds nothing |
| DataProcessor.AddAllServicesTwice | v2/js/dataProcessor.js:221-228 | on one link and an empty table a second call adds the service again exactly when its name is not trimmed |
| DataProcessor.AddAllServicesNotIdempotent | v2/js/dataProcessor.js:221-228 | the link `h/deploy_a /` makes a second call add a second row for `a ` |
| DataProcessor.AddAllServicesTrimmedIdempotent | v2/js/dataProcessor.js:201-265 | with the entry key trimmed like the existing keys, a second call adds nothing for every input |
| DataProcessor.JiraHeaders | v2/js/dataProcessor.js:289-296 | the tracker zone is the first tracker row's keys that are not yet ordered and not version columns, in key order |
| DataProcessor.SplitRemaining | v2/js/dataProcessor.js:299-309 | the headers not yet ordered split into the non-version and the version columns, each in header order |
| DataProcessor.OrganizeHeaders | v2/js/dataProcessor.js:274-312 | the method returns the specified order: fixed headers, tracker zone, other columns, version columns |
| DataProcessor.OrganizedStart | v2/js/dataProcessor.js:281-286 | the order starts `Service0`, `Jenkins Link`, then `Environment` when it is a header |
| DataProcessor.OrganizedZones | v2/js/dataProcessor.js:299-311 | the version columns form the tail: a position holds a version column exactly when it lies in the version zone |
| DataProcessor.OrganizedMembers | v2/js/dataProcessor.js:274-312 | every header is placed, and the only other names placed are the fixed ones and the tracker keys |
| DataProcessor.OrganizedNoDuplicates | v2/js/dataProcessor.js:274-312 | distinct headers and a tracker row with distinct keys give an order without duplicates |
| DataProcessor.FixedNotVersion | v2/js/dataProcessor.js:281-286 | no fixed header is a version column |
| TableRenderer.ExtractBuildNumber | v2/js/tableRenderer.js:28-42 | the build number is `''` or a string of digits, and `''` for an empty cell, `error` or a cell mentioning `build not found` |
| TableRenderer.ExtractBuildNumberPlain | v2/js/tableRenderer.js:40-41 | a plain value of digits is its own build number |
| TableRenderer.ExtractBuildNumberAnchor | v2/js/tableRenderer.js:34-36 | in a cell `p>d</a>q` whose prefix opens a link and holds no `>`, the build number is the digits `d` |
| TableRenderer.ThirdWordOf | v2/js/tableRenderer.js:304-306 | the tag of the summary `a b c` is `c` |
| TableRenderer.ClassifyChecked | v2/js/tableRenderer.js:303-339 | a cell is checked exactly when its column is checked, it holds a value other than `Not found`/`Error` and the summary has a third word; it matches exactly when it equals the tag joined with the build number, if any |
| TableRenderer.ClassifyBuildDiffers | v2/js/tableRenderer.js:322-355 | only the build is flagged exactly when the cell is checked (visible, not `Not found`/`Error`, the summary has a third word), a build number is known, the cell equals the tag but not the tag with that build, and the cell contains `_`; without `_` the whole cell is flagged instead |
| TableRenderer.ClassifyBuildDiffersParts | v2/js/tableRenderer.js:344-348 | the flagged build part is the cell's last `_` segment, and the version part the cell before it |
| TableRenderer.FlaggedIffDrifts | v2/js/tableRenderer.js:303-366 | a cell is flagged, in part or whole, exactly when the summary has a tag and the cell drifts from its expected value |
| TableRenderer.UnequalVersionsFlagged | v2/js/tableRenderer.js:502-528 | the unequal-versions filter keeps a row exactly when the display flags one of its version cells |
| TableRenderer.UnequalBundlesFlagged | v2/js/tableRenderer.js:531-557 | the unequal-bundles filter keeps a row exactly when the display flags one of its bundle cells |
| TableRenderer.BuildOnlyIsNotTagMismatch | v2/js/tableRenderer.js:474-495 | a cell differing only in its build is not a mismatch for the unhealthy filter, which compares with the tag alone |
| TableRenderer.FilteredRows | v2/js/tableRenderer.js:449-579 | the filter chain gives a subsequence of the rows holding exactly the rows every active filter accepts |
| TableRenderer.ChainSubsequence | v2/js/tableRenderer.js:449-579 | the chained filters keep rows in their order and add none |
| TableRenderer.ChainMembers | v2/js/tableRenderer.js:449-579 | a row is kept exactly when it passes every filter of the chain |
| TableRenderer.FilterByMembers | v2/js/tableRenderer.js:454-575 | one filter keeps exactly the rows it accepts, in their order |
| TableRenderer.ApplyFlags | v2/js/tableRenderer.js:453-565 | the check-box filters run as the chain of those switched on, in the order unhealthy, unequal versions, unequal bundles, changes |
| TableRenderer.ApplyCustomFilter | v2/js/tableRenderer.js:569-575 | one column filter runs as its test (the lower-cased cell contains the lower-cased text, and an empty text keeps every row) |
| TableRenderer.ApplyCustomFilters | v2/js/tableRenderer.js:568-576 | the loop extends the chain by one column filter per key, in key order |
| TableRenderer.CustomTests | v2/js/tableRenderer.js:568 | there is one test per key of the custom-filter object, for that key's column and text |
| TableRenderer.TableState.GetFilteredData | v2/js/tableRenderer.js:449-579 | the method returns the state's filter chain: a subsequence of the data holding exactly the rows that pass every active filter |
| TableRenderer.NextVisibleMembers | v2/js/tableRenderer.js:59-79 | a header is visible afterwards exactly when it is a new header and this is the first call, it was visible before, or it is new and shown by default; kept headers keep their order |
| TableRenderer.HiddenStaysHidden | v2/js/tableRenderer.js:59-75 | a header that existed but was hidden stays hidden |
| TableRenderer.TableState.InitializeTableData | v2/js/tableRenderer.js:50-85 | the data, headers and file names are replaced, the visible headers recomputed, and sort, filters and deleted rows kept |
| TableRenderer.ToggledSpec | v2/js/tableRenderer.js:674-684 | toggling flips the column's visibility and no other's, and toggling a hidden column twice restores the list |
| TableRenderer.TableState.ToggleColumnVisibility | v2/js/tableRenderer.js:674-684 | only the visible headers change, as toggling specifies, and they stay among the headers |
| TableRenderer.TableState.RemoveColumn | v2/js/tableRenderer.js:690-694 | the column is no longer visible, and only the visible headers change |
| TableRenderer.TableState.ShowAllColumns | v2/js/tableRenderer.js:699-703 | the visible headers become all headers, in table order |
| TableRenderer.ReorderArrayMoves | v2/js/tableRenderer.js:974-990 | moving a non-empty header puts it at the target index, keeps the others in their order, and permutes the list |
| TableRenderer.ReorderArrayInverse | v2/js/tableRenderer.js:974-990 | moving the header back restores the list |
| TableRenderer.ReorderArrayDropsEmpty | v2/js/tableRenderer.js:985-988 | an empty dragged header is removed and not reinserted |
| TableRenderer.ReorderArrayMembers | v2/js/tableRenderer.js:974-990 | a reorder adds no header, and keeps all of them when none is empty |
| TableRenderer.TableState.DropColumn | v2/js/tableRenderer.js:972-993 | equal indices change nothing; otherwise both header lists are reordered with the same indices, and visible headers stay among the headers |
| TableRenderer.TableState.RestoreDeletedRows | v2/js/tableRenderer.js:905-920 | with nothing deleted or no confirmation nothing changes; otherwise the deleted rows are appended to the data and the list is emptied; no row is lost or duplicated |
| TableRenderer.TableState.SetFilterStates | v2/js/tableRenderer.js:1102-1110 | each setting given replaces the current one, and the others stay |
| TableRenderer.TableState.constructor | v2/js/tableRenderer.js:10-21 | the state starts with no data, headers, filters or deleted rows, sorted ascending on no column, every flag off |
| Exporter.FieldRoundTrip | v2/js/exporter.js:15-19 | a cell written quoted with inner quotes doubled reads back as itself |
| Exporter.Cells | v2/js/exporter.js:17-18 | a data record holds each header's value in header order, `''` where the row lacks it |
| Exporter.RecordRoundTrip | v2/js/exporter.js:15-20 | a written record reads back as exactly its fields |
| Exporter.ExportRecords | v2/js/exporter.js:14-22 | the export's records are the headers, then one record per row |
| Exporter.RecordsRoundTrip | v2/js/exporter.js:22 | records joined by line feeds read back as the same records |
| Exporter.ConvertToCSVRoundTrip | v2/js/exporter.js:14-23 | for at least one header, reading the CSV back gives the headers and, per row, its values under those headers with `''` for absent ones; keys outside the headers are not written |
| Exporter.ConvertToCSVNoHeaders | v2/js/exporter.js:14-23 | with no visible header the export is one line feed per row and nothing else |
| Settings.NormalizeHealthNameForm | v2/js/settings.js:951-958 | a normalised health name is trimmed, with no two white-space characters and no two hyphens in a row |
| Settings.NormalizeHealthNameNotIdempotent | v2/js/settings.js:951-958 | normalising twice can differ from once: `hheadlesseadless` gives `headless`, which gives `''` |
| Settings.NormalizeVersionNameForm | v2/js/settings.js:1135-1142 | a normalised version name holds no hyphen and no upper-case letter |
| Settings.AppendAbsentSpec | v2/js/settings.js:910-915 | appending keeps the old headers as a prefix, adds exactly the missing ones, and keeps the list free of duplicates |
| Settings.AppendAbsentIdempotent | v2/js/settings.js:910-915 | appending the same headers again changes nothing |
| Settings.AddAbsentHeaders | v2/js/settings.js:910-915 | the header loop appends each absent header once |
| Settings.HealthColumns | v2/js/settings.js:907 | there is one health column per environment, named `<env> Health` |
| Settings.HealthCellFirstMatch | v2/js/settings.js:974-991 | the cell is the status of the first application whose normalised name equals the service's ignoring case, or `Not found` when that status is empty |
| Settings.HealthCellNoMatch | v2/js/settings.js:987-991 | without such an application the cell is `Not found` |
| Settings.HealthCell | v2/js/settings.js:974-991 | a health cell is never empty: a status or `Not found` |
| Settings.HealthRowSpec | v2/js/settings.js:948-995 | a rewritten row holds in each health column the cell found for its environment, and every other key as it was |
| Settings.HealthRowOf | v2/js/settings.js:948-995 | the row step builds that row, emptying every health column when the normalised service name is empty |
| Settings.ServiceHealthSpec | v2/js/settings.js:879-998 | rows keep their number; without environments or credentials nothing changes; otherwise each row is rewritten and the health headers added once, so a second run adds none |
| Settings.ShowServiceHealth | v2/js/settings.js:879-998 | on answers whose entries have string names and statuses, the method returns the specified outcome, its guards included |
| Settings.BuildsToCheck | v2/js/settings.js:627-628 | at most the first 20 builds are examined, all of them when there are no more |
| Settings.FirstProductionAt | v2/js/settings.js:632-667 | the id found is that of the first build whose name says production, and the builds up to it are the ones examined |
| Settings.FirstProductionNone | v2/js/settings.js:667-670 | without a production build the id is empty and every build is examined |
| Settings.ProductionBuildBeyondLimit | v2/js/settings.js:627-628 | a production build after the first 20 is not found |
| Settings.Progress | v2/js/settings.js:636-638 | the reports are `(1, total)` up to `(n, total)` |
| Settings.FetchProductionBuild | v2/js/settings.js:602-671 | the loop returns the production build id (none when the request throws) and one progress report per examined build |
| Settings.ServiceNamesInTable | v2/js/settings.js:739-751 | the loop collects the names of the selected rows |
| Settings.TableNamesMembers | v2/js/settings.js:739-751 | a name is collected exactly when some selected row has it as its lower-cased clean name |
| Settings.BuildLinksMembers | v2/js/settings.js:754-763 | the links kept are exactly those mentioning a table service, in their order |
| Settings.FindLink | v2/js/settings.js:816-824 | a link found serves the service (it contains its clean name and the kind's word), and none found means no link does |
| Settings.FindLinkFirst | v2/js/settings.js:816-824 | the first serving link is the one chosen |
| Settings.FindLinkPrefiltered | v2/js/settings.js:754-824 | filtering the links by the table's names first does not change the link a table service gets |
| Settings.AnchorReadBack | v2/js/settings.js:832-833 | the renderer reads a written build anchor back as its id |
| Settings.BuildCellReadBack | v2/js/settings.js:827-864 | the renderer reads every build cell back as the production build id found, and as `''` without a link, a production build or on error |
| Settings.BuildCellOf | v2/js/settings.js:827-864 | the method returns the build cell: `Build not found`, `Error` or the anchor of the id |
| Settings.BuildRowSpec | v2/js/settings.js:810-866 | a processed row holds the two build cells in `build_images` and `build_bundle`, and every other key as it was |
| Settings.BuildRowOf | v2/js/settings.js:810-866 | the row step builds that row |
| Settings.AddBuildHeaders | v2/js/settings.js:773-779 | `build_images` and `build_bundle` are appended when absent |
| Settings.ProcessRows | v2/js/settings.js:795-868 | the rows loop processes the selected rows, passes the others through and counts the selected ones |
| Settings.LastSuccessfulBuildsSpec | v2/js/settings.js:710-871 | rows keep their number and unselected rows pass through; a run that does not go ahead changes nothing; otherwise a selected row gets the cells of the first link serving it among all links, and the two headers are added once |
| Settings.ShowLastSuccessfulBuilds | v2/js/settings.js:710-871 | the method returns the specified outcome, and the progress counter ends at the number of services announced |
| Settings.SelectedCount | v2/js/settings.js:782-784 | the count of services to process is at most the number of rows |
| Settings.AppVersion | v2/js/settings.js:1080-1092 | an app's version is its metadata's version label, or `Not found` |
| Settings.AppBundle | v2/js/settings.js:1080-1097 | an app's bundle is its metadata's bundle label, or `Not found` |
| Settings.Cut | v2/js/settings.js:1067-1111 | the apps are handled up to the first that throws, in the modelled throwing case: a named app registered without metadata |
| Settings.RecordLookup | v2/js/settings.js:1101-1109 | a stored value is read back under its name and environment, and nothing else changes |
| Settings.StoreAppsLookup | v2/js/settings.js:1067-1111 | after the apps loop a name's entry for the environment comes from the last app with that normalised name, and other environments are untouched |
| Settings.FillEnv | v2/js/settings.js:1066-1112 | one environment's answer is stored app by app until one throws |
| Settings.StoreEnvsLookup | v2/js/settings.js:1046-1118 | a name's entry for an environment is what that environment's answer reports, whatever the order environments are handled in; unlisted environments have none |
| Settings.TablesCell | v2/js/settings.js:1149-1162 | the version and bundle cells of a listed environment are what its answer reports for the service, or `Not found` |
| Settings.VersionCell | v2/js/settings.js:1149-1162 | a version or bundle cell is never empty |
| Settings.VersionsRowVersion | v2/js/settings.js:1144-1154 | each `Version <env>` column of a listed environment holds its version cell |
| Settings.VersionsRowBundle | v2/js/settings.js:1157-1162 | each `Bundle <env>` column of a listed environment holds its bundle cell |
| Settings.VersionsRowOther | v2/js/settings.js:1144-1163 | keys that are no environment's column keep their values |
| Settings.WriteColumns | v2/js/settings.js:1144-1163 | the loop writes `Version <env>` then `Bundle <env>` for each environment in turn |
| Settings.VersionsRowOf | v2/js/settings.js:1121-1166 | the row step writes the cells of the row's normalised service name |
| Settings.VersionHeaders | v2/js/settings.js:1035-1037 | the headers are the old ones, then `Version <env>` for every environment, then `Bundle <env>` for every environment |
| Settings.BuildVersionsShape | v2/js/settings.js:1001-1037 | rows keep their number; a run that does not go ahead changes nothing; otherwise the version headers are appended |
| Settings.BuildVersionsCells | v2/js/settings.js:1121-1166 | every row holds, for every environment, the version and bundle that environment's answer reports for its normalised service name, or `Not found` |
| Settings.BuildVersionsOther | v2/js/settings.js:1121-1166 | every other key of every row keeps its value |
| Settings.BuildVersionsNotIdempotent | v2/js/settings.js:1035-1037 | a second run lists every version header twice |
| Settings.GetBuildVersions | v2/js/settings.js:1001-1169 | the method returns the specified outcome, its guards included |

## Left out

- `sortData`, `sortTable`: they compare with `parseFloat` and `localeCompare`, which have no faithful integer or string model. Sort settings are kept only as state.
- `applyEnvFilter`: it builds a regular expression from user input.
- `deleteSelectedRows`, `setDeletedRows`, `createColumnFilter`, `refreshTable`, `renderTable`, the drag-start/over handlers and the context menus: these are DOM and event wiring. The row and column state changes behind them are modelled.
- `fetchLastCompletedBuild`, `parseHtmlContent`, `expandLinksIntoColumns`, `copyTableAsImage`, `downloadFile`, `setStatus` and console messages: these are network, DOM, canvas and logging code.
- Progress percentages: `Math.round` on floating point is not modelled. The progress callback is the sequence of values it would receive.
- JSON numbers are integers. Non-string manifest values reach a cell only through `CellText`.
- Case mapping covers ASCII letters only.
- The JavaScript rule that integer-like object keys are listed first is not modelled. Records keep insertion order.
- Keys inherited from `Object.prototype` (`constructor`, `toString`, ...) are not modelled. `key in row` and `row[key]` see own keys only. The source would never copy a tracker or services column with such a name, and `convertToCSV` would write a function's text for a header named like one.
- JSON objects are taken to have distinct keys, as `JSON.parse` produces them.
- An `undefined` cell is stored as `''`.
- Drag indices are natural numbers, so the `NaN` and `null` checks are not modelled. An index out of range leaves the list unchanged, as in the source.
- The concurrent `Promise.all` fetches in `getBuildVersions` are applied one environment at a time. `Settings.StoreEnvsLookup` shows that no environment's result depends on that order.
- A failed fetch and a non-array reply are both the empty list.
- Settings.AnchorReadBack: stated only for links without `>` and cells without the text "build not found". Other links and cells would be misread by the anchor parser.
- Settings.BuildVersionsNotIdempotent: follows the code, which appends the version headers on every run. The design of the tool says each header is listed once and an adapter may be re-run safely.
- TableRenderer.ReorderArrayMembers: stated for non-empty headers only, because the reorder drops an empty dragged header.
- DataProcessor.AddAllServicesIdempotentWhenTrimmed: stated only for links whose names are trimmed. See the findings.
- DataProcessor.FileRowSpec: follows the code, which always writes `Environment` and so overwrites a value the base row already had. The design of the tool says enrichment never overwrites.
- DataProcessor.EnrichWithVersionsData: a manifest on which the source throws is excluded by the precondition, not modelled as an error. It throws when a truthy `service_versions` is not an array, or when the `find` meets a `null` entry or an entry whose truthy `service` is not a string before its match. `app.js` catches that error.
- DataProcessor.VersionRow, DataProcessor.ApplyVersionFiles, DataProcessor.ApplyVersionFile: the same no-throw precondition, for the row's name.
- Settings.ShowServiceHealth: a health answer on which the row mapping throws is not modelled; each entry is a `HealthApp` with string `name` and `status`. The `find` throws, outside any `try`, when it meets a `null` entry or an entry whose truthy `name` is not a string (such as `{"name": 5}`) before its match, for a row with a non-empty name. The whole call then rejects, `app.js` catches the error, and the table is left as it was. An entry that is not an object reads as the name `''`. A truthy `status` that is not a string would be stored as it is.
- Settings.Cut, Settings.FillEnv, Settings.FetchProductionBuild: three throwing inputs are not representable. `VersionApp` has a string name, and a `Build` is never `null`.
  - In `getBuildVersions`, an app with a truthy non-string `name` such as `{"name": 5}` throws at `.replace`. So does an app whose first instance is `null` (`instances: [null]`). Both happen inside the per-environment `try`, so that environment's remaining apps are not stored, just as for a registration without metadata.
  - In `fetchProductionBuild`, a `null` entry among the builds examined throws at `build.url`, outside its `try`. The caller then writes `Error` into that build cell, after the progress reports for the builds before it.
- Settings.ShowLastSuccessfulBuilds: the answers are one per job link (`jobs: map<string, JobAnswer>`). The source fetches again for every selected row and each of the two build columns, so two rows sharing a link could receive different answers; the model gives them the same one.
- Settings.NormalizeHealthNameForm: states the form of a normalised name, not idempotence. The design of the tool says normalising twice equals normalising once, but the code's health normaliser is not idempotent (see `Settings.NormalizeHealthNameNotIdempotent`).

## Findings

| source | as written | input that shows it | evidently intended | confidence | as-written member | corrected member |
|---|---|---|---|---|---|---|
| v2/js/dataProcessor.js:221-228 | existing service names are trimmed before lower-casing, but the key of a linked service is only lower-cased | the link `h/deploy_a /` gives the name `a `; every call finds `a` among the existing names, misses `a ` and appends another row | a second call adds nothing | not executed | DataProcessor.AddAllServicesNotIdempotent | DataProcessor.AddAllServicesTrimmedIdempotent |

=== FILE: data_processor.dfy ===
/**
  The reconciliation engine: base records from the deployment links, the
  additive enrichment from services tables, tracker rows and version
  manifests, the appending of services that are still missing, and the
  ordering of the headers into fixed zones.
*/
module DataProcessor {
  import opened Text
  import opened Records
  import opened Utils

  // ---------------------------------------------------------------------
  // getDeploymentLinks

  /** getDeploymentLinks with the saved text and the default list passed in:
      the trimmed, non-blank lines of the saved text, or of the defaults when
      nothing (or the empty text) is saved. */
  function DeploymentLinks(saved: string, defaults: string): (links: seq<string>)
    ensures forall k | 0 <= k < |links| :: links[k] != [] && IsTrimmed(links[k])
  {
    NonBlankLines(LinkSource(saved, defaults))
  }

  /** The text the links are read from. */
  function LinkSource(saved: string, defaults: string): string {
    if saved != "" then saved else defaults
  }

  lemma {:induction false} TrimmedNonEmptyKeeps(raw: seq<string>, k: nat)
    requires k < |raw| && Trim(raw[k]) != []
    ensures Trim(raw[k]) in TrimmedNonEmpty(raw)
    decreases k
  {
    if k > 0 {
      TrimmedNonEmptyKeeps(raw[1..], k - 1);
      assert raw[1..][k - 1] == raw[k];
    }
  }

  /** `line` is one of the lines of `raw`, trimmed. */
  predicate TrimOfSome(raw: seq<string>, line: string) {
    exists j | 0 <= j < |raw| :: line == Trim(raw[j])
  }

  lemma TrimOfTail(raw: seq<string>, line: string)
    requires |raw| > 0 && TrimOfSome(raw[1..], line)
    ensures TrimOfSome(raw, line)
  {
    var j :| 0 <= j < |raw[1..]| && line == Trim(raw[1..][j]);
    assert raw[1..][j] == raw[j + 1];
  }

  lemma {:induction false} TrimmedNonEmptyFrom(raw: seq<string>, line: string)
    requires line in TrimmedNonEmpty(raw)
    ensures TrimOfSome(raw, line)
    decreases |raw|
  {
    assert raw != [];
    if Trim(raw[0]) == [] {
      TrimmedNonEmptySkip(raw);
      TrimmedNonEmptyFrom(raw[1..], line);
      TrimOfTail(raw, line);
    } else if line == Trim(raw[0]) {
      assert TrimOfSome(raw, Trim(raw[0]));
    } else {
      TrimmedNonEmptyKeep(raw);
      TrimmedNonEmptyFrom(raw[1..], line);
      TrimOfTail(raw, line);
    }
  }

  /** A blank first line is dropped. */
  lemma TrimmedNonEmptySkip(raw: seq<string>)
    requires |raw| > 0 && Trim(raw[0]) == []
    ensures TrimmedNonEmpty(raw) == TrimmedNonEmpty(raw[1..])
  {
  }

  /** A first line that is not blank comes first, trimmed. */
  lemma TrimmedNonEmptyKeep(raw: seq<string>)
    requires |raw| > 0 && Trim(raw[0]) != []
    ensures TrimmedNonEmpty(raw) == [Trim(raw[0])] + TrimmedNonEmpty(raw[1..])
  {
  }

  /** Every line of the chosen text that is not blank is among the links,
      trimmed. */
  lemma DeploymentLinksComplete(saved: string, defaults: string, k: nat)
    requires k < |Split(LinkSource(saved, defaults), '\n')|
    requires Trim(Split(LinkSource(saved, defaults), '\n')[k]) != []
    ensures Trim(Split(LinkSource(saved, defaults), '\n')[k]) in DeploymentLinks(saved, defaults)
  {
    TrimmedNonEmptyKeeps(Split(LinkSource(saved, defaults), '\n'), k);
  }

  /** Every link is a trimmed line of the chosen text: of the saved text
      whenever one is saved. */
  lemma DeploymentLinksSound(saved: string, defaults: string, k: nat)
    requires k < |DeploymentLinks(saved, defaults)|
    ensures TrimOfSome(Split(LinkSource(saved, defaults), '\n'), DeploymentLinks(saved, defaults)[k])
  {
    TrimmedNonEmptyFrom(Split(LinkSource(saved, defaults), '\n'), DeploymentLinks(saved, defaults)[k]);
  }

  // ---------------------------------------------------------------------
  // createBaseDataFromDeploymentLinks

  /** The anchor markup the `Jenkins Link` column holds for a link. */
  function Anchor(link: string): string {
    "<a href=\"" + link + "\" target=\"_blank\" rel=\"noopener noreferrer\">Jenkins Link</a>"
  }

  /** The record built for one service: its name and its link's anchor. */
  function BaseRow(name: string, link: string): Row {
    [Field("Service0", name), Field("Jenkins Link", Anchor(link))]
  }

  lemma BaseRowFields(name: string, link: string)
    ensures Keys(BaseRow(name, link)) == ["Service0", "Jenkins Link"]
    ensures Get(BaseRow(name, link), "Service0") == Some(name)
    ensures Get(BaseRow(name, link), "Jenkins Link") == Some(Anchor(link))
    ensures DistinctKeys(BaseRow(name, link))
  {
    var r := BaseRow(name, link);
    assert "Service0"[0] != "Jenkins Link"[0];
    assert r[1..] == [Field("Jenkins Link", Anchor(link))];
    assert IndexOf(r, "Jenkins Link") == 1;
  }

  /** The service name each link carries, empty for a link that carries
      none. */
  function LinkNames(links: seq<string>): (names: seq<string>)
    ensures |names| == |links|
  {
    if links == [] then []
    else LinkNames(links[..|links| - 1]) + [ExtractServiceNameFromLink(links[|links| - 1])]
  }

  lemma {:induction false} LinkNamesAt(links: seq<string>, i: nat)
    requires i < |links|
    ensures LinkNames(links)[i] == ExtractServiceNameFromLink(links[i])
    decreases |links|
  {
    if i < |links| - 1 {
      LinkNamesAt(links[..|links| - 1], i);
    }
  }

  /** Name `k` is not empty, and no earlier name equals it up to case. */
  predicate FirstOfName(names: seq<string>, k: nat)
    requires k < |names|
  {
    names[k] != "" && forall i | 0 <= i < k :: Lower(names[i]) != Lower(names[k])
  }

  /** The positions among the first `n` names that open a new name, in
      increasing order, all of them. */
  function FirstLinks(names: seq<string>, n: nat): (idx: seq<nat>)
    requires n <= |names|
    ensures forall i | 0 <= i < |idx| :: idx[i] < n && FirstOfName(names, idx[i])
    ensures forall i, j | 0 <= i < j < |idx| :: idx[i] < idx[j]
    ensures forall k | 0 <= k < n && FirstOfName(names, k) :: k in idx
  {
    if n == 0 then []
    else FirstLinks(names, n - 1) + (if FirstOfName(names, n - 1) then [n - 1] else [])
  }

  /** The base data the first `n` links determine, given the names they
      carry: one record per first link of each case-insensitively distinct
      name, in link order. */
  function BaseRows(links: seq<string>, names: seq<string>, n: nat): seq<Row>
    requires n <= |links| == |names|
  {
    if n == 0 then []
    else
      BaseRows(links, names, n - 1)
      + (if FirstOfName(names, n - 1) then [BaseRow(names[n - 1], links[n - 1])] else [])
  }

  function BaseData(links: seq<string>): seq<Row> {
    BaseRows(links, LinkNames(links), |links|)
  }

  /** Record `i` is built from the `i`-th link that opens a new name. */
  lemma {:induction false} BaseRowsAt(links: seq<string>, names: seq<string>, n: nat, i: nat)
    requires n <= |links| == |names|
    ensures |BaseRows(links, names, n)| == |FirstLinks(names, n)|
    ensures i < |BaseRows(links, names, n)| ==>
      BaseRows(links, names, n)[i] == BaseRow(names[FirstLinks(names, n)[i]], links[FirstLinks(names, n)[i]])
    decreases n
  {
    if n > 0 {
      BaseRowsAt(links, names, n - 1, i);
    }
  }

  /** The lower-cased non-empty names among the first `n`. */
  function SeenNames(names: seq<string>, n: nat): set<string>
    requires n <= |names|
  {
    set i | 0 <= i < n && names[i] != "" :: Lower(names[i])
  }

  /** Whether name `j` opens a new name is decided by the set of the
      lower-cased names before it, and that set grows by this name. */
  lemma SeenNamesStep(names: seq<string>, j: nat)
    requires j < |names|
    ensures FirstOfName(names, j) <==> names[j] != "" && Lower(names[j]) !in SeenNames(names, j)
    ensures SeenNames(names, j + 1)
      == SeenNames(names, j) + (if names[j] != "" then {Lower(names[j])} else {})
  {
    if names[j] != "" && !FirstOfName(names, j) {
      var i :| 0 <= i < j && Lower(names[i]) == Lower(names[j]);
      assert names[i] != "";
      assert Lower(names[i]) in SeenNames(names, j);
    }
  }

  /** One iteration of the base-data loop, stated with the name the link
      carries. */
  lemma BaseDataStep(links: seq<string>, j: nat, name: string)
    requires j < |links| && name == ExtractServiceNameFromLink(links[j])
    ensures BaseRows(links, LinkNames(links), j + 1)
      == BaseRows(links, LinkNames(links), j)
         + (if name != "" && Lower(name) !in SeenNames(LinkNames(links), j) then [BaseRow(name, links[j])] else [])
    ensures SeenNames(LinkNames(links), j + 1)
      == SeenNames(LinkNames(links), j) + (if name != "" then {Lower(name)} else {})
  {
    LinkNamesAt(links, j);
    SeenNamesStep(LinkNames(links), j);
  }

  /** A link whose name is new adds its record and its name. */
  lemma BaseDataAdd(links: seq<string>, j: nat, name: string)
    requires j < |links| && name == ExtractServiceNameFromLink(links[j])
    requires name != "" && Lower(name) !in SeenNames(LinkNames(links), j)
    ensures BaseRows(links, LinkNames(links), j + 1) == BaseRows(links, LinkNames(links), j) + [BaseRow(name, links[j])]
    ensures SeenNames(LinkNames(links), j + 1) == SeenNames(LinkNames(links), j) + {Lower(name)}
  {
    BaseDataStep(links, j, name);
  }

  /** A link without a name, or with one seen before, changes nothing. */
  lemma BaseDataSkip(links: seq<string>, j: nat, name: string)
    requires j < |links| && name == ExtractServiceNameFromLink(links[j])
    requires name == "" || Lower(name) in SeenNames(LinkNames(links), j)
    ensures BaseRows(links, LinkNames(links), j + 1) == BaseRows(links, LinkNames(links), j)
    ensures SeenNames(LinkNames(links), j + 1) == SeenNames(LinkNames(links), j)
  {
    BaseDataStep(links, j, name);
    var seen := SeenNames(LinkNames(links), j);
    if name != "" {
      assert seen + {Lower(name)} == seen;
    }
  }

  /** createBaseDataFromDeploymentLinks over the given links, with the set of
      lower-cased names already processed. */
  method CreateBaseDataFromDeploymentLinks(deploymentLinks: seq<string>) returns (baseData: seq<Row>)
    ensures baseData == BaseData(deploymentLinks)
  {
    baseData := [];
    var processedServices: set<string> := {};
    for j := 0 to |deploymentLinks|
      invariant baseData == BaseRows(deploymentLinks, LinkNames(deploymentLinks), j)
      invariant processedServices == SeenNames(LinkNames(deploymentLinks), j)
    {
      var link := deploymentLinks[j];
      var serviceName := ExtractServiceNameFromLink(link);
      if serviceName != "" && Lower(serviceName) !in processedServices {
        BaseDataAdd(deploymentLinks, j, serviceName);
        baseData := baseData + [BaseRow(serviceName, link)];
        processedServices := processedServices + {Lower(serviceName)};
      } else {
        BaseDataSkip(deploymentLinks, j, serviceName);
      }
    }
  }

  /** Two records of the base data never name the same service, up to case:
      the first link of a name wins. */
  lemma BaseDataDistinct(links: seq<string>, i: nat, j: nat)
    requires i < j < |BaseData(links)|
    ensures Lower(Value(BaseData(links)[i], "Service0")) != Lower(Value(BaseData(links)[j], "Service0"))
  {
    var names := LinkNames(links);
    var idx := FirstLinks(names, |links|);
    BaseRowsAt(links, names, |links|, i);
    BaseRowsAt(links, names, |links|, j);
    BaseRowFields(names[idx[i]], links[idx[i]]);
    BaseRowFields(names[idx[j]], links[idx[j]]);
    assert FirstOfName(names, idx[j]);
  }

  /** Every record holds exactly `Service0` and `Jenkins Link`: the name a
      link carries, and that link wrapped in an anchor. */
  lemma BaseDataRecord(links: seq<string>, i: nat)
    requires i < |BaseData(links)|
    ensures Keys(BaseData(links)[i]) == ["Service0", "Jenkins Link"]
    ensures exists k | 0 <= k < |links| ::
      NamedBy(links[k], Value(BaseData(links)[i], "Service0"))
      && Value(BaseData(links)[i], "Jenkins Link") == Anchor(links[k])
  {
    var names := LinkNames(links);
    var idx := FirstLinks(names, |links|);
    BaseRowsAt(links, names, |links|, i);
    var k := idx[i];
    BaseRowFields(names[k], links[k]);
    LinkNamesAt(links, k);
  }

  /** The first position holding the name at `k`, up to case. */
  lemma {:induction false} FirstOfNameBefore(names: seq<string>, k: nat) returns (f: nat)
    requires k < |names| && names[k] != ""
    ensures f <= k && FirstOfName(names, f) && Lower(names[f]) == Lower(names[k])
    decreases k
  {
    if FirstOfName(names, k) {
      f := k;
    } else {
      var i :| 0 <= i < k && Lower(names[i]) == Lower(names[k]);
      f := FirstOfNameBefore(names, i);
    }
  }

  /** No service is skipped: every link that names a service has a record
      with that name, up to case. */
  lemma BaseDataComplete(links: seq<string>, k: nat)
    requires k < |links| && ExtractServiceNameFromLink(links[k]) != ""
    ensures exists i | 0 <= i < |BaseData(links)| ::
      Lower(Value(BaseData(links)[i], "Service0")) == Lower(ExtractServiceNameFromLink(links[k]))
  {
    var names := LinkNames(links);
    LinkNamesAt(links, k);
    var f := FirstOfNameBefore(names, k);
    var idx := FirstLinks(names, |links|);
    var i :| 0 <= i < |idx| && idx[i] == f;
    BaseRowsAt(links, names, |links|, i);
    BaseRowFields(names[f], links[f]);
    assert Value(BaseData(links)[i], "Service0") == names[f];
  }

  // ---------------------------------------------------------------------
  // enrichWithJiraData

  /** The form of a service name used for matching: lower-cased, without
      one trailing `-headless`. */
  function ServiceKey(name: string): string {
    StripSuffix(Lower(name), "-headless")
  }

  /** A name carrying the `-headless` suffix matches as the name without it. */
  lemma ServiceKeyHeadless(name: string)
    ensures ServiceKey(name + "-headless") == Lower(name)
  {
    LowerAppend(name, "-headless");
    assert Lower("-headless") == "-headless";
    var l := Lower(name + "-headless");
    assert l[|l| - 9..] == "-headless";
    assert l[..|l| - 9] == Lower(name);
  }

  /** One character of the name pattern: a `-` of the name stands for
      `[-_]`, any other character for itself. */
  predicate NameCharMatches(n: char, c: char) {
    if n == '-' then c == '-' || c == '_' else c == n
  }

  /** The pattern `(?:^|\s|-)<name>(?:\s|$|-|_)` matches `s` with the name
      starting at `p`. */
  predicate TokenAt(s: string, name: string, p: int) {
    0 <= p && p + |name| <= |s|
    && (p == 0 || IsSpace(s[p - 1]) || s[p - 1] == '-')
    && (forall k | 0 <= k < |name| :: NameCharMatches(name[k], s[p + k]))
    && (p + |name| == |s| || IsSpace(s[p + |name|]) || s[p + |name|] == '-' || s[p + |name|] == '_')
  }

  /** The boundary-aware search of a lower-cased tracker summary for a
      service name. */
  predicate Mentions(summary: string, name: string) {
    exists p | 0 <= p <= |summary| - |name| :: TokenAt(summary, name, p)
  }

  /** The lower-cased `Summary` of a tracker row, `''` when it has none. */
  function Summary(r: Row): string {
    Lower(Value(r, "Summary"))
  }

  /** `jiraData.find(...)`: the position of the first tracker row whose
      summary mentions the name, or -1. */
  function FindJiraRow(jiraData: seq<Row>, name: string): (i: int)
    ensures -1 <= i < |jiraData|
    ensures i >= 0 ==> Mentions(Summary(jiraData[i]), name)
    ensures forall j | 0 <= j < |jiraData| && (i < 0 || j < i) :: !Mentions(Summary(jiraData[j]), name)
    decreases |jiraData|
  {
    if jiraData == [] then -1
    else if Mentions(Summary(jiraData[0]), name) then 0
    else
      var t := FindJiraRow(jiraData[1..], name);
      assert forall j | 1 <= j < |jiraData| :: jiraData[j] == jiraData[1..][j - 1];
      if t < 0 then -1 else t + 1
  }

  /** The key a base row is matched by. */
  function JiraKey(row: Row): string {
    ServiceKey(Value(row, "Service0"))
  }

  /** One base row after the tracker enrichment: merged with the first
      matching tracker row, which only adds keys the row lacks, or left as
      it is. */
  function EnrichRowWithJira(row: Row, jiraData: seq<Row>): (r: Row)
    ensures Extends(row, r)
    ensures FindJiraRow(jiraData, JiraKey(row)) < 0 ==> r == row
    ensures var m := FindJiraRow(jiraData, JiraKey(row));
      m >= 0 ==> (forall k :: Has(r, k) <==> Has(row, k) || Has(jiraData[m], k))
    ensures var m := FindJiraRow(jiraData, JiraKey(row));
      m >= 0 ==> forall k | !Has(row, k) && Has(jiraData[m], k) :: Get(r, k) == Get(jiraData[m], k)
  {
    var m := FindJiraRow(jiraData, JiraKey(row));
    if m < 0 then row
    else
      MergeAbsentSpec(row, jiraData[m]);
      MergeAbsent(row, jiraData[m])
  }

  /** enrichWithJiraData: the rows in the same number and order, each one
      extended and never overwritten; a row without a matching tracker row,
      or every row when there is no tracker data, is returned unchanged. */
  function EnrichWithJiraData(baseData: seq<Row>, jiraData: seq<Row>): (out: seq<Row>)
    ensures |out| == |baseData|
    ensures forall i | 0 <= i < |baseData| :: Extends(baseData[i], out[i])
    ensures forall i | 0 <= i < |baseData| && FindJiraRow(jiraData, JiraKey(baseData[i])) < 0 ::
      out[i] == baseData[i]
  {
    if |jiraData| == 0 then baseData
    else seq(|baseData|, i requires 0 <= i < |baseData| => EnrichRowWithJira(baseData[i], jiraData))
  }

  /** A matched row gains exactly the keys of its tracker row that it lacked,
      with that row's values. */
  lemma EnrichWithJiraMatched(baseData: seq<Row>, jiraData: seq<Row>, i: nat, k: string)
    requires i < |baseData| && FindJiraRow(jiraData, JiraKey(baseData[i])) >= 0
    ensures var m := FindJiraRow(jiraData, JiraKey(baseData[i]));
      Has(EnrichWithJiraData(baseData, jiraData)[i], k) <==> Has(baseData[i], k) || Has(jiraData[m], k)
    ensures var m := FindJiraRow(jiraData, JiraKey(baseData[i]));
      !Has(baseData[i], k) && Has(jiraData[m], k) ==>
        Get(EnrichWithJiraData(baseData, jiraData)[i], k) == Get(jiraData[m], k)
  {
    assert EnrichWithJiraData(baseData, jiraData)[i] == EnrichRowWithJira(baseData[i], jiraData);
  }

  /** A summary that carries the name as a word of its own, written with
      `-` or `_` wherever the name has a `-`, mentions the name. */
  lemma MentionsSpaced(a: string, u: string, b: string, name: string)
    requires |u| == |name|
    requires forall k | 0 <= k < |name| :: u[k] == name[k] || (name[k] == '-' && u[k] == '_')
    ensures Mentions(a + " " + u + " " + b, name)
  {
    var s := a + " " + u + " " + b;
    var p := |a| + 1;
    assert s[p - 1] == ' ';
    assert s[p + |name|] == ' ';
    forall k | 0 <= k < |name| ensures NameCharMatches(name[k], s[p + k]) {
      assert s[p + k] == u[k];
    }
    assert TokenAt(s, name, p);
  }

  /** The underscore spelling of a name is found as the name. */
  lemma MentionsUnderscored(a: string, b: string, name: string)
    ensures Mentions(a + " " + ReplaceChar(name, '-', '_') + " " + b, name)
  {
    MentionsSpaced(a, ReplaceChar(name, '-', '_'), b, name);
  }

  /** The search finds nothing more than the name itself: for a name without
      `-`, a mention is an occurrence. */
  lemma MentionsContains(s: string, name: string)
    requires '-' !in name && Mentions(s, name)
    ensures Contains(s, name)
  {
    var p :| 0 <= p <= |s| - |name| && TokenAt(s, name, p);
    forall k | 0 <= k < |name| ensures s[p..p + |name|][k] == name[k] {
      assert name[k] != '-';
      assert NameCharMatches(name[k], s[p + k]);
    }
    assert s[p..p + |name|] == name;
    assert OccursAt(s, name, p);
  }

  /** A name glued to a preceding letter or digit is not found there. */
  lemma NotMentionedInsideWord(s: string, name: string, p: nat)
    requires 0 < p <= |s| - |name| && IsWordChar(s[p - 1])
    ensures !TokenAt(s, name, p)
  {
  }

  // ---------------------------------------------------------------------
  // enrichWithServicesData

  /** The name test of the services and the versions enrichment: the two
      matching keys are equal as they are, or once every `-` is read as `_`. */
  predicate NamesMatch(a: string, b: string) {
    var x := ServiceKey(a);
    var y := ServiceKey(b);
    x == y || ReplaceChar(x, '-', '_') == ReplaceChar(y, '-', '_')
  }

  /** The first disjunct adds nothing: names match exactly when their keys
      agree with every `-` read as `_`. */
  lemma NamesMatchIff(a: string, b: string)
    ensures NamesMatch(a, b) <==> ReplaceChar(ServiceKey(a), '-', '_') == ReplaceChar(ServiceKey(b), '-', '_')
  {
  }

  /** The name test is an equivalence. */
  lemma NamesMatchEquivalence(a: string, b: string, c: string)
    ensures NamesMatch(a, a)
    ensures NamesMatch(a, b) ==> NamesMatch(b, a)
    ensures NamesMatch(a, b) && NamesMatch(b, c) ==> NamesMatch(a, c)
  {
    NamesMatchIff(a, b);
    NamesMatchIff(b, c);
    NamesMatchIff(a, c);
  }

  /** `servicesData.find(...)`: the first row whose `Service0` matches the
      name, or -1. */
  function FindService(rows: seq<Row>, name: string): (i: int)
    ensures -1 <= i < |rows|
    ensures i >= 0 ==> NamesMatch(Value(rows[i], "Service0"), name)
    decreases |rows|
  {
    if rows == [] then -1
    else if NamesMatch(Value(rows[0], "Service0"), name) then 0
    else
      var t := FindService(rows[1..], name);
      if t < 0 then -1 else t + 1
  }

  /** The row found is the first that matches, and -1 means none does. */
  lemma {:induction false} FindServiceFirst(rows: seq<Row>, name: string, j: nat)
    requires j < |rows| && (FindService(rows, name) < 0 || j < FindService(rows, name))
    ensures !NamesMatch(Value(rows[j], "Service0"), name)
    decreases |rows|
  {
    if j > 0 {
      assert rows[j] == rows[1..][j - 1];
      FindServiceFirst(rows[1..], name, j - 1);
    }
  }

  /** `fileNames[fileIndex]`; a missing label reads as the empty string. */
  function FileLabel(fileNames: seq<string>, f: nat): string {
    if f < |fileNames| then fileNames[f] else ""
  }

  /** The row emitted for a base row and the matching row of one file: the
      base row with the other row's missing keys added, and `Environment`
      set to the file's label. */
  function FileRow(baseRow: Row, service: Row, fileName: string): Row {
    Put(MergeAbsent(baseRow, service), "Environment", fileName)
  }

  /** The base row's values survive except `Environment`, which holds the
      label; the other keys come from the matching row. */
  lemma FileRowSpec(baseRow: Row, service: Row, fileName: string)
    ensures Get(FileRow(baseRow, service, fileName), "Environment") == Some(fileName)
    ensures forall k | k != "Environment" && Has(baseRow, k) :: Get(FileRow(baseRow, service, fileName), k) == Get(baseRow, k)
    ensures forall k | k != "Environment" && !Has(baseRow, k) && Has(service, k) ::
      Get(FileRow(baseRow, service, fileName), k) == Get(service, k)
    ensures forall k :: Has(FileRow(baseRow, service, fileName), k) <==> Has(baseRow, k) || Has(service, k) || k == "Environment"
  {
    var m := MergeAbsent(baseRow, service);
    MergeAbsentSpec(baseRow, service);
    PutGet(m, "Environment", fileName);
  }

  /** The position of the matching row in each file, -1 where there is
      none. */
  function Found(files: seq<seq<Row>>, name: string): (found: seq<int>)
    ensures |found| == |files|
    ensures forall f | 0 <= f < |files| :: -1 <= found[f] < |files[f]|
    decreases |files|
  {
    if files == [] then []
    else
      var init := Found(files[..|files| - 1], name);
      assert forall f | 0 <= f < |files| - 1 :: files[..|files| - 1][f] == files[f];
      init + [FindService(files[|files| - 1], name)]
  }

  lemma {:induction false} FoundAt(files: seq<seq<Row>>, name: string, f: nat)
    requires f < |files|
    ensures Found(files, name)[f] == FindService(files[f], name)
    decreases |files|
  {
    if f < |files| - 1 {
      FoundAt(files[..|files| - 1], name, f);
      assert files[..|files| - 1][f] == files[f];
    }
  }

  /** Match positions as Found gives them: one per file, each -1 or a row of
      that file. */
  ghost predicate ValidFound(files: seq<seq<Row>>, found: seq<int>) {
    |found| == |files| && forall f | 0 <= f < |files| :: -1 <= found[f] < |files[f]|
  }

  /** The rows the first `n` files contribute for one base row, in file
      order, given where each file matches. */
  function ServicesRows(baseRow: Row, files: seq<seq<Row>>, fileNames: seq<string>, found: seq<int>, n: nat): seq<Row>
    requires ValidFound(files, found) && n <= |files|
  {
    if n == 0 then []
    else
      ServicesRows(baseRow, files, fileNames, found, n - 1)
      + (if found[n - 1] >= 0 then [FileRow(baseRow, files[n - 1][found[n - 1]], FileLabel(fileNames, n - 1))] else [])
  }

  /** All the rows emitted for one base row, given where each file
      matches: one per file with a match, or the base row itself when no
      file has one. */
  function RowsWith(baseRow: Row, files: seq<seq<Row>>, fileNames: seq<string>, found: seq<int>): (out: seq<Row>)
    requires ValidFound(files, found)
    ensures out != []
  {
    var rows := ServicesRows(baseRow, files, fileNames, found, |files|);
    if rows == [] then [baseRow] else rows
  }

  function RowsFor(baseRow: Row, files: seq<seq<Row>>, fileNames: seq<string>): seq<Row> {
    RowsWith(baseRow, files, fileNames, Found(files, Value(baseRow, "Service0")))
  }

  /** The rows emitted for the first `n` base rows: at least one each. */
  function EnrichedRows(baseData: seq<Row>, files: seq<seq<Row>>, fileNames: seq<string>, n: nat): (out: seq<Row>)
    requires n <= |baseData|
    ensures |out| >= n
  {
    if n == 0 then []
    else EnrichedRows(baseData, files, fileNames, n - 1) + RowsFor(baseData[n - 1], files, fileNames)
  }

  function EnrichedWithServices(baseData: seq<Row>, files: seq<seq<Row>>, fileNames: seq<string>): seq<Row> {
    if |files| == 0 then baseData else EnrichedRows(baseData, files, fileNames, |baseData|)
  }

  /** One iteration over the files, stated with the search result. */
  lemma ServicesStep(baseRow: Row, files: seq<seq<Row>>, fileNames: seq<string>, f: nat, m: int)
    requires f < |files| && m == FindService(files[f], Value(baseRow, "Service0"))
    ensures var found := Found(files, Value(baseRow, "Service0"));
      ServicesRows(baseRow, files, fileNames, found, f + 1)
      == ServicesRows(baseRow, files, fileNames, found, f)
         + (if m >= 0 then [FileRow(baseRow, files[f][m], FileLabel(fileNames, f))] else [])
  {
    FoundAt(files, Value(baseRow, "Service0"), f);
  }

  /** The body of enrichWithServicesData for one base row: every file is
      searched for its first matching row, each match emits a row, and the
      `foundMatch` flag keeps the base row when no file has one. */
  method MatchAcrossFiles(baseRow: Row, allServicesData: seq<seq<Row>>, fileNames: seq<string>)
    returns (rows: seq<Row>)
    ensures rows == RowsFor(baseRow, allServicesData, fileNames)
  {
    rows := [];
    var foundMatch := false;
    ghost var found := Found(allServicesData, Value(baseRow, "Service0"));
    for fileIndex := 0 to |allServicesData|
      invariant rows == ServicesRows(baseRow, allServicesData, fileNames, found, fileIndex)
      invariant foundMatch <==> rows != []
    {
      var fileName := FileLabel(fileNames, fileIndex);
      var m := FindService(allServicesData[fileIndex], Value(baseRow, "Service0"));
      ServicesStep(baseRow, allServicesData, fileNames, fileIndex, m);
      if m >= 0 {
        var enrichedRow := MergeAbsent(baseRow, allServicesData[fileIndex][m]);
        enrichedRow := Put(enrichedRow, "Environment", fileName);
        rows := rows + [enrichedRow];
        foundMatch := true;
      }
    }
    if !foundMatch {
      rows := [baseRow];
    }
  }

  /** enrichWithServicesData: the rows each base row yields, in base-row
      order; no services data leaves the base data as it is. */
  method EnrichWithServicesData(baseData: seq<Row>, allServicesData: seq<seq<Row>>, fileNames: seq<string>)
    returns (enrichedData: seq<Row>)
    ensures enrichedData == EnrichedWithServices(baseData, allServicesData, fileNames)
  {
    if |allServicesData| == 0 {
      return baseData;
    }
    enrichedData := [];
    for i := 0 to |baseData|
      invariant enrichedData == EnrichedRows(baseData, allServicesData, fileNames, i)
    {
      var rows := MatchAcrossFiles(baseData[i], allServicesData, fileNames);
      enrichedData := enrichedData + rows;
    }
  }

  /** The files with a match among the first `n`, in increasing order, all
      of them. */
  function MatchingFiles(found: seq<int>, n: nat): (idx: seq<nat>)
    requires n <= |found|
    ensures forall j | 0 <= j < |idx| :: idx[j] < n && found[idx[j]] >= 0
    ensures forall j, l | 0 <= j < l < |idx| :: idx[j] < idx[l]
    ensures forall f | 0 <= f < n && found[f] >= 0 :: f in idx
  {
    if n == 0 then []
    else MatchingFiles(found, n - 1) + (if found[n - 1] >= 0 then [n - 1] else [])
  }

  /** A base row's contribution holds one row per file with a match. */
  lemma {:induction false} ServicesRowsCount(baseRow: Row, files: seq<seq<Row>>, fileNames: seq<string>, found: seq<int>, n: nat)
    requires ValidFound(files, found) && n <= |files|
    ensures |ServicesRows(baseRow, files, fileNames, found, n)| == |MatchingFiles(found, n)|
    decreases n
  {
    if n > 0 {
      ServicesRowsCount(baseRow, files, fileNames, found, n - 1);
    }
  }

  /** Row `j` of a base row's contribution comes from the `j`-th file with a
      match, and is labelled with that file's name. */
  lemma {:induction false} ServicesRowsAt(baseRow: Row, files: seq<seq<Row>>, fileNames: seq<string>, found: seq<int>, n: nat, j: nat)
    requires ValidFound(files, found) && n <= |files|
    requires j < |MatchingFiles(found, n)|
    ensures j < |ServicesRows(baseRow, files, fileNames, found, n)|
    ensures var f := MatchingFiles(found, n)[j];
      ServicesRows(baseRow, files, fileNames, found, n)[j] == FileRow(baseRow, files[f][found[f]], FileLabel(fileNames, f))
    decreases n
  {
    ServicesRowsCount(baseRow, files, fileNames, found, n);
    var prev := ServicesRows(baseRow, files, fileNames, found, n - 1);
    var before := MatchingFiles(found, n - 1);
    ServicesRowsCount(baseRow, files, fileNames, found, n - 1);
    if j < |before| {
      ServicesRowsAt(baseRow, files, fileNames, found, n - 1, j);
      assert ServicesRows(baseRow, files, fileNames, found, n)[j] == prev[j];
      assert MatchingFiles(found, n)[j] == before[j];
    } else {
      assert found[n - 1] >= 0 && MatchingFiles(found, n)[j] == n - 1;
    }
  }

  /** A base row is never lost: it yields one row per matching file, or
      itself when there is none. */
  lemma RowsWithCount(baseRow: Row, files: seq<seq<Row>>, fileNames: seq<string>, found: seq<int>)
    requires ValidFound(files, found)
    ensures var idx := MatchingFiles(found, |files|);
      |RowsWith(baseRow, files, fileNames, found)| == if idx == [] then 1 else |idx|
    ensures MatchingFiles(found, |files|) == [] ==> RowsWith(baseRow, files, fileNames, found) == [baseRow]
  {
    ServicesRowsCount(baseRow, files, fileNames, found, |files|);
  }

  lemma RowsForSpec(baseRow: Row, files: seq<seq<Row>>, fileNames: seq<string>)
    ensures var idx := MatchingFiles(Found(files, Value(baseRow, "Service0")), |files|);
      |RowsFor(baseRow, files, fileNames)| == if idx == [] then 1 else |idx|
  {
    RowsWithCount(baseRow, files, fileNames, Found(files, Value(baseRow, "Service0")));
  }

  /** A base row no file matches passes through unchanged. */
  lemma RowsForUnmatched(baseRow: Row, files: seq<seq<Row>>, fileNames: seq<string>)
    requires forall f | 0 <= f < |files| :: FindService(files[f], Value(baseRow, "Service0")) < 0
    ensures RowsFor(baseRow, files, fileNames) == [baseRow]
  {
    var name := Value(baseRow, "Service0");
    var found := Found(files, name);
    var idx := MatchingFiles(found, |files|);
    if idx != [] {
      FoundAt(files, name, idx[0]);
      assert false;
    }
    RowsWithCount(baseRow, files, fileNames, found);
  }

  /** Row `j` emitted for a base row with matches comes from the `j`-th
      matching file: it carries that file's label, keeps the base row's
      values except `Environment`, and takes the other values from the
      file's matching row. */
  lemma RowsWithMatched(baseRow: Row, files: seq<seq<Row>>, fileNames: seq<string>, found: seq<int>, j: nat, k: string)
    requires ValidFound(files, found) && j < |MatchingFiles(found, |files|)|
    ensures var f := MatchingFiles(found, |files|)[j];
      var rows := RowsWith(baseRow, files, fileNames, found);
      j < |rows| && found[f] >= 0
      && Get(rows[j], "Environment") == Some(FileLabel(fileNames, f))
      && (k != "Environment" && Has(baseRow, k) ==> Get(rows[j], k) == Get(baseRow, k))
      && (k != "Environment" && !Has(baseRow, k) && Has(files[f][found[f]], k) ==>
            Get(rows[j], k) == Get(files[f][found[f]], k))
  {
    var f := MatchingFiles(found, |files|)[j];
    ServicesRowsAt(baseRow, files, fileNames, found, |files|, j);
    FileRowSpec(baseRow, files[f][found[f]], FileLabel(fileNames, f));
  }

  /** The same for the rows enrichWithServicesData emits: the matching
      files are those where FindService succeeds. */
  lemma RowsForMatched(baseRow: Row, files: seq<seq<Row>>, fileNames: seq<string>, j: nat, k: string)
    requires j < |MatchingFiles(Found(files, Value(baseRow, "Service0")), |files|)|
    ensures var found := Found(files, Value(baseRow, "Service0"));
      var f := MatchingFiles(found, |files|)[j];
      var rows := RowsFor(baseRow, files, fileNames);
      found[f] == FindService(files[f], Value(baseRow, "Service0")) >= 0
      && j < |rows| && Get(rows[j], "Environment") == Some(FileLabel(fileNames, f))
      && (k != "Environment" && Has(baseRow, k) ==> Get(rows[j], k) == Get(baseRow, k))
      && (k != "Environment" && !Has(baseRow, k) && Has(files[f][found[f]], k) ==>
            Get(rows[j], k) == Get(files[f][found[f]], k))
  {
    var found := Found(files, Value(baseRow, "Service0"));
    FoundAt(files, Value(baseRow, "Service0"), MatchingFiles(found, |files|)[j]);
    RowsWithMatched(baseRow, files, fileNames, found, j, k);
  }

  // ---------------------------------------------------------------------
  // enrichWithVersionsData

  /** One uploaded versions file: its parsed document and its name. */
  datatype VersionFile = VersionFile(data: Json, fileName: string)

  /** The digits of a natural number, most significant first. */
  function NatDigits(n: nat): (d: string)
    ensures d != [] && AllDigits(d)
  {
    var c := "0123456789"[n % 10];
    if n < 10 then [c] else NatDigits(n / 10) + [c]
  }

  /** `String(n)` for an integer. */
  function Decimal(n: int): string {
    if n < 0 then "-" + NatDigits(-n) else NatDigits(n)
  }

  /** `String(value)`: arrays join their elements with `,`, null elements
      reading as empty, and every object reads `[object Object]`. */
  function JsString(j: Json): (s: string)
    ensures j.JStr? ==> s == j.s
    decreases j
  {
    match j
    case JNull => "null"
    case JBool(b) => if b then "true" else "false"
    case JNum(n) => Decimal(n)
    case JStr(t) => t
    case JArr(items) =>
      Join(seq(|items|, i requires 0 <= i < |items| => if items[i].JNull? then "" else JsString(items[i])), ',')
    case JObj(_) => "[object Object]"
  }

  /** The text of the cell `matchingService[key] || ''` sets. */
  function CellText(j: Json): (s: string)
    ensures !Truthy(j) ==> s == ""
    ensures j.JStr? ==> s == j.s
  {
    if Truthy(j) then JsString(j) else ""
  }

  /** `(serviceObj.service || '')`. */
  function EntryName(e: Json): string {
    match Prop(e, "service")
    case Some(JStr(s)) => s
    case _ => ""
  }

  /** An entry of `service_versions` the `find` callback reads without
      throwing: not `null`, whose `service` cannot be read, and with a
      `service` that is a string when truthy, since `toLowerCase` is called
      on it. Any other value, a number, a string or an array, has no
      `service` and reads as the name `''`. An object has distinct keys, as
      `JSON.parse` produces. */
  predicate ReadableEntry(e: Json) {
    !e.JNull?
    && (e.JObj? ==> forall i, j | 0 <= i < j < |e.members| :: e.members[i].key != e.members[j].key)
    && (TruthyProp(e, "service") ==> Prop(e, "service").value.JStr?)
  }

  /** A file the forEach reads for a row named `name` without throwing: a
      truthy `service_versions` is an array (`find` is called on it), and
      every entry the `find` reaches, up to its first match or all of them
      when none matches, is readable; entries after the match are never
      read. A file without a truthy `service_versions` is skipped. */
  predicate ReadableFile(v: VersionFile, name: string) {
    (TruthyProp(v.data, "service_versions") ==> Prop(v.data, "service_versions").value.JArr?)
    && var items := Entries(v);
       forall j | 0 <= j < |items| && (FindEntry(items, name) < 0 || j <= FindEntry(items, name)) :: ReadableEntry(items[j])
  }

  /** The entries a file offers: none when `service_versions` is missing or
      falsy. */
  function Entries(v: VersionFile): seq<Json> {
    if TruthyProp(v.data, "service_versions") && Prop(v.data, "service_versions").value.JArr? then
      Prop(v.data, "service_versions").value.items
    else []
  }

  /** The `find` over `service_versions`: the first entry whose service name
      matches, or -1. */
  function FindEntry(items: seq<Json>, name: string): (i: int)
    ensures -1 <= i < |items|
    ensures i >= 0 ==> NamesMatch(EntryName(items[i]), name)
    decreases |items|
  {
    if items == [] then -1
    else if NamesMatch(EntryName(items[0]), name) then 0
    else
      var t := FindEntry(items[1..], name);
      if t < 0 then -1 else t + 1
  }

  /** The entry found is the first that matches, and -1 means none does. */
  lemma {:induction false} FindEntryFirst(items: seq<Json>, name: string, j: nat)
    requires j < |items| && (FindEntry(items, name) < 0 || j < FindEntry(items, name))
    ensures !NamesMatch(EntryName(items[j]), name)
    decreases |items|
  {
    var first := NamesMatch(EntryName(items[0]), name);
    var t := FindEntry(items[1..], name);
    assert FindEntry(items, name) == if first then 0 else if t < 0 then -1 else t + 1;
    if j > 0 {
      assert t < 0 || j - 1 < t;
      assert items[j] == items[1..][j - 1];
      FindEntryFirst(items[1..], name, j - 1);
    }
  }

  /** `Object.keys(matchingService)` with the value at each key: an
      object's own members in order, a string's characters and an array's
      elements under their indices, and nothing for a number or a boolean.
      A falsy entry, skipped by `if (matchingService)`, offers nothing. */
  function EntryMembers(e: Json): (ms: seq<Member>)
    ensures e.JObj? ==> ms == e.members
    ensures !Truthy(e) ==> ms == []
    ensures e.JStr? ==> |ms| == |e.s|
    ensures e.JArr? ==> |ms| == |e.items|
    ensures !e.JObj? ==> forall m | m in ms :: AllDigits(m.key) && m.key != "service"
  {
    assert !IsDigit("service"[0]);
    match e
    case JObj(members) => members
    case JStr(t) => seq(|t|, i requires 0 <= i < |t| => Member(NatDigits(i), JStr([t[i]])))
    case JArr(items) => seq(|items|, i requires 0 <= i < |items| => Member(NatDigits(i), items[i]))
    case _ => []
  }

  /** The members of the entry a file has for `name`, none when it has no
      such entry. */
  function Offered(v: VersionFile, name: string): seq<Member> {
    var items := Entries(v);
    var i := FindEntry(items, name);
    if i >= 0 then EntryMembers(items[i]) else []
  }

  /** The column prefix of a versions file, `<prefix>_version`. */
  function ColumnPrefix(fileName: string): string {
    FilePrefix(fileName) + "_version"
  }

  /** Member `m` of an entry names column `c`: every key but `service`
      becomes `<columnPrefix>_<key>`. */
  predicate ColumnOf(columnPrefix: string, m: Member, c: string) {
    m.key != "service" && c == columnPrefix + "_" + m.key
  }

  /** One step of the forEach over the entry's keys. */
  function AddColumn(row: Row, columnPrefix: string, m: Member): Row {
    if m.key != "service" then AddAbsent(row, columnPrefix + "_" + m.key, CellText(m.value)) else row
  }

  /** The forEach over the members of a matching entry, in order. */
  function AddVersionColumns(row: Row, columnPrefix: string, ms: seq<Member>): Row
    decreases |ms|
  {
    if ms == [] then row
    else AddColumn(AddVersionColumns(row, columnPrefix, ms[..|ms| - 1]), columnPrefix, ms[|ms| - 1])
  }

  /** What each file offers a row named `name`, in upload order. */
  function OfferedAll(files: seq<VersionFile>, name: string): (offered: seq<seq<Member>>)
    ensures |offered| == |files|
    decreases |files|
  {
    if files == [] then []
    else OfferedAll(files[..|files| - 1], name) + [Offered(files[|files| - 1], name)]
  }

  lemma {:induction false} OfferedAllAt(files: seq<VersionFile>, name: string, f: nat)
    requires f < |files|
    ensures OfferedAll(files, name)[f] == Offered(files[f], name)
    decreases |files|
  {
    if f < |files| - 1 {
      OfferedAllAt(files[..|files| - 1], name, f);
      assert files[..|files| - 1][f] == files[f];
    }
  }

  /** The column prefix of each file, in upload order. */
  function Prefixes(files: seq<VersionFile>): (prefixes: seq<string>)
    ensures |prefixes| == |files|
    decreases |files|
  {
    if files == [] then []
    else Prefixes(files[..|files| - 1]) + [ColumnPrefix(files[|files| - 1].fileName)]
  }

  lemma {:induction false} PrefixesAt(files: seq<VersionFile>, f: nat)
    requires f < |files|
    ensures Prefixes(files)[f] == ColumnPrefix(files[f].fileName)
    decreases |files|
  {
    if f < |files| - 1 {
      PrefixesAt(files[..|files| - 1], f);
      assert files[..|files| - 1][f] == files[f];
    }
  }

  /** A row after the first `n` files, file `f` adding the columns
      `prefixes[f]` names after the members `offered[f]`. */
  function ApplyFiles(row: Row, prefixes: seq<string>, offered: seq<seq<Member>>, n: nat): Row
    requires n <= |prefixes| == |offered|
  {
    if n == 0 then row
    else AddVersionColumns(ApplyFiles(row, prefixes, offered, n - 1), prefixes[n - 1], offered[n - 1])
  }

  /** A base row after every file, matched by its own `Service0`. */
  function VersionedRow(row: Row, files: seq<VersionFile>): Row {
    ApplyFiles(row, Prefixes(files), OfferedAll(files, Value(row, "Service0")), |files|)
  }

  /** The `baseData.map` callback. */
  function VersionMapper(files: seq<VersionFile>): Row -> Row {
    row => VersionedRow(row, files)
  }

  function EnrichedWithVersions(baseData: seq<Row>, files: seq<VersionFile>): seq<Row> {
    if |files| == 0 then baseData else MapRows(VersionMapper(files), baseData, |baseData|)
  }

  /** The names of the versions files, in upload order. */
  function FileNames(files: seq<VersionFile>): (names: seq<string>)
    ensures |names| == |files|
    ensures forall f | 0 <= f < |files| :: names[f] == files[f].fileName
  {
    seq(|files|, f requires 0 <= f < |files| => files[f].fileName)
  }

  /** The inner forEach of enrichWithVersionsData for one matching entry. */
  method AddEntryColumns(row: Row, columnPrefix: string, matchingService: seq<Member>)
    returns (enrichedRow: Row)
    ensures enrichedRow == AddVersionColumns(row, columnPrefix, matchingService)
  {
    enrichedRow := row;
    for k := 0 to |matchingService|
      invariant enrichedRow == AddVersionColumns(row, columnPrefix, matchingService[..k])
    {
      var key := matchingService[k].key;
      assert matchingService[..k + 1][..k] == matchingService[..k];
      if key != "service" {
        var columnName := columnPrefix + "_" + key;
        if !Has(enrichedRow, columnName) {
          enrichedRow := enrichedRow + [Field(columnName, CellText(matchingService[k].value))];
        }
      }
    }
    assert matchingService[..|matchingService|] == matchingService;
  }

  /** One pass of the forEach over the files: a file without a truthy
      `service_versions`, or without an entry for the service, changes
      nothing; otherwise its first matching entry adds its columns. */
  method ApplyVersionFile(enrichedRow: Row, versionInfo: VersionFile, serviceName: string)
    returns (r: Row)
    requires ReadableFile(versionInfo, serviceName)
    ensures r == AddVersionColumns(enrichedRow, ColumnPrefix(versionInfo.fileName), Offered(versionInfo, serviceName))
  {
    if !TruthyProp(versionInfo.data, "service_versions") {
      return enrichedRow;
    }
    var items := Prop(versionInfo.data, "service_versions").value.items;
    var m := FindEntry(items, serviceName);
    if m < 0 || !Truthy(items[m]) {
      return enrichedRow;
    }
    r := AddEntryColumns(enrichedRow, ColumnPrefix(versionInfo.fileName), EntryMembers(items[m]));
  }

  /** A row after the first `f` files, matched by the service `name`. */
  function AfterFiles(row: Row, files: seq<VersionFile>, name: string, f: nat): Row
    requires f <= |files|
  {
    ApplyFiles(row, Prefixes(files), OfferedAll(files, name), f)
  }

  /** The files' step, one file at a time. */
  lemma ApplyFilesStep(row: Row, name: string, files: seq<VersionFile>, f: nat)
    requires f < |files|
    ensures AfterFiles(row, files, name, f + 1)
      == AddVersionColumns(AfterFiles(row, files, name, f), ColumnPrefix(files[f].fileName), Offered(files[f], name))
  {
    OfferedAllAt(files, name, f);
    PrefixesAt(files, f);
  }

  /** The forEach over the files for a row whose service is `serviceName`:
      every file in turn adds the columns of its first entry that matches
      it. */
  method ApplyVersionFiles(row: Row, versionsDataArray: seq<VersionFile>, serviceName: string) returns (enrichedRow: Row)
    requires forall f | 0 <= f < |versionsDataArray| :: ReadableFile(versionsDataArray[f], serviceName)
    ensures enrichedRow == AfterFiles(row, versionsDataArray, serviceName, |versionsDataArray|)
  {
    enrichedRow := row;
    for f := 0 to |versionsDataArray|
      invariant enrichedRow == AfterFiles(row, versionsDataArray, serviceName, f)
    {
      ApplyFilesStep(row, serviceName, versionsDataArray, f);
      enrichedRow := ApplyVersionFile(enrichedRow, versionsDataArray[f], serviceName);
    }
  }

  /** The body of the `baseData.map` callback: the files applied to the row,
      matched by its `Service0`. */
  method VersionRow(row: Row, versionsDataArray: seq<VersionFile>) returns (enrichedRow: Row)
    requires forall f | 0 <= f < |versionsDataArray| :: ReadableFile(versionsDataArray[f], Value(row, "Service0"))
    ensures enrichedRow == VersionedRow(row, versionsDataArray)
  {
    enrichedRow := ApplyVersionFiles(row, versionsDataArray, Value(row, "Service0"));
  }

  /** enrichWithVersionsData: each base row with the version columns of the
      files, in order; no files leave the base data as it is. The source
      throws on a file whose `service_versions` is truthy but not an array,
      and on a `null` entry or a truthy non-string `service` that the `find`
      reaches for some row, which the precondition rules out. */
  method EnrichWithVersionsData(baseData: seq<Row>, versionsDataArray: seq<VersionFile>)
    returns (out: seq<Row>)
    requires forall i, f | 0 <= i < |baseData| && 0 <= f < |versionsDataArray| ::
      ReadableFile(versionsDataArray[f], Value(baseData[i], "Service0"))
    ensures out == EnrichedWithVersions(baseData, versionsDataArray)
  {
    if |versionsDataArray| == 0 {
      return baseData;
    }
    out := [];
    for i := 0 to |baseData|
      invariant out == MapRows(VersionMapper(versionsDataArray), baseData, i)
    {
      var enrichedRow := VersionRow(baseData[i], versionsDataArray);
      out := out + [enrichedRow];
    }
  }

  /** Some member of `ms` names column `c`. */
  predicate NamesColumn(columnPrefix: string, ms: seq<Member>, c: string) {
    exists j | 0 <= j < |ms| :: ColumnOf(columnPrefix, ms[j], c)
  }

  /** Adding an entry's columns keeps every field and the distinctness of
      the keys. */
  lemma {:induction false} AddVersionColumnsExtends(row: Row, columnPrefix: string, ms: seq<Member>)
    ensures Extends(row, AddVersionColumns(row, columnPrefix, ms))
    ensures DistinctKeys(row) ==> DistinctKeys(AddVersionColumns(row, columnPrefix, ms))
    decreases |ms|
  {
    if ms != [] {
      var r1 := AddVersionColumns(row, columnPrefix, ms[..|ms| - 1]);
      var m := ms[|ms| - 1];
      AddVersionColumnsExtends(row, columnPrefix, ms[..|ms| - 1]);
      AddAbsentSpec(r1, columnPrefix + "_" + m.key, CellText(m.value), "");
      ExtendsTrans(row, r1, AddColumn(r1, columnPrefix, m));
    }
  }

  /** The columns an entry adds are exactly those its keys name. */
  lemma {:induction false} AddVersionColumnsHas(row: Row, columnPrefix: string, ms: seq<Member>, c: string)
    ensures Has(AddVersionColumns(row, columnPrefix, ms), c) <==> Has(row, c) || NamesColumn(columnPrefix, ms, c)
    decreases |ms|
  {
    if ms != [] {
      var init := ms[..|ms| - 1];
      var m := ms[|ms| - 1];
      AddVersionColumnsHas(row, columnPrefix, init, c);
      AddAbsentSpec(AddVersionColumns(row, columnPrefix, init), columnPrefix + "_" + m.key, CellText(m.value), c);
      if NamesColumn(columnPrefix, ms, c) {
        var j :| 0 <= j < |ms| && ColumnOf(columnPrefix, ms[j], c);
        if j < |ms| - 1 {
          assert ColumnOf(columnPrefix, init[j], c);
        }
      }
      if NamesColumn(columnPrefix, init, c) {
        var j :| 0 <= j < |init| && ColumnOf(columnPrefix, init[j], c);
        assert ColumnOf(columnPrefix, ms[j], c);
      }
    }
  }

  /** A column the row lacked takes the value of the key that names it. */
  lemma {:induction false} AddVersionColumnsGet(row: Row, columnPrefix: string, ms: seq<Member>, c: string)
    returns (j: nat)
    requires !Has(row, c) && Has(AddVersionColumns(row, columnPrefix, ms), c)
    ensures j < |ms| && ColumnOf(columnPrefix, ms[j], c)
    ensures Get(AddVersionColumns(row, columnPrefix, ms), c) == Some(CellText(ms[j].value))
    decreases |ms|
  {
    var init := ms[..|ms| - 1];
    var m := ms[|ms| - 1];
    var r1 := AddVersionColumns(row, columnPrefix, init);
    var r2 := AddColumn(r1, columnPrefix, m);
    AddAbsentSpec(r1, columnPrefix + "_" + m.key, CellText(m.value), c);
    if Has(r1, c) {
      j := AddVersionColumnsGet(row, columnPrefix, init, c);
      ExtendsGet(r1, r2, c);
      assert ms[j] == init[j];
    } else {
      j := |ms| - 1;
    }
  }

  /** The files keep every field of the row, and its keys distinct. */
  lemma {:induction false} ApplyFilesExtends(row: Row, prefixes: seq<string>, offered: seq<seq<Member>>, n: nat)
    requires n <= |prefixes| == |offered|
    ensures Extends(row, ApplyFiles(row, prefixes, offered, n))
    ensures DistinctKeys(row) ==> DistinctKeys(ApplyFiles(row, prefixes, offered, n))
    decreases n
  {
    if n > 0 {
      var r1 := ApplyFiles(row, prefixes, offered, n - 1);
      ApplyFilesExtends(row, prefixes, offered, n - 1);
      AddVersionColumnsExtends(r1, prefixes[n - 1], offered[n - 1]);
      ExtendsTrans(row, r1, ApplyFiles(row, prefixes, offered, n));
    }
  }

  /** One of the first `n` files offers an entry naming column `c`. */
  predicate SomeFileNames(prefixes: seq<string>, offered: seq<seq<Member>>, n: nat, c: string)
    requires n <= |prefixes| == |offered|
  {
    exists f | 0 <= f < n :: NamesColumn(prefixes[f], offered[f], c)
  }

  lemma {:induction false} ApplyFilesHas(row: Row, prefixes: seq<string>, offered: seq<seq<Member>>, n: nat, c: string)
    requires n <= |prefixes| == |offered|
    ensures Has(ApplyFiles(row, prefixes, offered, n), c) <==> Has(row, c) || SomeFileNames(prefixes, offered, n, c)
    decreases n
  {
    if n > 0 {
      ApplyFilesHas(row, prefixes, offered, n - 1, c);
      AddVersionColumnsHas(ApplyFiles(row, prefixes, offered, n - 1), prefixes[n - 1], offered[n - 1], c);
    }
  }

  /** A column the row lacked takes its value from the first file offering
      it. */
  lemma {:induction false} ApplyFilesGet(row: Row, prefixes: seq<string>, offered: seq<seq<Member>>, n: nat, c: string)
    returns (f: nat, j: nat)
    requires n <= |prefixes| == |offered| && !Has(row, c) && Has(ApplyFiles(row, prefixes, offered, n), c)
    ensures f < n && j < |offered[f]| && ColumnOf(prefixes[f], offered[f][j], c)
    ensures forall g | 0 <= g < f :: !NamesColumn(prefixes[g], offered[g], c)
    ensures Get(ApplyFiles(row, prefixes, offered, n), c) == Some(CellText(offered[f][j].value))
    decreases n
  {
    var r1 := ApplyFiles(row, prefixes, offered, n - 1);
    var r2 := ApplyFiles(row, prefixes, offered, n);
    if Has(r1, c) {
      f, j := ApplyFilesGet(row, prefixes, offered, n - 1, c);
      AddVersionColumnsExtends(r1, prefixes[n - 1], offered[n - 1]);
      ExtendsGet(r1, r2, c);
    } else {
      ApplyFilesHas(row, prefixes, offered, n - 1, c);
      f := n - 1;
      j := AddVersionColumnsGet(r1, prefixes[n - 1], offered[n - 1], c);
    }
  }

  /** enrichWithVersionsData only adds columns: every field of a base row
      keeps its place and value, and the keys stay distinct. */
  lemma VersionedRowExtends(row: Row, files: seq<VersionFile>)
    ensures Extends(row, VersionedRow(row, files))
    ensures DistinctKeys(row) ==> DistinctKeys(VersionedRow(row, files))
  {
    ApplyFilesExtends(row, Prefixes(files), OfferedAll(files, Value(row, "Service0")), |files|);
  }

  /** A row gains exactly the columns named by the entries its files offer
      it. */
  lemma VersionedRowHas(row: Row, files: seq<VersionFile>, c: string)
    ensures Has(VersionedRow(row, files), c)
      <==> Has(row, c) || SomeFileNames(Prefixes(files), OfferedAll(files, Value(row, "Service0")), |files|, c)
  {
    ApplyFilesHas(row, Prefixes(files), OfferedAll(files, Value(row, "Service0")), |files|, c);
  }

  /** Each new column holds the value that the first file offering it
      gives it: file `f` names the column after its member `j`, and no
      earlier file names it. */
  lemma VersionedRowValue(row: Row, files: seq<VersionFile>, c: string) returns (f: nat, j: nat)
    requires !Has(row, c) && Has(VersionedRow(row, files), c)
    ensures var prefixes, offered := Prefixes(files), OfferedAll(files, Value(row, "Service0"));
      f < |files| && j < |offered[f]| && ColumnOf(prefixes[f], offered[f][j], c)
      && (forall g | 0 <= g < f :: !NamesColumn(prefixes[g], offered[g], c))
      && Get(VersionedRow(row, files), c) == Some(CellText(offered[f][j].value))
  {
    f, j := ApplyFilesGet(row, Prefixes(files), OfferedAll(files, Value(row, "Service0")), |files|, c);
  }

  /** A column an entry of file `fileName` names is a version column for
      any list of files holding that name. */
  lemma EntryColumnIsVersionColumn(fileName: string, names: seq<string>, ms: seq<Member>, c: string)
    requires fileName in names && NamesColumn(ColumnPrefix(fileName), ms, c)
    ensures VersionColumn(c, names)
  {
    var j :| 0 <= j < |ms| && ColumnOf(ColumnPrefix(fileName), ms[j], c);
    assert c == FilePrefix(fileName) + "_version_" + ms[j].key;
    FileColumnIsVersionColumn(fileName, names, ms[j].key);
  }

  /** Every column the enrichment adds is classified as a version column
      for the same files, so organizeHeaders places it among the version
      headers. */
  lemma AddedColumnsAreVersionColumns(row: Row, files: seq<VersionFile>, c: string)
    requires !Has(row, c) && Has(VersionedRow(row, files), c)
    ensures VersionColumn(c, FileNames(files))
  {
    var prefixes, offered := Prefixes(files), OfferedAll(files, Value(row, "Service0"));
    ApplyFilesHas(row, prefixes, offered, |files|, c);
    var f :| 0 <= f < |files| && NamesColumn(prefixes[f], offered[f], c);
    PrefixesAt(files, f);
    var names := FileNames(files);
    assert names[f] == files[f].fileName;
    EntryColumnIsVersionColumn(files[f].fileName, names, offered[f], c);
  }

  /** The output has one row per base row, in order, each the base row with
      its version columns, or the base rows themselves when there are no
      files. */
  lemma EnrichedWithVersionsAt(baseData: seq<Row>, files: seq<VersionFile>, i: nat)
    requires i < |baseData|
    ensures |EnrichedWithVersions(baseData, files)| == |baseData|
    ensures EnrichedWithVersions(baseData, files)[i] == VersionedRow(baseData[i], files)
  {
    if |files| > 0 {
      MapRowsAt(VersionMapper(files), baseData, |baseData|, i);
    }
  }

  /** What file `f` offers a row named `name` is what `Object.keys` sees in
      the first entry of its `service_versions` whose service name matches,
      and nothing when no entry matches. */
  lemma OfferedIsFirstMatch(files: seq<VersionFile>, name: string, f: nat)
    requires f < |files|
    ensures var items := Entries(files[f]);
      (exists i | 0 <= i < |items| :: NamesMatch(EntryName(items[i]), name)) ==> exists i | 0 <= i < |items| ::
        NamesMatch(EntryName(items[i]), name) && OfferedAll(files, name)[f] == EntryMembers(items[i])
        && forall j | 0 <= j < i :: !NamesMatch(EntryName(items[j]), name)
    ensures var items := Entries(files[f]);
      (forall i | 0 <= i < |items| :: !NamesMatch(EntryName(items[i]), name)) ==> OfferedAll(files, name)[f] == []
  {
    OfferedAllAt(files, name, f);
    var items := Entries(files[f]);
    var i := FindEntry(items, name);
    forall j | 0 <= j < |items| && (i < 0 || j < i) ensures !NamesMatch(EntryName(items[j]), name) {
      FindEntryFirst(items, name, j);
    }
  }

  /** A manifest whose later entry is not an object is read without error:
      only the first entry is validated, the `find` stops at the match, and
      the matching entry's members are offered. */
  lemma NonObjectEntryAccepted()
    ensures var entry := JObj([Member("service", JStr("a")), Member("v", JStr("1"))]);
      var v := VersionFile(JObj([Member("service_versions", JArr([entry, JStr("note")]))]), "prod_versions.json");
      ReadableFile(v, "a") && Offered(v, "a") == entry.members
  {
  }

  // ---------------------------------------------------------------------
  // addAllServicesFromDeploymentLinks

  /** One entry of the `extractedServices` map: a service name and the first
      link that carries it. */
  datatype Service = Service(name: string, link: string)

  /** What addAllServicesFromDeploymentLinks returns. */
  datatype AddResult = AddResult(servicesAdded: nat, serviceNames: seq<string>, newRows: seq<Row>)

  /** Link `k` is the first to carry its (non-empty) name, compared
      exactly. */
  predicate FirstExact(names: seq<string>, k: nat)
    requires k < |names|
  {
    names[k] != "" && forall i | 0 <= i < k :: names[i] != names[k]
  }

  /** The map after the first `n` links, its entries in insertion order. */
  function ServicesFrom(links: seq<string>, names: seq<string>, n: nat): seq<Service>
    requires n <= |links| == |names|
  {
    if n == 0 then []
    else ServicesFrom(links, names, n - 1) + (if FirstExact(names, n - 1) then [Service(names[n - 1], links[n - 1])] else [])
  }

  /** The `extractedServices` map built from the links. */
  function Extracted(links: seq<string>): seq<Service> {
    ServicesFrom(links, LinkNames(links), |links|)
  }

  /** The names with which the map was built so far: its key set. */
  function NameSet(names: seq<string>, n: nat): set<string>
    requires n <= |names|
  {
    set i | 0 <= i < n && names[i] != "" :: names[i]
  }

  lemma NameSetStep(names: seq<string>, j: nat)
    requires j < |names|
    ensures FirstExact(names, j) <==> names[j] != "" && names[j] !in NameSet(names, j)
    ensures NameSet(names, j + 1) == NameSet(names, j) + (if names[j] != "" then {names[j]} else {})
  {
    if names[j] != "" && !FirstExact(names, j) {
      var i :| 0 <= i < j && names[i] == names[j];
      assert names[i] in NameSet(names, j);
    }
  }

  /** One iteration of the map-building loop, stated with the name the link
      carries. */
  lemma ExtractStep(links: seq<string>, j: nat, name: string)
    requires j < |links| && name == ExtractServiceNameFromLink(links[j])
    ensures ServicesFrom(links, LinkNames(links), j + 1)
      == ServicesFrom(links, LinkNames(links), j)
         + (if name != "" && name !in NameSet(LinkNames(links), j) then [Service(name, links[j])] else [])
    ensures NameSet(LinkNames(links), j + 1) == NameSet(LinkNames(links), j) + (if name != "" then {name} else {})
  {
    LinkNamesAt(links, j);
    NameSetStep(LinkNames(links), j);
  }

  /** The first forEach's callback on link `j`: its name goes into the map
      unless it is empty or already a key. */
  method AddExtracted(deploymentLinks: seq<string>, j: nat, extractedServices: seq<Service>, keys: set<string>)
    returns (services': seq<Service>, keys': set<string>)
    requires j < |deploymentLinks|
    requires extractedServices == ServicesFrom(deploymentLinks, LinkNames(deploymentLinks), j)
    requires keys == NameSet(LinkNames(deploymentLinks), j)
    ensures services' == ServicesFrom(deploymentLinks, LinkNames(deploymentLinks), j + 1)
    ensures keys' == NameSet(LinkNames(deploymentLinks), j + 1)
  {
    var link := deploymentLinks[j];
    var serviceName := ExtractServiceNameFromLink(link);
    ExtractStep(deploymentLinks, j, serviceName);
    services', keys' := extractedServices, keys;
    if serviceName != "" && serviceName !in keys {
      services' := services' + [Service(serviceName, link)];
      keys' := keys' + {serviceName};
    }
  }

  /** The first forEach: the map of every non-empty name to the first link
      carrying it. */
  method ExtractServices(deploymentLinks: seq<string>) returns (extractedServices: seq<Service>)
    ensures extractedServices == Extracted(deploymentLinks)
  {
    extractedServices := [];
    var keys: set<string> := {};
    for j := 0 to |deploymentLinks|
      invariant extractedServices == ServicesFrom(deploymentLinks, LinkNames(deploymentLinks), j)
      invariant keys == NameSet(LinkNames(deploymentLinks), j)
    {
      extractedServices, keys := AddExtracted(deploymentLinks, j, extractedServices, keys);
    }
  }

  /** `Array.from(extractedServices.keys())`. */
  function ServiceNames(services: seq<Service>): (names: seq<string>)
    ensures |names| == |services|
    ensures forall i | 0 <= i < |services| :: names[i] == services[i].name
  {
    seq(|services|, i requires 0 <= i < |services| => services[i].name)
  }

  /** The key an existing row is known by:
      `(row['Service0'] || '').trim().toLowerCase().replace(/-headless$/, '')`. */
  function ExistingKey(row: Row): string {
    ServiceKey(Trim(Value(row, "Service0")))
  }

  /** The key of each row, in order. */
  function RowKeys(data: seq<Row>): (keys: seq<string>)
    ensures |keys| == |data|
    decreases |data|
  {
    if data == [] then [] else RowKeys(data[..|data| - 1]) + [ExistingKey(data[|data| - 1])]
  }

  lemma {:induction false} RowKeysAt(data: seq<Row>, i: nat)
    requires i < |data|
    ensures RowKeys(data)[i] == ExistingKey(data[i])
    decreases |data|
  {
    if i < |data| - 1 {
      RowKeysAt(data[..|data| - 1], i);
      assert data[..|data| - 1][i] == data[i];
    }
  }

  /** The `existingServices` set. */
  function KeySet(data: seq<Row>): set<string> {
    Members(RowKeys(data))
  }

  /** The set of the strings in `keys`. */
  function Members(keys: seq<string>): set<string> {
    set k | k in keys
  }

  lemma KeySetStep(keys: seq<string>, i: nat, key: string)
    requires i < |keys| && keys[i] == key
    ensures Members(keys[..i + 1]) == Members(keys[..i]) + {key}
  {
    assert keys[..i + 1] == keys[..i] + [key];
  }

  /** The set of the rows `existing` is built from. */
  method ExistingServices(mergedData: seq<Row>) returns (existingServices: set<string>)
    ensures existingServices == KeySet(mergedData)
  {
    existingServices := {};
    ghost var keys := RowKeys(mergedData);
    for i := 0 to |mergedData|
      invariant existingServices == Members(keys[..i])
    {
      var key := ServiceKey(Trim(Value(mergedData[i], "Service0")));
      RowKeysAt(mergedData, i);
      KeySetStep(keys, i, key);
      existingServices := existingServices + {key};
    }
    assert keys[..|mergedData|] == keys;
  }

  /** `mergedHeaders.forEach(header => { if (!(header in newRow)) newRow[header] = ''; })`
      over the first `n` headers. */
  function Pad(row: Row, headers: seq<string>, n: nat): Row
    requires n <= |headers|
  {
    if n == 0 then row else AddAbsent(Pad(row, headers, n - 1), headers[n - 1], "")
  }

  /** Padding only adds the headers the row lacks, each with an empty
      value. */
  lemma {:induction false} PadSpec(row: Row, headers: seq<string>, n: nat, k: string)
    requires n <= |headers|
    ensures Extends(row, Pad(row, headers, n))
    ensures Has(Pad(row, headers, n), k) <==> Has(row, k) || k in headers[..n]
    ensures !Has(row, k) && k in headers[..n] ==> Get(Pad(row, headers, n), k) == Some("")
    ensures DistinctKeys(row) ==> DistinctKeys(Pad(row, headers, n))
    decreases n
  {
    if n > 0 {
      var r1 := Pad(row, headers, n - 1);
      PadSpec(row, headers, n - 1, k);
      AddAbsentSpec(r1, headers[n - 1], "", k);
      ExtendsTrans(row, r1, Pad(row, headers, n));
      assert headers[..n] == headers[..n - 1] + [headers[n - 1]];
      if !Has(row, k) && k in headers[..n] {
        if Has(r1, k) {
          ExtendsGet(r1, Pad(row, headers, n), k);
        }
      }
    }
  }

  /** The key each map entry is checked against the existing ones with:
      `serviceName.toLowerCase().replace(/-headless$/, '')`, untrimmed. */
  function CheckKeys(services: seq<Service>): (keys: seq<string>)
    ensures |keys| == |services|
    decreases |services|
  {
    if services == [] then []
    else CheckKeys(services[..|services| - 1]) + [ServiceKey(services[|services| - 1].name)]
  }

  lemma {:induction false} CheckKeysAt(services: seq<Service>, i: nat)
    requires i < |services|
    ensures CheckKeys(services)[i] == ServiceKey(services[i].name)
    decreases |services|
  {
    if i < |services| - 1 {
      CheckKeysAt(services[..|services| - 1], i);
      assert services[..|services| - 1][i] == services[i];
    }
  }

  /** The new rows for the first `n` map entries: one for each entry whose
      key is not among the `existing` ones, holding its name, its link and
      an empty value for every header it lacks. */
  function NewRows(services: seq<Service>, keys: seq<string>, existing: set<string>, headers: seq<string>, n: nat): seq<Row>
    requires n <= |services| == |keys|
  {
    if n == 0 then []
    else
      NewRows(services, keys, existing, headers, n - 1)
      + (if keys[n - 1] !in existing then [EntryRow(services[n - 1], headers)] else [])
  }

  /** The row made for a map entry: its name and link, padded to the
      headers. */
  function EntryRow(service: Service, headers: seq<string>): Row {
    Pad(BaseRow(service.name, service.link), headers, |headers|)
  }

  /** The rows added for the map entries, entry `i` checked with `keys[i]`:
      with data, the entries whose key is not an existing one, padded to the
      headers; without data, every entry as a bare row. */
  function AddRows(services: seq<Service>, keys: seq<string>, data: seq<Row>, headers: seq<string>): seq<Row>
    requires |keys| == |services|
  {
    if |data| > 0 then NewRows(services, keys, KeySet(data), headers, |services|)
    else NewRows(services, keys, {}, [], |services|)
  }

  /** The whole operation on a given list of links (what getDeploymentLinks
      returns), the data and its headers. */
  function AddAllServices(links: seq<string>, data: seq<Row>, headers: seq<string>): AddResult {
    if |links| == 0 then AddResult(0, [], [])
    else
      var services := Extracted(links);
      var rows := AddRows(services, CheckKeys(services), data, headers);
      AddResult(|rows|, ServiceNames(services), rows)
  }

  /** One new row: the entry's name and link, then an empty value for every
      header the row lacks. */
  method NewRow(service: Service, mergedHeaders: seq<string>) returns (newRow: Row)
    ensures newRow == Pad(BaseRow(service.name, service.link), mergedHeaders, |mergedHeaders|)
  {
    newRow := BaseRow(service.name, service.link);
    for h := 0 to |mergedHeaders|
      invariant newRow == Pad(BaseRow(service.name, service.link), mergedHeaders, h)
    {
      var header := mergedHeaders[h];
      if !Has(newRow, header) {
        newRow := newRow + [Field(header, "")];
      }
    }
  }

  lemma CheckStep(services: seq<Service>, existing: set<string>, headers: seq<string>, k: nat, serviceToCheck: string)
    requires k < |services| && serviceToCheck == ServiceKey(services[k].name)
    ensures NewRows(services, CheckKeys(services), existing, headers, k + 1)
      == NewRows(services, CheckKeys(services), existing, headers, k)
         + (if serviceToCheck !in existing then [Pad(BaseRow(services[k].name, services[k].link), headers, |headers|)] else [])
  {
    CheckKeysAt(services, k);
  }

  /** addAllServicesFromDeploymentLinks, the links given: no links add
      nothing; otherwise every map entry whose key is not already in the
      data becomes a row padded to the headers, and with no data every
      entry becomes a bare row. */
  method AddAllServicesFromDeploymentLinks(deploymentLinks: seq<string>, mergedData: seq<Row>, mergedHeaders: seq<string>)
    returns (result: AddResult)
    ensures result == AddAllServices(deploymentLinks, mergedData, mergedHeaders)
  {
    if |deploymentLinks| == 0 {
      return AddResult(0, [], []);
    }
    var extractedServices := ExtractServices(deploymentLinks);
    var serviceNames := seq(|extractedServices|, i requires 0 <= i < |extractedServices| => extractedServices[i].name);
    if |mergedData| > 0 {
      var existingServices := ExistingServices(mergedData);
      var servicesAdded := 0;
      var newRows := [];
      for k := 0 to |extractedServices|
        invariant newRows == NewRows(extractedServices, CheckKeys(extractedServices), existingServices, mergedHeaders, k)
        invariant servicesAdded == |newRows|
      {
        var service := extractedServices[k];
        var serviceToCheck := ServiceKey(service.name);
        CheckStep(extractedServices, existingServices, mergedHeaders, k, serviceToCheck);
        if serviceToCheck !in existingServices {
          var newRow := NewRow(service, mergedHeaders);
          newRows := newRows + [newRow];
          servicesAdded := servicesAdded + 1;
        }
      }
      return AddResult(servicesAdded, serviceNames, newRows);
    } else {
      var newRows := [];
      for k := 0 to |extractedServices|
        invariant newRows == NewRows(extractedServices, CheckKeys(extractedServices), {}, [], k)
      {
        var service := extractedServices[k];
        CheckStep(extractedServices, {}, [], k, ServiceKey(service.name));
        newRows := newRows + [BaseRow(service.name, service.link)];
      }
      return AddResult(|newRows|, serviceNames, newRows);
    }
  }

  /** The positions among the first `n` names that enter the map: non-empty
      names seen for the first time, in increasing order, all of them. */
  function ExactFirsts(names: seq<string>, n: nat): (idx: seq<nat>)
    requires n <= |names|
    ensures forall i | 0 <= i < |idx| :: idx[i] < n && FirstExact(names, idx[i])
    ensures forall i, j | 0 <= i < j < |idx| :: idx[i] < idx[j]
    ensures forall k | 0 <= k < n && FirstExact(names, k) :: k in idx
  {
    if n == 0 then []
    else ExactFirsts(names, n - 1) + (if FirstExact(names, n - 1) then [n - 1] else [])
  }

  /** Map entry `i` is built from the `i`-th position that enters the map. */
  lemma {:induction false} ServicesFromAt(links: seq<string>, names: seq<string>, n: nat, i: nat)
    requires n <= |links| == |names|
    ensures |ServicesFrom(links, names, n)| == |ExactFirsts(names, n)|
    ensures i < |ServicesFrom(links, names, n)| ==>
      ServicesFrom(links, names, n)[i] == Service(names[ExactFirsts(names, n)[i]], links[ExactFirsts(names, n)[i]])
    decreases n
  {
    if n > 0 {
      ServicesFromAt(links, names, n - 1, i);
    }
  }

  /** The first position holding the name at `k`. */
  lemma {:induction false} FirstExactBefore(names: seq<string>, k: nat) returns (f: nat)
    requires k < |names| && names[k] != ""
    ensures f <= k && FirstExact(names, f) && names[f] == names[k]
    decreases k
  {
    if FirstExact(names, k) {
      f := k;
    } else {
      var i :| 0 <= i < k && names[i] == names[k];
      f := FirstExactBefore(names, i);
    }
  }

  /** Each map entry is a non-empty name with the first link carrying it;
      no name is entered twice. */
  lemma ExtractedEntry(links: seq<string>, i: nat) returns (k: nat)
    requires i < |Extracted(links)|
    ensures k < |links| && Extracted(links)[i].link == links[k]
    ensures NamedBy(links[k], Extracted(links)[i].name)
    ensures forall j | 0 <= j < k :: !NamedBy(links[j], Extracted(links)[i].name)
    ensures forall j | i < j < |Extracted(links)| :: Extracted(links)[j].name != Extracted(links)[i].name
  {
    var names := LinkNames(links);
    var idx := ExactFirsts(names, |links|);
    ServicesFromAt(links, names, |links|, i);
    k := idx[i];
    LinkNamesAt(links, k);
    forall j | 0 <= j < k ensures !NamedBy(links[j], Extracted(links)[i].name) {
      LinkNamesAt(links, j);
      if NamedBy(links[j], names[k]) {
        ExtractServiceNameComplete(links[j], names[k]);
      }
    }
    forall j | i < j < |Extracted(links)| ensures Extracted(links)[j].name != Extracted(links)[i].name {
      ServicesFromAt(links, names, |links|, j);
    }
  }

  /** No service is skipped: every name a link carries is a map entry. */
  lemma ExtractedComplete(links: seq<string>, k: nat, name: string) returns (i: nat)
    requires k < |links| && NamedBy(links[k], name)
    ensures i < |Extracted(links)| && Extracted(links)[i].name == name
  {
    var names := LinkNames(links);
    LinkNamesAt(links, k);
    ExtractServiceNameComplete(links[k], name);
    var f := FirstExactBefore(names, k);
    var idx := ExactFirsts(names, |links|);
    i :| 0 <= i < |idx| && idx[i] == f;
    ServicesFromAt(links, names, |links|, i);
  }

  /** Each new row is made from an entry whose key is not an existing one. */
  lemma {:induction false} NewRowsFrom(services: seq<Service>, keys: seq<string>, existing: set<string>, headers: seq<string>, n: nat, i: nat)
    returns (p: nat)
    requires n <= |services| == |keys|
    requires i < |NewRows(services, keys, existing, headers, n)|
    ensures p < n && keys[p] !in existing
    ensures NewRows(services, keys, existing, headers, n)[i] == EntryRow(services[p], headers)
    decreases n
  {
    var prev := NewRows(services, keys, existing, headers, n - 1);
    var added := if keys[n - 1] !in existing then [EntryRow(services[n - 1], headers)] else [];
    assert NewRows(services, keys, existing, headers, n) == prev + added;
    if i < |prev| {
      p := NewRowsFrom(services, keys, existing, headers, n - 1, i);
      assert (prev + added)[i] == prev[i];
    } else {
      p := n - 1;
      assert (prev + added)[i] == added[0];
    }
  }

  /** Each entry whose key is not an existing one has its row. */
  lemma {:induction false} NewRowsHas(services: seq<Service>, keys: seq<string>, existing: set<string>, headers: seq<string>, n: nat, p: nat)
    returns (i: nat)
    requires n <= |services| == |keys|
    requires p < n && keys[p] !in existing
    ensures i < |NewRows(services, keys, existing, headers, n)|
    ensures NewRows(services, keys, existing, headers, n)[i] == EntryRow(services[p], headers)
    decreases n
  {
    var prev := NewRows(services, keys, existing, headers, n - 1);
    if p < n - 1 {
      i := NewRowsHas(services, keys, existing, headers, n - 1, p);
    } else {
      i := |prev|;
    }
  }

  /** A new row holds the entry's name and link first, then every header,
      the ones it adds being empty. */
  lemma NewRowFields(service: Service, headers: seq<string>, h: string)
    ensures Extends(BaseRow(service.name, service.link), Pad(BaseRow(service.name, service.link), headers, |headers|))
    ensures Value(Pad(BaseRow(service.name, service.link), headers, |headers|), "Service0") == service.name
    ensures Value(Pad(BaseRow(service.name, service.link), headers, |headers|), "Jenkins Link") == Anchor(service.link)
    ensures h in headers ==> Has(Pad(BaseRow(service.name, service.link), headers, |headers|), h)
    ensures DistinctKeys(Pad(BaseRow(service.name, service.link), headers, |headers|))
  {
    var b := BaseRow(service.name, service.link);
    var r := Pad(b, headers, |headers|);
    BaseRowFields(service.name, service.link);
    PadSpec(b, headers, |headers|, h);
    assert Has(b, "Service0") && Has(b, "Jenkins Link") by {
      assert b[0].key == "Service0" && b[1].key == "Jenkins Link";
    }
    ExtendsGet(b, r, "Service0");
    ExtendsGet(b, r, "Jenkins Link");
    assert headers[..|headers|] == headers;
  }

  /** Every added row is a map entry whose key was not in the data, with its
      name and link and, when there was data, every header; the count
      returned is the number of rows. */
  lemma AddAllServicesRows(links: seq<string>, data: seq<Row>, headers: seq<string>, i: nat) returns (p: nat)
    requires i < |AddAllServices(links, data, headers).newRows|
    ensures AddAllServices(links, data, headers).servicesAdded == |AddAllServices(links, data, headers).newRows|
    ensures p < |Extracted(links)|
    ensures Value(AddAllServices(links, data, headers).newRows[i], "Service0") == Extracted(links)[p].name
    ensures Value(AddAllServices(links, data, headers).newRows[i], "Jenkins Link") == Anchor(Extracted(links)[p].link)
    ensures |data| > 0 ==> ServiceKey(Extracted(links)[p].name) !in KeySet(data)
    ensures |data| > 0 ==> forall h | h in headers :: Has(AddAllServices(links, data, headers).newRows[i], h)
    ensures DistinctKeys(AddAllServices(links, data, headers).newRows[i])
  {
    var services := Extracted(links);
    var keys := CheckKeys(services);
    var existing := if |data| > 0 then KeySet(data) else {};
    var hs := if |data| > 0 then headers else [];
    p := NewRowsFrom(services, keys, existing, hs, |services|, i);
    CheckKeysAt(services, p);
    var row := AddAllServices(links, data, headers).newRows[i];
    assert row == EntryRow(services[p], hs);
    NewRowFields(services[p], hs, "");
    forall h | h in hs ensures Has(row, h) {
      NewRowFields(services[p], hs, h);
    }
  }

  /** Every map entry whose key is not in the data gets a row. */
  lemma AddAllServicesComplete(links: seq<string>, data: seq<Row>, headers: seq<string>, p: nat) returns (i: nat)
    requires p < |Extracted(links)|
    requires |data| == 0 || ServiceKey(Extracted(links)[p].name) !in KeySet(data)
    ensures i < |AddAllServices(links, data, headers).newRows|
    ensures Value(AddAllServices(links, data, headers).newRows[i], "Service0") == Extracted(links)[p].name
  {
    var services := Extracted(links);
    var keys := CheckKeys(services);
    var existing := if |data| > 0 then KeySet(data) else {};
    var hs := if |data| > 0 then headers else [];
    CheckKeysAt(services, p);
    i := NewRowsHas(services, keys, existing, hs, |services|, p);
    NewRowFields(services[p], hs, "");
  }

  // Adding twice: the second call is meant to find every service already
  // in the table. The existing rows are keyed by their trimmed name but the
  // entries by their untrimmed one, so a name with surrounding white space
  // is added again on every call.

  /** The keys the entries are compared with once trimmed like the existing
      rows: `serviceName.trim().toLowerCase().replace(/-headless$/, '')`. */
  function TrimmedKeys(services: seq<Service>): (keys: seq<string>)
    ensures |keys| == |services|
    decreases |services|
  {
    if services == [] then []
    else TrimmedKeys(services[..|services| - 1]) + [ServiceKey(Trim(services[|services| - 1].name))]
  }

  lemma {:induction false} TrimmedKeysAt(services: seq<Service>, i: nat)
    requires i < |services|
    ensures TrimmedKeys(services)[i] == ServiceKey(Trim(services[i].name))
    decreases |services|
  {
    if i < |services| - 1 {
      TrimmedKeysAt(services[..|services| - 1], i);
      assert services[..|services| - 1][i] == services[i];
    }
  }

  /** addAllServicesFromDeploymentLinks with the entries' keys trimmed like
      the existing rows' keys. */
  function AddAllServicesTrimmed(links: seq<string>, data: seq<Row>, headers: seq<string>): AddResult {
    if |links| == 0 then AddResult(0, [], [])
    else
      var services := Extracted(links);
      var rows := AddRows(services, TrimmedKeys(services), data, headers);
      AddResult(|rows|, ServiceNames(services), rows)
  }

  /** The keys of appended rows are the keys of both parts. */
  lemma KeySetAppend(a: seq<Row>, b: seq<Row>)
    ensures KeySet(a + b) == KeySet(a) + KeySet(b)
  {
    forall i | 0 <= i < |a + b|
      ensures RowKeys(a + b)[i] == (RowKeys(a) + RowKeys(b))[i]
    {
      RowKeysAt(a + b, i);
      if i < |a| {
        RowKeysAt(a, i);
      } else {
        RowKeysAt(b, i - |a|);
      }
    }
    assert RowKeys(a + b) == RowKeys(a) + RowKeys(b);
  }

  /** An added row is known afterwards by its entry's trimmed key. */
  lemma EntryRowKey(service: Service, headers: seq<string>)
    ensures ExistingKey(EntryRow(service, headers)) == ServiceKey(Trim(service.name))
  {
    NewRowFields(service, headers, "");
  }

  /** With trimmed keys, every entry is either an existing one or has a
      row among the new ones. */
  lemma NewRowsCovered(services: seq<Service>, existing: set<string>, headers: seq<string>, p: nat)
    requires p < |services|
    ensures TrimmedKeys(services)[p] in existing
      || TrimmedKeys(services)[p] in KeySet(NewRows(services, TrimmedKeys(services), existing, headers, |services|))
  {
    var keys := TrimmedKeys(services);
    if keys[p] !in existing {
      var rows := NewRows(services, keys, existing, headers, |services|);
      var i := NewRowsHas(services, keys, existing, headers, |services|, p);
      RowKeysAt(rows, i);
      EntryRowKey(services[p], headers);
      TrimmedKeysAt(services, p);
    }
  }

  /** Entries whose keys all exist add no rows. */
  lemma {:induction false} NewRowsNone(services: seq<Service>, keys: seq<string>, existing: set<string>, headers: seq<string>, n: nat)
    requires n <= |services| == |keys|
    requires forall p | 0 <= p < n :: keys[p] in existing
    ensures NewRows(services, keys, existing, headers, n) == []
    decreases n
  {
    if n > 0 {
      NewRowsNone(services, keys, existing, headers, n - 1);
    }
  }

  /** With trimmed keys, adding the rows once more adds nothing. */
  lemma AddRowsIdempotent(services: seq<Service>, data: seq<Row>, headers: seq<string>)
    ensures AddRows(services, TrimmedKeys(services), data + AddRows(services, TrimmedKeys(services), data, headers), headers) == []
  {
    var keys := TrimmedKeys(services);
    var existing := if |data| > 0 then KeySet(data) else {};
    var hs := if |data| > 0 then headers else [];
    var rows := AddRows(services, keys, data, headers);
    assert rows == NewRows(services, keys, existing, hs, |services|);
    if |data + rows| > 0 {
      KeySetAppend(data, rows);
      forall p | 0 <= p < |services| ensures keys[p] in KeySet(data + rows) {
        NewRowsCovered(services, existing, hs, p);
      }
      NewRowsNone(services, keys, KeySet(data + rows), headers, |services|);
    }
  }

  /** The corrected operation is idempotent: a second call on the data with
      the added rows appended adds nothing. */
  lemma AddAllServicesTrimmedIdempotent(links: seq<string>, data: seq<Row>, headers: seq<string>)
    ensures AddAllServicesTrimmed(links, data + AddAllServicesTrimmed(links, data, headers).newRows, headers).servicesAdded == 0
  {
    if |links| > 0 {
      AddRowsIdempotent(Extracted(links), data, headers);
    }
  }

  /** For trimmed names the untrimmed check key is the trimmed one. */
  lemma {:induction false} CheckKeysTrimmed(services: seq<Service>)
    requires forall i | 0 <= i < |services| :: IsTrimmed(services[i].name)
    ensures CheckKeys(services) == TrimmedKeys(services)
    decreases |services|
  {
    if services != [] {
      CheckKeysTrimmed(services[..|services| - 1]);
      TrimOfTrimmed(services[|services| - 1].name);
    }
  }

  /** As written, the operation is idempotent when every extracted name is
      free of surrounding white space. */
  lemma AddAllServicesIdempotentWhenTrimmed(links: seq<string>, data: seq<Row>, headers: seq<string>)
    requires forall i | 0 <= i < |Extracted(links)| :: IsTrimmed(Extracted(links)[i].name)
    ensures AddAllServices(links, data + AddAllServices(links, data, headers).newRows, headers).servicesAdded == 0
  {
    if |links| > 0 {
      CheckKeysTrimmed(Extracted(links));
      AddRowsIdempotent(Extracted(links), data, headers);
    }
  }

  /** A single link naming a service makes that one entry. */
  lemma ExtractedSingle(link: string, name: string)
    requires NamedBy(link, name)
    ensures Extracted([link]) == [Service(name, link)]
  {
    var links := [link];
    var names := LinkNames(links);
    LinkNamesAt(links, 0);
    ExtractServiceNameComplete(link, name);
    assert names[0] == name;
    assert FirstExact(names, 0);
    assert ServicesFrom(links, names, 0) == [];
    assert ServicesFrom(links, names, 1) == [Service(name, link)];
  }

  /** The rows one entry adds to an empty table: its own row. */
  lemma AddRowsSingleFirst(service: Service)
    ensures AddRows([service], CheckKeys([service]), [], []) == [EntryRow(service, [])]
  {
    var services := [service];
    CheckKeysAt(services, 0);
    assert NewRows(services, CheckKeys(services), {}, [], 0) == [];
  }

  /** The rows one entry adds to the table that holds its row: none exactly
      when its check key is the key of that row. */
  lemma AddRowsSingleSecond(service: Service)
    ensures AddRows([service], CheckKeys([service]), [EntryRow(service, [])], [])
      == if ServiceKey(service.name) == ServiceKey(Trim(service.name)) then [] else [EntryRow(service, [])]
  {
    var row := EntryRow(service, []);
    CheckKeysSingle(service);
    KeySetSingle(row);
    EntryRowKey(service, []);
    NewRowsSingle(service, ServiceKey(service.name), {ServiceKey(Trim(service.name))}, []);
  }

  /** The check keys of one entry. */
  lemma CheckKeysSingle(service: Service)
    ensures CheckKeys([service]) == [ServiceKey(service.name)]
  {
  }

  /** The keys of a table of one row. */
  lemma KeySetSingle(row: Row)
    ensures KeySet([row]) == {ExistingKey(row)}
  {
    RowKeysAt([row], 0);
  }

  /** One entry adds its row exactly when its key is not an existing one. */
  lemma NewRowsSingle(service: Service, key: string, existing: set<string>, headers: seq<string>)
    ensures NewRows([service], [key], existing, headers, 1) == if key in existing then [] else [EntryRow(service, headers)]
  {
    assert NewRows([service], [key], existing, headers, 0) == [];
  }

  /** On a single link and an empty table, the first call adds the service
      and the second adds it again exactly when the entry's key differs from
      the key of the row made for it. */
  lemma AddAllServicesTwice(link: string, name: string)
    requires NamedBy(link, name)
    ensures AddAllServices([link], [], []).servicesAdded == 1
    ensures AddAllServices([link], AddAllServices([link], [], []).newRows, []).servicesAdded
      == if ServiceKey(name) == ServiceKey(Trim(name)) then 0 else 1
  {
    ExtractedSingle(link, name);
    AddRowsSingleFirst(Service(name, link));
    AddRowsSingleSecond(Service(name, link));
  }

  /** As written, the operation is not idempotent: the link `h/deploy_a /`
      names the service `a `, whose row is known by the key `a` while the
      entry is checked with the key `a `, so each call adds it again. */
  lemma AddAllServicesNotIdempotent()
    ensures AddAllServices(["h/deploy_a /"], [], []).servicesAdded == 1
    ensures AddAllServices(["h/deploy_a /"], AddAllServices(["h/deploy_a /"], [], []).newRows, []).servicesAdded == 1
  {
    var link := "h/deploy_a /";
    assert NamedBy(link, "a ") by {
      assert link[|link| - |DeployMarker + "a " + "/"|..] == DeployMarker + "a " + "/";
    }
    assert Trim("a ") == "a";
    assert !EndsWith("a ", "-headless") && !EndsWith("a", "-headless");
    AddAllServicesTwice(link, "a ");
  }

  // ---------------------------------------------------------------------
  // organizeHeaders

  /** No string occurs twice: the members of a JavaScript Set in insertion
      order. */
  predicate NoDuplicates(names: seq<string>) {
    forall i, j | 0 <= i < j < |names| :: names[i] != names[j]
  }

  /** Whether each name is a version column, in order. */
  function VersionFlags(names: seq<string>, files: seq<string>): (flags: seq<bool>)
    ensures |flags| == |names|
    decreases |names|
  {
    if names == [] then []
    else VersionFlags(names[..|names| - 1], files) + [VersionColumn(names[|names| - 1], files)]
  }

  lemma {:induction false} VersionFlagsAt(names: seq<string>, files: seq<string>, i: nat)
    requires i < |names|
    ensures VersionFlags(names, files)[i] == VersionColumn(names[i], files)
    decreases |names|
  {
    if i < |names| - 1 {
      VersionFlagsAt(names[..|names| - 1], files, i);
      assert names[..|names| - 1][i] == names[i];
    }
  }

  /** The first `n` names that are not in `excluded` and whose flag is
      `want`, in order. */
  function Select(names: seq<string>, flags: seq<bool>, excluded: seq<string>, want: bool, n: nat): seq<string>
    requires n <= |names| == |flags|
  {
    if n == 0 then []
    else
      Select(names, flags, excluded, want, n - 1)
      + (if names[n - 1] !in excluded && flags[n - 1] == want then [names[n - 1]] else [])
  }

  /** Each selected name is one of the first `n`, not excluded, with the
      wanted flag. */
  lemma {:induction false} SelectFrom(names: seq<string>, flags: seq<bool>, excluded: seq<string>, want: bool, n: nat, k: nat)
    returns (i: nat)
    requires n <= |names| == |flags|
    requires k < |Select(names, flags, excluded, want, n)|
    ensures i < n && Select(names, flags, excluded, want, n)[k] == names[i]
    ensures names[i] !in excluded && flags[i] == want
    decreases n
  {
    if k < |Select(names, flags, excluded, want, n - 1)| {
      i := SelectFrom(names, flags, excluded, want, n - 1, k);
    } else {
      i := n - 1;
    }
  }

  /** Each of the first `n` names that is not excluded and has the wanted
      flag is selected. */
  lemma {:induction false} SelectHas(names: seq<string>, flags: seq<bool>, excluded: seq<string>, want: bool, n: nat, i: nat)
    requires n <= |names| == |flags|
    requires i < n && names[i] !in excluded && flags[i] == want
    ensures names[i] in Select(names, flags, excluded, want, n)
    decreases n
  {
    if i < n - 1 {
      SelectHas(names, flags, excluded, want, n - 1, i);
    }
  }

  /** Selecting from names without duplicates gives none. */
  lemma {:induction false} SelectNoDuplicates(names: seq<string>, flags: seq<bool>, excluded: seq<string>, want: bool, n: nat)
    requires n <= |names| == |flags| && NoDuplicates(names)
    ensures NoDuplicates(Select(names, flags, excluded, want, n))
    decreases n
  {
    if n > 0 {
      var prev := Select(names, flags, excluded, want, n - 1);
      SelectNoDuplicates(names, flags, excluded, want, n - 1);
      if names[n - 1] !in excluded && flags[n - 1] == want {
        forall k | 0 <= k < |prev| ensures prev[k] != names[n - 1] {
          var i := SelectFrom(names, flags, excluded, want, n - 1, k);
        }
      }
    }
  }

  lemma NoDuplicatesAppend(a: seq<string>, b: seq<string>)
    requires NoDuplicates(a) && NoDuplicates(b)
    requires forall k | 0 <= k < |b| :: b[k] !in a
    ensures NoDuplicates(a + b)
  {
    forall i, j | 0 <= i < j < |a + b| ensures (a + b)[i] != (a + b)[j] {
      if i < |a| && j >= |a| {
        assert b[j - |a|] !in a;
      }
    }
  }

  /** `Service0`, `Jenkins Link`, then `Environment` when it is a header. */
  function FixedHeaders(allHeaders: seq<string>): seq<string> {
    ["Service0", "Jenkins Link"] + (if "Environment" in allHeaders then ["Environment"] else [])
  }

  /** The keys of the first Jira row, or none without Jira data. */
  function JiraKeys(jira: seq<Row>): seq<string> {
    if |jira| > 0 then Keys(jira[0]) else []
  }

  /** The leading zone: the fixed headers, then the Jira keys that are
      neither among them nor version columns. */
  function OrderedHeaders(allHeaders: seq<string>, jira: seq<Row>, files: seq<string>): seq<string> {
    var fixed := FixedHeaders(allHeaders);
    var keys := JiraKeys(jira);
    fixed + Select(keys, VersionFlags(keys, files), fixed, false, |keys|)
  }

  /** organizeHeaders: the leading zone, then the remaining headers that are
      not version columns, then the remaining version columns, each in the
      order of `allHeaders`. */
  function Organized(allHeaders: seq<string>, jira: seq<Row>, files: seq<string>): seq<string> {
    var ordered := OrderedHeaders(allHeaders, jira, files);
    var flags := VersionFlags(allHeaders, files);
    ordered
    + Select(allHeaders, flags, ordered, false, |allHeaders|)
    + Select(allHeaders, flags, ordered, true, |allHeaders|)
  }

  /** The Jira-column filter; `Object.keys` of the first row, the original
      Jira data being given as a (possibly empty) list of rows. */
  method JiraHeaders(keys: seq<string>, orderedHeaders: seq<string>, versionsFileNames: seq<string>)
    returns (jiraHeaders: seq<string>)
    requires "Service0" in orderedHeaders
    ensures jiraHeaders == Select(keys, VersionFlags(keys, versionsFileNames), orderedHeaders, false, |keys|)
  {
    jiraHeaders := [];
    for i := 0 to |keys|
      invariant jiraHeaders == Select(keys, VersionFlags(keys, versionsFileNames), orderedHeaders, false, i)
    {
      var h := keys[i];
      VersionFlagsAt(keys, versionsFileNames, i);
      if h != "Service0" && h !in orderedHeaders {
        var isVersion := IsVersionColumn(h, versionsFileNames);
        if !isVersion {
          jiraHeaders := jiraHeaders + [h];
        }
      }
    }
  }

  /** The `allHeaders.forEach` loop: every header not yet ordered goes to the
      version or the other columns. */
  method SplitRemaining(allHeaders: seq<string>, orderedHeaders: seq<string>, versionsFileNames: seq<string>)
    returns (otherHeaders: seq<string>, versionHeaders: seq<string>)
    ensures otherHeaders == Select(allHeaders, VersionFlags(allHeaders, versionsFileNames), orderedHeaders, false, |allHeaders|)
    ensures versionHeaders == Select(allHeaders, VersionFlags(allHeaders, versionsFileNames), orderedHeaders, true, |allHeaders|)
  {
    otherHeaders, versionHeaders := [], [];
    for i := 0 to |allHeaders|
      invariant otherHeaders == Select(allHeaders, VersionFlags(allHeaders, versionsFileNames), orderedHeaders, false, i)
      invariant versionHeaders == Select(allHeaders, VersionFlags(allHeaders, versionsFileNames), orderedHeaders, true, i)
    {
      var header := allHeaders[i];
      VersionFlagsAt(allHeaders, versionsFileNames, i);
      if header !in orderedHeaders {
        var isVersion := IsVersionColumn(header, versionsFileNames);
        if isVersion {
          versionHeaders := versionHeaders + [header];
        } else {
          otherHeaders := otherHeaders + [header];
        }
      }
    }
  }

  /** organizeHeaders, `allHeaders` being the Set's members in insertion
      order. */
  method OrganizeHeaders(allHeaders: seq<string>, originalJiraData: seq<Row>, versionsFileNames: seq<string>)
    returns (headers: seq<string>)
    ensures headers == Organized(allHeaders, originalJiraData, versionsFileNames)
  {
    var orderedHeaders := ["Service0", "Jenkins Link"];
    if "Environment" in allHeaders {
      orderedHeaders := orderedHeaders + ["Environment"];
    }
    assert orderedHeaders == FixedHeaders(allHeaders);
    if |originalJiraData| > 0 {
      var jiraHeaders := JiraHeaders(Keys(originalJiraData[0]), orderedHeaders, versionsFileNames);
      orderedHeaders := orderedHeaders + jiraHeaders;
    } else {
      assert JiraKeys(originalJiraData) == [];
    }
    assert orderedHeaders == OrderedHeaders(allHeaders, originalJiraData, versionsFileNames);
    var otherHeaders, versionHeaders := SplitRemaining(allHeaders, orderedHeaders, versionsFileNames);
    headers := orderedHeaders + otherHeaders + versionHeaders;
  }

  /** The fixed headers are never version columns. */
  lemma FixedNotVersion(allHeaders: seq<string>, files: seq<string>, i: nat)
    requires i < |FixedHeaders(allHeaders)|
    ensures !VersionColumn(FixedHeaders(allHeaders)[i], files)
  {
    var h := FixedHeaders(allHeaders)[i];
    assert h == "Service0" || h == "Jenkins Link" || h == "Environment";
    assert h[0] == 'S' || h[0] == 'J' || h[0] == 'E';
    PlainNameNotClassified(h, files);
  }

  /** The order starts `Service0`, `Jenkins Link`, then `Environment` when it
      is a header. */
  lemma OrganizedStart(allHeaders: seq<string>, jira: seq<Row>, files: seq<string>)
    ensures |Organized(allHeaders, jira, files)| >= 2
    ensures Organized(allHeaders, jira, files)[0] == "Service0"
    ensures Organized(allHeaders, jira, files)[1] == "Jenkins Link"
    ensures "Environment" in allHeaders ==> |Organized(allHeaders, jira, files)| >= 3 && Organized(allHeaders, jira, files)[2] == "Environment"
  {
  }

  /** Where the version columns start: after the leading zone and the other
      columns. */
  function VersionZoneStart(allHeaders: seq<string>, jira: seq<Row>, files: seq<string>): nat {
    var ordered := OrderedHeaders(allHeaders, jira, files);
    |ordered| + |Select(allHeaders, VersionFlags(allHeaders, files), ordered, false, |allHeaders|)|
  }

  /** A selected name is a version column exactly when the wanted flag
      says so. */
  lemma SelectedVersion(names: seq<string>, files: seq<string>, excluded: seq<string>, want: bool, k: nat)
    requires k < |Select(names, VersionFlags(names, files), excluded, want, |names|)|
    ensures VersionColumn(Select(names, VersionFlags(names, files), excluded, want, |names|)[k], files) == want
  {
    var j := SelectFrom(names, VersionFlags(names, files), excluded, want, |names|, k);
    VersionFlagsAt(names, files, j);
  }

  /** The version columns form the suffix: a position holds a version column
      exactly when it lies at or after the start of the version zone. */
  lemma OrganizedZones(allHeaders: seq<string>, jira: seq<Row>, files: seq<string>, i: nat)
    requires i < |Organized(allHeaders, jira, files)|
    ensures VersionZoneStart(allHeaders, jira, files) <= |Organized(allHeaders, jira, files)|
    ensures VersionColumn(Organized(allHeaders, jira, files)[i], files) <==> i >= VersionZoneStart(allHeaders, jira, files)
  {
    var fixed := FixedHeaders(allHeaders);
    var keys := JiraKeys(jira);
    var ordered := OrderedHeaders(allHeaders, jira, files);
    var flags := VersionFlags(allHeaders, files);
    var others := Select(allHeaders, flags, ordered, false, |allHeaders|);
    var versions := Select(allHeaders, flags, ordered, true, |allHeaders|);
    var r := Organized(allHeaders, jira, files);
    assert r == ordered + others + versions;
    var start := VersionZoneStart(allHeaders, jira, files);
    assert start == |ordered| + |others|;
    var h := r[i];
    var isVersion: bool;
    if i < |fixed| {
      assert h == fixed[i];
      FixedNotVersion(allHeaders, files, i);
      assert VersionColumn(h, files) == false;
      isVersion := false;
    } else if i < |ordered| {
      assert h == Select(keys, VersionFlags(keys, files), fixed, false, |keys|)[i - |fixed|];
      SelectedVersion(keys, files, fixed, false, i - |fixed|);
      assert VersionColumn(h, files) == false;
      isVersion := false;
    } else if i < |ordered| + |others| {
      assert h == others[i - |ordered|];
      SelectedVersion(allHeaders, files, ordered, false, i - |ordered|);
      assert VersionColumn(h, files) == false;
      isVersion := false;
    } else {
      assert h == versions[i - |ordered| - |others|];
      SelectedVersion(allHeaders, files, ordered, true, i - |ordered| - |others|);
      assert VersionColumn(h, files) == true;
      isVersion := true;
    }
    assert isVersion == (i >= start);
  }

  /** Every header is placed; the only other names placed are the fixed
      ones and the Jira keys. */
  lemma OrganizedMembers(allHeaders: seq<string>, jira: seq<Row>, files: seq<string>)
    ensures forall h | h in allHeaders :: h in Organized(allHeaders, jira, files)
    ensures forall h | h in Organized(allHeaders, jira, files) ::
      h in allHeaders || h in FixedHeaders(allHeaders) || h in JiraKeys(jira)
  {
    var fixed := FixedHeaders(allHeaders);
    var keys := JiraKeys(jira);
    var kf := VersionFlags(keys, files);
    var ordered := OrderedHeaders(allHeaders, jira, files);
    var flags := VersionFlags(allHeaders, files);
    var others := Select(allHeaders, flags, ordered, false, |allHeaders|);
    var versions := Select(allHeaders, flags, ordered, true, |allHeaders|);
    var r := Organized(allHeaders, jira, files);
    assert r == ordered + others + versions;
    forall h | h in allHeaders ensures h in r {
      var i :| 0 <= i < |allHeaders| && allHeaders[i] == h;
      if h !in ordered {
        SelectHas(allHeaders, flags, ordered, flags[i], |allHeaders|, i);
      }
    }
    forall k | 0 <= k < |r| ensures r[k] in allHeaders || r[k] in fixed || r[k] in keys {
      if k < |fixed| {
      } else if k < |ordered| {
        var j := SelectFrom(keys, kf, fixed, false, |keys|, k - |fixed|);
      } else if k < |ordered| + |others| {
        var j := SelectFrom(allHeaders, flags, ordered, false, |allHeaders|, k - |ordered|);
      } else {
        var j := SelectFrom(allHeaders, flags, ordered, true, |allHeaders|, k - |ordered| - |others|);
      }
    }
  }

  /** Headers from a Set and a Jira row with distinct keys are placed once
      each: together with OrganizedMembers, every header appears exactly
      once. */
  lemma OrganizedNoDuplicates(allHeaders: seq<string>, jira: seq<Row>, files: seq<string>)
    requires NoDuplicates(allHeaders)
    requires |jira| > 0 ==> DistinctKeys(jira[0])
    ensures NoDuplicates(Organized(allHeaders, jira, files))
  {
    var fixed := FixedHeaders(allHeaders);
    var keys := JiraKeys(jira);
    var kf := VersionFlags(keys, files);
    var jh := Select(keys, kf, fixed, false, |keys|);
    var ordered := OrderedHeaders(allHeaders, jira, files);
    var flags := VersionFlags(allHeaders, files);
    var others := Select(allHeaders, flags, ordered, false, |allHeaders|);
    var versions := Select(allHeaders, flags, ordered, true, |allHeaders|);
    assert NoDuplicates(keys);
    SelectNoDuplicates(keys, kf, fixed, false, |keys|);
    forall k | 0 <= k < |jh| ensures jh[k] !in fixed {
      var j := SelectFrom(keys, kf, fixed, false, |keys|, k);
    }
    NoDuplicatesAppend(fixed, jh);
    SelectNoDuplicates(allHeaders, flags, ordered, false, |allHeaders|);
    forall k | 0 <= k < |others| ensures others[k] !in ordered {
      var j := SelectFrom(allHeaders, flags, ordered, false, |allHeaders|, k);
    }
    NoDuplicatesAppend(ordered, others);
    SelectNoDuplicates(allHeaders, flags, ordered, true, |allHeaders|);
    forall k | 0 <= k < |versions| ensures versions[k] !in ordered + others {
      var j := SelectFrom(allHeaders, flags, ordered, true, |allHeaders|, k);
      if versions[k] in others {
        var m :| 0 <= m < |others| && others[m] == versions[k];
        var j2 := SelectFrom(allHeaders, flags, ordered, false, |allHeaders|, m);
      }
    }
    NoDuplicatesAppend(ordered + others, versions);
  }
}

=== FILE: exporter.dfy ===
/**
  CSV export (convertToCSV): every field, header or cell, is wrapped in
  double quotes with inner quotes doubled (rule 7 of section 2 of RFC 4180),
  fields are separated by commas and records by a line feed (the RFC asks
  for CRLF). The partner of the serialiser is a parser for that format; the
  round trip shows that the export holds exactly the headers and, per row,
  the cells under those headers in their order.
*/
module Exporter {
  import opened Text
  import opened Records

  /** `s.replace(/"/g, '""')`. */
  function Escape(s: string): (e: string)
    ensures |e| >= |s|
    decreases |s|
  {
    if s == [] then []
    else if s[0] == '"' then "\"\"" + Escape(s[1..])
    else [s[0]] + Escape(s[1..])
  }

  /** A field as written: quoted, inner quotes doubled. */
  function Quote(s: string): (q: string)
    ensures |q| >= 2 && q[0] == '"' && q[|q| - 1] == '"'
  {
    "\"" + Escape(s) + "\""
  }

  /** Every field of a list, quoted. */
  function QuoteAll(fields: seq<string>): (qs: seq<string>)
    ensures |qs| == |fields|
    ensures forall i | 0 <= i < |fields| :: qs[i] == Quote(fields[i])
  {
    seq(|fields|, i requires 0 <= i < |fields| => Quote(fields[i]))
  }

  /** One record: the quoted fields joined by commas. */
  function Line(fields: seq<string>): string {
    Join(QuoteAll(fields), ',')
  }

  /** `row[header]`, the empty string when absent. */
  function Cells(row: Row, headers: seq<string>): (cs: seq<string>)
    ensures |cs| == |headers|
    ensures forall i | 0 <= i < |headers| :: cs[i] == Value(row, headers[i])
  {
    seq(|headers|, i requires 0 <= i < |headers| => Value(row, headers[i]))
  }

  /** The records of the export: the headers, then one record per row. */
  function ExportRecords(data: seq<Row>, headers: seq<string>): (rs: seq<seq<string>>)
    ensures |rs| == |data| + 1 && rs[0] == headers
    ensures forall i | 0 <= i < |data| :: rs[i + 1] == Cells(data[i], headers)
  {
    [headers] + seq(|data|, i requires 0 <= i < |data| => Cells(data[i], headers))
  }

  /** Every record, written. */
  function Lines(records: seq<seq<string>>): (ls: seq<string>)
    ensures |ls| == |records|
    ensures forall i | 0 <= i < |records| :: ls[i] == Line(records[i])
  {
    seq(|records|, i requires 0 <= i < |records| => Line(records[i]))
  }

  /** convertToCSV: the header line, then one line per row, joined by line
      feeds. */
  function ConvertToCSV(data: seq<Row>, headers: seq<string>): (csv: string)
  {
    Join(Lines(ExportRecords(data, headers)), '\n')
  }

  // ---------------------------------------------------------------------
  // The format read back

  /** Reads the inside of a quoted field up to its closing quote: a doubled
      quote stands for one quote. Returns the value and what follows the
      closing quote. */
  function ParseQuoted(s: string): (r: Option<(string, string)>)
    ensures r.Some? ==> |r.value.1| < |s|
    decreases |s|
  {
    if s == [] then None
    else if s[0] == '"' then
      if |s| >= 2 && s[1] == '"' then
        match ParseQuoted(s[2..])
        case None => None
        case Some((v, rest)) => Some(("\"" + v, rest))
      else Some(("", s[1..]))
    else
      match ParseQuoted(s[1..])
      case None => None
      case Some((v, rest)) => Some(([s[0]] + v, rest))
  }

  /** Reads one record: quoted fields separated by commas, up to a line feed
      or the end. Returns the fields and the text from that point on. */
  function ParseRecord(s: string): (r: Option<(seq<string>, string)>)
    ensures r.Some? ==> |r.value.1| < |s|
    decreases |s|
  {
    if s == [] || s[0] != '"' then None
    else
      match ParseQuoted(s[1..])
      case None => None
      case Some((v, rest)) =>
        if rest != [] && rest[0] == ',' then
          match ParseRecord(rest[1..])
          case None => None
          case Some((fields, after)) => Some(([v] + fields, after))
        else Some(([v], rest))
  }

  /** Reads the whole text: records separated by line feeds. */
  function ParseCSV(s: string): (r: Option<seq<seq<string>>>)
    decreases |s|
  {
    match ParseRecord(s)
    case None => None
    case Some((fields, rest)) =>
      if rest == [] then Some([fields])
      else if rest[0] != '\n' then None
      else
        match ParseCSV(rest[1..])
        case None => None
        case Some(records) => Some([fields] + records)
  }

  lemma {:induction false} ParseQuotedEscape(v: string, rest: string)
    requires rest == [] || rest[0] != '"'
    ensures ParseQuoted(Escape(v) + "\"" + rest) == Some((v, rest))
    decreases |v|
  {
    if v == [] {
      var s := Escape(v) + "\"" + rest;
      assert s == "\"" + rest;
      assert s[1..] == rest;
    } else {
      ParseQuotedEscape(v[1..], rest);
      var s := Escape(v) + "\"" + rest;
      if v[0] == '"' {
        assert s == "\"\"" + (Escape(v[1..]) + "\"" + rest);
        assert s[2..] == Escape(v[1..]) + "\"" + rest;
      } else {
        assert s == [v[0]] + (Escape(v[1..]) + "\"" + rest);
        assert s[1..] == Escape(v[1..]) + "\"" + rest;
      }
      assert v == [v[0]] + v[1..];
    }
  }

  /** A field read back after quoting. */
  lemma FieldRoundTrip(v: string, rest: string)
    requires rest == [] || rest[0] != '"'
    ensures Quote(v) + rest != [] && (Quote(v) + rest)[0] == '"'
    ensures ParseQuoted((Quote(v) + rest)[1..]) == Some((v, rest))
  {
    assert (Quote(v) + rest)[1..] == Escape(v) + "\"" + rest;
    ParseQuotedEscape(v, rest);
  }

  /** A written record of one field is that field quoted. */
  lemma LineOne(fields: seq<string>)
    requires |fields| == 1
    ensures Line(fields) == Quote(fields[0])
  {
  }

  /** A written record of several fields is its first quoted field, a comma
      and the rest. */
  lemma LineMore(fields: seq<string>)
    requires |fields| > 1
    ensures Line(fields) == Quote(fields[0]) + "," + Line(fields[1..])
  {
    assert QuoteAll(fields)[1..] == QuoteAll(fields[1..]);
  }

  /** Reading a record made of one quoted field. */
  lemma ParseRecordLast(v: string, rest: string)
    requires rest == [] || rest[0] == '\n'
    ensures ParseRecord(Quote(v) + rest) == Some(([v], rest))
  {
    FieldRoundTrip(v, rest);
  }

  /** Reading a record whose first quoted field is followed by a comma. */
  lemma ParseRecordComma(v: string, more: string, tail: seq<string>, after: string)
    requires ParseRecord(more) == Some((tail, after))
    ensures ParseRecord(Quote(v) + "," + more) == Some(([v] + tail, after))
  {
    FieldRoundTrip(v, "," + more);
    assert Quote(v) + "," + more == Quote(v) + ("," + more);
    assert ("," + more)[1..] == more;
  }

  /** A record read back after writing, when a line feed or the end
      follows it. */
  lemma {:induction false} RecordRoundTrip(fields: seq<string>, rest: string)
    requires |fields| > 0
    requires rest == [] || rest[0] == '\n'
    ensures ParseRecord(Line(fields) + rest) == Some((fields, rest))
    decreases |fields|
  {
    if |fields| == 1 {
      LineOne(fields);
      ParseRecordLast(fields[0], rest);
      assert fields == [fields[0]];
    } else {
      RecordRoundTrip(fields[1..], rest);
      RecordCons(fields, rest);
    }
  }

  /** The step of RecordRoundTrip: a field in front of a record that reads
      back. */
  lemma RecordCons(fields: seq<string>, rest: string)
    requires |fields| > 1
    requires rest == [] || rest[0] == '\n'
    requires ParseRecord(Line(fields[1..]) + rest) == Some((fields[1..], rest))
    ensures ParseRecord(Line(fields) + rest) == Some((fields, rest))
  {
    LineMore(fields);
    var more := Line(fields[1..]) + rest;
    assert Line(fields) + rest == Quote(fields[0]) + "," + more;
    ParseRecordComma(fields[0], more, fields[1..], rest);
    assert [fields[0]] + fields[1..] == fields;
  }

  /** Records read back after writing, when none of them is empty. */
  lemma {:induction false} RecordsRoundTrip(records: seq<seq<string>>)
    requires |records| > 0
    requires forall i | 0 <= i < |records| :: |records[i]| > 0
    ensures ParseCSV(Join(Lines(records), '\n')) == Some(records)
    decreases |records|
  {
    var ls := Lines(records);
    if |records| == 1 {
      assert Join(ls, '\n') == Line(records[0]) + [];
      RecordRoundTrip(records[0], []);
      assert records == [records[0]];
    } else {
      assert ls[1..] == Lines(records[1..]);
      var tail := Join(Lines(records[1..]), '\n');
      assert Join(ls, '\n') == Line(records[0]) + ("\n" + tail);
      RecordRoundTrip(records[0], "\n" + tail);
      assert ("\n" + tail)[1..] == tail;
      RecordsRoundTrip(records[1..]);
      assert records == [records[0]] + records[1..];
    }
  }

  /** What convertToCSV writes: read back, it is the header record followed
      by one record per row holding the row's value under each header, in
      header order, and the empty string where the row lacks the header;
      keys not among the headers are not written. Empty data gives the
      header line alone. */
  lemma ConvertToCSVRoundTrip(data: seq<Row>, headers: seq<string>)
    requires |headers| > 0
    ensures ParseCSV(ConvertToCSV(data, headers)) == Some(ExportRecords(data, headers))
    ensures data == [] ==> ConvertToCSV(data, headers) == Line(headers)
  {
    RecordsRoundTrip(ExportRecords(data, headers));
  }

  /** `n + 1` empty lines joined by line feeds are `n` line feeds. */
  lemma {:induction false} JoinEmptyLines(n: nat)
    ensures Join(seq(n + 1, _ => ""), '\n') == seq(n, _ => '\n')
  {
    if n > 0 {
      assert seq(n + 1, _ => "")[1..] == seq(n, _ => "");
      JoinEmptyLines(n - 1);
      assert seq(n, _ => '\n') == "\n" + seq(n - 1, _ => '\n');
    }
  }

  /** With every column hidden, convertToCSV writes an empty header line and
      an empty line per row: as many line feeds as rows, and nothing else. */
  lemma ConvertToCSVNoHeaders(data: seq<Row>)
    ensures ConvertToCSV(data, []) == seq(|data|, _ => '\n')
  {
    assert Lines(ExportRecords(data, [])) == seq(|data| + 1, _ => "");
    JoinEmptyLines(|data|);
  }
}

=== FILE: records.dfy ===
/**
  A table row as JavaScript holds it: a plain object whose own string keys
  are iterated in insertion order. A row is the sequence of its fields in
  that order; reading a key takes its field, assigning a key replaces the
  field in place or appends a new one, and `{ ...row }` is the row itself.
*/
module Records {
  import opened Text

  datatype Option<T> = None | Some(value: T)

  datatype Field = Field(key: string, value: string)

  type Row = seq<Field>

  /** `Object.keys(row)`. */
  function Keys(r: Row): (ks: seq<string>)
    ensures |ks| == |r| && forall i | 0 <= i < |r| :: ks[i] == r[i].key
  {
    seq(|r|, i requires 0 <= i < |r| => r[i].key)
  }

  /** `key in row`. */
  predicate Has(r: Row, k: string) {
    exists i | 0 <= i < |r| :: r[i].key == k
  }

  /** No key occurs twice, as in every JavaScript object. */
  predicate DistinctKeys(r: Row) {
    forall i, j | 0 <= i < j < |r| :: r[i].key != r[j].key
  }

  /** The position of the field holding `k`, or -1. */
  function IndexOf(r: Row, k: string): (i: int)
    ensures -1 <= i < |r|
    ensures i >= 0 ==> r[i].key == k && forall j | 0 <= j < i :: r[j].key != k
    ensures i < 0 ==> forall j | 0 <= j < |r| :: r[j].key != k
  {
    if r == [] then -1
    else if r[0].key == k then 0
    else
      var t := IndexOf(r[1..], k);
      if t < 0 then -1 else t + 1
  }

  /** `row[key]`, `undefined` being None. */
  function Get(r: Row, k: string): (v: Option<string>)
    ensures v.Some? <==> Has(r, k)
  {
    var i := IndexOf(r, k);
    if i < 0 then None else Some(r[i].value)
  }

  /** `row[key] || ''`: the value, or the empty string when the key is absent. */
  function Value(r: Row, k: string): string {
    match Get(r, k)
    case Some(v) => v
    case None => ""
  }

  /** `row[key] = value`: replaces the value in place when the key is present,
      otherwise appends a new field. */
  function Put(r: Row, k: string, v: string): (s: Row)
    ensures |s| == if Has(r, k) then |r| else |r| + 1
    ensures forall i | 0 <= i < |r| :: s[i].key == r[i].key
    ensures !Has(r, k) ==> s == r + [Field(k, v)]
  {
    var i := IndexOf(r, k);
    if i < 0 then r + [Field(k, v)] else r[i := Field(k, v)]
  }

  /** Reading after an assignment sees the assigned value, and nothing else
      changes. */
  lemma PutGet(r: Row, k: string, v: string)
    ensures Get(Put(r, k, v), k) == Some(v)
    ensures forall j | j != k :: Get(Put(r, k, v), j) == Get(r, j)
    ensures DistinctKeys(r) ==> DistinctKeys(Put(r, k, v))
  {
    var s := Put(r, k, v);
    var i := IndexOf(r, k);
    if i < 0 {
      assert s[|r|].key == k;
    }
    forall j | j != k ensures Get(s, j) == Get(r, j) {
      var a := IndexOf(r, j);
      if a >= 0 { assert s[a].key == j; }
    }
  }

  /** Reading the key just assigned. */
  lemma PutGetSame(r: Row, k: string, v: string)
    ensures Get(Put(r, k, v), k) == Some(v)
  {
    PutGet(r, k, v);
  }

  /** Reading another key than the one just assigned. */
  lemma PutGetOther(r: Row, k: string, v: string, j: string)
    requires j != k
    ensures Get(Put(r, k, v), j) == Get(r, j)
  {
    PutGet(r, k, v);
  }

  /** `if (!(key in row)) row[key] = value`. */
  function AddAbsent(r: Row, k: string, v: string): Row {
    if Has(r, k) then r else r + [Field(k, v)]
  }

  /** AddAbsent never overwrites: the row only gains `k`, and with the value
      given when it lacked it. */
  lemma AddAbsentSpec(r: Row, k: string, v: string, c: string)
    ensures Extends(r, AddAbsent(r, k, v))
    ensures Has(AddAbsent(r, k, v), c) <==> Has(r, c) || c == k
    ensures !Has(r, k) ==> Get(AddAbsent(r, k, v), k) == Some(v)
    ensures DistinctKeys(r) ==> DistinctKeys(AddAbsent(r, k, v))
  {
    if !Has(r, k) {
      assert AddAbsent(r, k, v)[|r|].key == k;
      assert AddAbsent(r, k, v)[..|r|] == r;
      PutGet(r, k, v);
      if Has(AddAbsent(r, k, v), c) && c != k {
        var i :| 0 <= i < |r| + 1 && AddAbsent(r, k, v)[i].key == c;
        assert r[i].key == c;
      }
      if Has(r, c) {
        var i :| 0 <= i < |r| && r[i].key == c;
        assert AddAbsent(r, k, v)[i].key == c;
      }
    }
  }

  /** `s` keeps every field of `r`, at the same place and with the same value. */
  predicate Extends(r: Row, s: Row) {
    |r| <= |s| && s[..|r|] == r
  }

  lemma ExtendsTrans(r: Row, s: Row, t: Row)
    requires Extends(r, s) && Extends(s, t)
    ensures Extends(r, t)
  {
    assert t[..|r|] == t[..|s|][..|r|];
  }

  lemma {:induction false} ExtendsGet(r: Row, s: Row, k: string)
    requires Extends(r, s) && Has(r, k)
    ensures Get(s, k) == Get(r, k)
    decreases |r|
  {
    if r[0].key != k {
      assert Has(r[1..], k) by {
        var i :| 0 <= i < |r| && r[i].key == k;
        assert r[1..][i - 1].key == k;
      }
      ExtendsGet(r[1..], s[1..], k);
    }
  }

  /** Copies into `r`, in `other`'s key order, every field of `other` whose
      key `r` lacks: the loop `Object.keys(other).forEach(key => { if (!(key
      in row)) row[key] = other[key]; })`. */
  function MergeAbsent(r: Row, other: Row): (s: Row)
    decreases |other|
  {
    if other == [] then r
    else MergeAbsent(AddAbsent(r, other[0].key, other[0].value), other[1..])
  }

  lemma HasFirst(r: Row, k: string)
    requires r != []
    ensures Has(r, k) <==> r[0].key == k || Has(r[1..], k)
  {
    if Has(r, k) && r[0].key != k {
      var i :| 0 <= i < |r| && r[i].key == k;
      assert r[1..][i - 1].key == k;
    }
    if Has(r[1..], k) {
      var i :| 0 <= i < |r[1..]| && r[1..][i].key == k;
      assert r[i + 1].key == k;
    }
  }

  lemma GetFirst(r: Row, k: string)
    requires r != [] && r[0].key != k
    ensures Get(r, k) == Get(r[1..], k)
  {
  }

  lemma {:induction false} MergeAbsentExtends(r: Row, other: Row)
    ensures Extends(r, MergeAbsent(r, other))
    decreases |other|
  {
    if other != [] {
      var r1 := AddAbsent(r, other[0].key, other[0].value);
      MergeAbsentExtends(r1, other[1..]);
      var s := MergeAbsent(r1, other[1..]);
      assert s[..|r|] == s[..|r1|][..|r|];
    }
  }

  lemma {:induction false} MergeAbsentHas(r: Row, other: Row, k: string)
    ensures Has(MergeAbsent(r, other), k) <==> Has(r, k) || Has(other, k)
    decreases |other|
  {
    if other != [] {
      var r1 := AddAbsent(r, other[0].key, other[0].value);
      MergeAbsentHas(r1, other[1..], k);
      HasFirst(other, k);
      if !Has(r, other[0].key) {
        HasFirst(r1[|r1| - 1..], k);
        assert r1[|r|].key == other[0].key;
      }
    }
  }

  lemma {:induction false} MergeAbsentGet(r: Row, other: Row, k: string)
    requires !Has(r, k) && Has(other, k)
    ensures Get(MergeAbsent(r, other), k) == Get(other, k)
    decreases |other|
  {
    var f := other[0];
    var r1 := AddAbsent(r, f.key, f.value);
    var s := MergeAbsent(r1, other[1..]);
    HasFirst(other, k);
    if k == f.key {
      assert r1 == r + [Field(k, f.value)];
      assert r1[|r|].key == k;
      assert Get(r1, k) == Some(f.value);
      MergeAbsentExtends(r1, other[1..]);
      ExtendsGet(r1, s, k);
    } else {
      assert !Has(r1, k);
      GetFirst(other, k);
      MergeAbsentGet(r1, other[1..], k);
    }
  }

  lemma {:induction false} MergeAbsentDistinct(r: Row, other: Row)
    requires DistinctKeys(r)
    ensures DistinctKeys(MergeAbsent(r, other))
    decreases |other|
  {
    if other != [] {
      var r1 := AddAbsent(r, other[0].key, other[0].value);
      MergeAbsentDistinct(r1, other[1..]);
    }
  }

  /** What MergeAbsent promises: the old fields stay in place untouched (it
      never overwrites), the key set becomes the union, and each added key
      carries the value `other` has for it. */
  lemma MergeAbsentSpec(r: Row, other: Row)
    ensures Extends(r, MergeAbsent(r, other))
    ensures forall k :: Has(MergeAbsent(r, other), k) <==> Has(r, k) || Has(other, k)
    ensures forall k | Has(r, k) :: Get(MergeAbsent(r, other), k) == Get(r, k)
    ensures forall k | !Has(r, k) && Has(other, k) :: Get(MergeAbsent(r, other), k) == Get(other, k)
    ensures DistinctKeys(r) ==> DistinctKeys(MergeAbsent(r, other))
  {
    var s := MergeAbsent(r, other);
    MergeAbsentExtends(r, other);
    forall k ensures Has(s, k) <==> Has(r, k) || Has(other, k) {
      MergeAbsentHas(r, other, k);
    }
    forall k | Has(r, k) ensures Get(s, k) == Get(r, k) {
      ExtendsGet(r, s, k);
    }
    forall k | !Has(r, k) && Has(other, k) ensures Get(s, k) == Get(other, k) {
      MergeAbsentGet(r, other, k);
    }
    if DistinctKeys(r) {
      MergeAbsentDistinct(r, other);
    }
  }

  /** `rows.map(f)` on the first `n` rows. */
  function MapRows(f: Row -> Row, rows: seq<Row>, n: nat): (out: seq<Row>)
    requires n <= |rows|
    ensures |out| == n
  {
    if n == 0 then [] else MapRows(f, rows, n - 1) + [f(rows[n - 1])]
  }

  lemma {:induction false} MapRowsAt(f: Row -> Row, rows: seq<Row>, n: nat, i: nat)
    requires i < n <= |rows|
    ensures MapRows(f, rows, n)[i] == f(rows[i])
    decreases n
  {
    if i < n - 1 {
      MapRowsAt(f, rows, n - 1, i);
    }
  }
}

=== FILE: settings.dfy ===
/**
  The parts of the settings adapters that run after their requests have
  been answered: the service-name normalisers, the health and version
  columns built from the fetched application lists, the choice of Jenkins
  build links and the production-build search. Every answer the adapters
  would fetch is a parameter; a failed request is an explicit value.
*/
module Settings {
  import opened Text
  import opened Records
  import TableRenderer
  import DataProcessor

  // ---------------------------------------------------------------------
  // Service-name normalisation

  /** `/headless/gi` replaced by nothing: every occurrence, in any case,
      scanning left to right. */
  function RemoveHeadless(s: string): (r: string)
    ensures |r| <= |s|
    decreases |s|
  {
    if |s| < 8 then s
    else if Lower(s[..8]) == "headless" then RemoveHeadless(s[8..])
    else [s[0]] + RemoveHeadless(s[1..])
  }

  /** No two white-space characters in a row. */
  predicate SingleSpaced(s: string) {
    forall i | 0 <= i < |s| - 1 :: !(IsSpace(s[i]) && IsSpace(s[i + 1]))
  }

  /** No two hyphens in a row. */
  predicate SingleHyphens(s: string) {
    forall i | 0 <= i < |s| - 1 :: !(s[i] == '-' && s[i + 1] == '-')
  }

  /** `/\s+/g` replaced by one space. */
  function CollapseSpaces(s: string): (r: string)
    ensures |r| <= |s|
    ensures s != [] ==> r != [] && r[0] == (if IsSpace(s[0]) then ' ' else s[0])
    decreases |s|
  {
    if s == [] then []
    else if IsSpace(s[0]) then " " + CollapseSpaces(TrimStart(s))
    else [s[0]] + CollapseSpaces(s[1..])
  }

  /** The number of hyphens `s` starts with. */
  function LeadingHyphens(s: string): (n: nat)
    ensures n <= |s| && (n == |s| || s[n] != '-')
    ensures s != [] && s[0] == '-' ==> n > 0
  {
    if |s| > 0 && s[0] == '-' then 1 + LeadingHyphens(s[1..]) else 0
  }

  /** `/-+/g` replaced by `rep`, a hyphen in the health adapter and a space
      in the version adapter. */
  function CollapseHyphens(s: string, rep: char): (r: string)
    ensures |r| <= |s|
    ensures s != [] ==> r != [] && r[0] == (if s[0] == '-' then rep else s[0])
    decreases |s|
  {
    if s == [] then []
    else if s[0] == '-' then [rep] + CollapseHyphens(s[LeadingHyphens(s)..], rep)
    else [s[0]] + CollapseHyphens(s[1..], rep)
  }

  /** `/^-|-$/g` replaced by nothing: one leading and one trailing hyphen. */
  function DropEdgeHyphens(s: string): (r: string)
    ensures |r| <= |s|
  {
    var t := if |s| > 0 && s[0] == '-' then s[1..] else s;
    if |t| > 0 && t[|t| - 1] == '-' then t[..|t| - 1] else t
  }

  /** The health normaliser's steps after the `headless` removal. */
  function TidyHealth(s: string): string {
    Trim(DropEdgeHyphens(CollapseHyphens(CollapseSpaces(s), '-')))
  }

  /** The normaliser of showServiceHealth, applied to both the table's
      `Service0` and each fetched application name: trim, drop a trailing
      `-headless`, remove every `headless`, collapse white-space runs and
      hyphen runs, drop an edge hyphen, trim. */
  function NormalizeHealthName(raw: string): string {
    TidyHealth(RemoveHeadless(StripSuffixIgnoreCase(Trim(raw), "-headless")))
  }

  /** The normaliser of getBuildVersions: no leading trim, hyphen runs
      become spaces, and the result is lower-cased. */
  function NormalizeVersionName(raw: string): string {
    Lower(Trim(DropEdgeHyphens(CollapseHyphens(CollapseSpaces(RemoveHeadless(StripSuffixIgnoreCase(raw, "-headless"))), ' '))))
  }

  /** A character in front of a single-spaced string keeps it single-spaced
      unless both are white space. */
  lemma ConsSingleSpaced(c: char, r: string)
    requires SingleSpaced(r)
    requires r == [] || !(IsSpace(c) && IsSpace(r[0]))
    ensures SingleSpaced([c] + r)
  {
    var s := [c] + r;
    forall i | 0 <= i < |s| - 1
      ensures !(IsSpace(s[i]) && IsSpace(s[i + 1]))
    {
      if i > 0 {
        assert s[i] == r[i - 1] && s[i + 1] == r[i];
      }
    }
  }

  lemma {:induction false} CollapseSpacesForm(s: string)
    ensures SingleSpaced(CollapseSpaces(s))
    ensures '-' in CollapseSpaces(s) ==> '-' in s
    decreases |s|
  {
    if s != [] {
      if IsSpace(s[0]) {
        var t := TrimStart(s);
        CollapseSpacesForm(t);
        ConsSingleSpaced(' ', CollapseSpaces(t));
        assert t == s[|s| - |t|..];
      } else {
        CollapseSpacesForm(s[1..]);
        ConsSingleSpaced(s[0], CollapseSpaces(s[1..]));
      }
    }
  }

  lemma {:induction false} CollapseHyphensForm(s: string, rep: char)
    ensures rep != '-' && '-' !in s ==> '-' !in CollapseHyphens(s, rep)
    ensures rep != '-' ==> '-' !in CollapseHyphens(s, rep)
    ensures rep == '-' ==> SingleHyphens(CollapseHyphens(s, rep))
    ensures rep == '-' && SingleSpaced(s) ==> SingleSpaced(CollapseHyphens(s, rep))
    decreases |s|
  {
    if s != [] {
      if s[0] == '-' {
        var n := LeadingHyphens(s);
        CollapseHyphensForm(s[n..], rep);
        if rep == '-' && SingleSpaced(s) {
          SliceKeepsForm(s, n, |s|, s[n..]);
        }
      } else {
        CollapseHyphensForm(s[1..], rep);
        if rep == '-' && SingleSpaced(s) {
          SliceKeepsForm(s, 1, |s|, s[1..]);
        }
      }
    }
  }

  lemma DropEdgeHyphensSlice(s: string) returns (a: nat, b: nat)
    ensures a <= b <= |s| && DropEdgeHyphens(s) == s[a..b]
  {
    a := if |s| > 0 && s[0] == '-' then 1 else 0;
    var t := s[a..];
    b := if |t| > 0 && t[|t| - 1] == '-' then |s| - 1 else |s|;
  }

  /** A slice keeps the forms of the string it is cut from. */
  lemma SliceKeepsForm(s: string, a: nat, b: nat, t: string)
    requires a <= b <= |s| && t == s[a..b]
    ensures SingleSpaced(s) ==> SingleSpaced(t)
    ensures SingleHyphens(s) ==> SingleHyphens(t)
    ensures '-' !in s ==> '-' !in t
  {
    if SingleSpaced(s) {
      forall i | 0 <= i < |t| - 1 ensures !(IsSpace(t[i]) && IsSpace(t[i + 1])) {
        assert t[i] == s[a + i] && t[i + 1] == s[a + i + 1];
      }
    }
    if SingleHyphens(s) {
      forall i | 0 <= i < |t| - 1 ensures !(t[i] == '-' && t[i + 1] == '-') {
        assert t[i] == s[a + i] && t[i + 1] == s[a + i + 1];
      }
    }
  }

  /** `t` is a contiguous piece of `s`. */
  predicate SliceOf(t: string, s: string) {
    exists a, b | 0 <= a <= b <= |s| :: t == s[a..b]
  }

  /** A piece of a piece of `s` is a piece of `s`. */
  lemma SliceOfSlice(s: string, a: nat, b: nat, x: nat, y: nat)
    requires a <= b <= |s| && x <= y <= b - a
    ensures s[a..b][x..y] == s[a + x..a + y]
    ensures SliceOf(s[a..b][x..y], s)
  {
    var t := s[a..b][x..y];
    assert |t| == y - x;
    forall i | 0 <= i < |t| ensures t[i] == s[a + x + i] {
      assert t[i] == s[a..b][x + i];
    }
    assert t == s[a + x..a + y];
  }

  /** A piece of a string keeps its forms. */
  lemma SliceOfKeepsForm(s: string, t: string)
    requires SliceOf(t, s)
    ensures SingleSpaced(s) ==> SingleSpaced(t)
    ensures SingleHyphens(s) ==> SingleHyphens(t)
    ensures '-' !in s ==> '-' !in t
  {
    var a, b :| 0 <= a <= b <= |s| && t == s[a..b];
    SliceKeepsForm(s, a, b, t);
  }

  /** Dropping edge hyphens and then trimming leaves a piece of the name. */
  lemma EdgesSliceOf(c: string, r: string)
    requires r == Trim(DropEdgeHyphens(c))
    ensures SliceOf(r, c)
  {
    var a, b := DropEdgeHyphensSlice(c);
    var d := DropEdgeHyphens(c);
    TrimSlice(d);
    SliceOfSlice(c, a, b, Lead(d), Lead(d) + |r|);
  }

  /** Dropping edge hyphens and trimming keep a name's form. */
  lemma EdgesKeepForm(c: string, r: string)
    requires r == Trim(DropEdgeHyphens(c))
    ensures SingleSpaced(c) ==> SingleSpaced(r)
    ensures SingleHyphens(c) ==> SingleHyphens(r)
    ensures '-' !in c ==> '-' !in r
    ensures IsTrimmed(r)
  {
    EdgesSliceOf(c, r);
    SliceOfKeepsForm(c, r);
    TrimIsTrimmed(DropEdgeHyphens(c));
  }

  /** What the health normaliser produces: a trimmed name with single
      spaces and single hyphens. */
  lemma NormalizeHealthNameForm(raw: string)
    ensures IsTrimmed(NormalizeHealthName(raw))
    ensures SingleSpaced(NormalizeHealthName(raw))
    ensures SingleHyphens(NormalizeHealthName(raw))
  {
    var h := RemoveHeadless(StripSuffixIgnoreCase(Trim(raw), "-headless"));
    CollapseSpacesForm(h);
    CollapseHyphensForm(CollapseSpaces(h), '-');
    EdgesKeepForm(CollapseHyphens(CollapseSpaces(h), '-'), NormalizeHealthName(raw));
  }

  /** What the version normaliser produces: a trimmed, lower-case name
      without hyphens. */
  lemma NormalizeVersionNameForm(raw: string)
    ensures '-' !in NormalizeVersionName(raw)
    ensures Lower(NormalizeVersionName(raw)) == NormalizeVersionName(raw)
  {
    var h := RemoveHeadless(StripSuffixIgnoreCase(raw, "-headless"));
    var c := CollapseHyphens(CollapseSpaces(h), ' ');
    var t := Trim(DropEdgeHyphens(c));
    assert NormalizeVersionName(raw) == Lower(t);
    CollapseHyphensForm(CollapseSpaces(h), ' ');
    EdgesKeepForm(c, t);
    LowerNoHyphen(t);
    LowerLower(t);
  }

  lemma LowerNoHyphen(s: string)
    requires '-' !in s
    ensures '-' !in Lower(s)
  {
  }

  lemma LowerLower(s: string)
    ensures Lower(Lower(s)) == Lower(s)
  {
  }

  /** A lower-case word: ASCII letters only. */
  predicate Letters(s: string) {
    forall i | 0 <= i < |s| :: 'a' <= s[i] <= 'z'
  }

  lemma {:induction false} CollapseLetters(s: string)
    requires Letters(s)
    ensures CollapseSpaces(s) == s && CollapseHyphens(s, '-') == s
    decreases |s|
  {
    if s != [] {
      CollapseLetters(s[1..]);
      assert s == [s[0]] + s[1..];
    }
  }

  /** A lower-case word passes the steps after the `headless` removal
      untouched. */
  lemma TidyLetters(s: string)
    requires Letters(s)
    ensures TidyHealth(s) == s
  {
    CollapseLetters(s);
    assert DropEdgeHyphens(s) == s;
    assert IsTrimmed(s);
    TrimOfTrimmed(s);
  }

  lemma RemoveHeadlessSkip(s: string, k: nat)
    requires |s| >= 8 && k < 8 && LowerChar(s[k]) != "headless"[k]
    ensures RemoveHeadless(s) == [s[0]] + RemoveHeadless(s[1..])
  {
    assert Lower(s[..8])[k] != "headless"[k];
  }

  lemma RemoveHeadlessMatch(s: string)
    requires |s| >= 8 && s[..8] == "headless"
    ensures RemoveHeadless(s) == RemoveHeadless(s[8..])
  {
    assert Lower(s[..8]) == "headless";
  }

  /** `headless` itself normalises to the empty name. */
  lemma HeadlessVanishes(y: string)
    requires y == "headless"
    ensures NormalizeHealthName(y) == ""
  {
    assert IsTrimmed(y);
    TrimOfTrimmed(y);
    assert StripSuffixIgnoreCase(y, "-headless") == y;
    RemoveHeadlessMatch(y);
    assert RemoveHeadless(y) == "";
  }

  /** Removing the inner `headless` of `hheadlesseadless` closes up a new
      one. */
  lemma RemoveHeadlessNested(x: string)
    requires x == "hheadlesseadless"
    ensures RemoveHeadless(x) == "headless"
  {
    RemoveHeadlessSkip(x, 1);
    RemoveHeadlessMatch(x[1..]);
    assert x[1..][8..] == "eadless";
    assert [x[0]] + "eadless" == "headless";
  }

  /** Trimming and the `-headless` suffix leave `hheadlesseadless` as it
      is. */
  lemma NestedPrefixSteps(x: string)
    requires x == "hheadlesseadless"
    ensures StripSuffixIgnoreCase(Trim(x), "-headless") == x
  {
    assert IsTrimmed(x);
    TrimOfTrimmed(x);
    EndsWithIgnoreCaseLower(x, "-headless");
    assert Lower(x)[7] == LowerChar(x[7]) == 's';
  }

  /** `headless` passes the steps after the `headless` removal untouched. */
  lemma HeadlessTidy(y: string)
    requires y == "headless"
    ensures TidyHealth(y) == y
  {
    assert Letters(y);
    TidyLetters(y);
  }

  /** The health normaliser is not idempotent: removing `headless` once
      can leave a new `headless` behind, which a second pass removes. */
  lemma NormalizeHealthNameNotIdempotent(x: string)
    requires x == "hheadlesseadless"
    ensures NormalizeHealthName(x) == "headless"
    ensures NormalizeHealthName(NormalizeHealthName(x)) == ""
  {
    NestedPrefixSteps(x);
    RemoveHeadlessNested(x);
    HeadlessTidy("headless");
    HeadlessVanishes("headless");
  }

  // ---------------------------------------------------------------------
  // Writing cells and headers

  /** What an adapter hands back: the rows and the headers. */
  datatype Updated = Updated(data: seq<Row>, headers: seq<string>)

  /** `newRow[cols[i]] = vals[i]` for the first `n` columns, in order. */
  function PutColumns(row: Row, cols: seq<string>, vals: seq<string>, n: nat): Row
    requires n <= |cols| == |vals|
  {
    if n == 0 then row else Put(PutColumns(row, cols, vals, n - 1), cols[n - 1], vals[n - 1])
  }

  /** Every column is given one value, however often it is written. */
  predicate Consistent(cols: seq<string>, vals: seq<string>)
    requires |cols| == |vals|
  {
    forall i, j | 0 <= i < |cols| && 0 <= j < |cols| && cols[i] == cols[j] :: vals[i] == vals[j]
  }

  /** Writing the columns leaves every other key as it was. */
  lemma {:induction false} PutColumnsOther(row: Row, cols: seq<string>, vals: seq<string>, n: nat, k: string)
    requires n <= |cols| == |vals| && k !in cols[..n]
    ensures Get(PutColumns(row, cols, vals, n), k) == Get(row, k)
    decreases n
  {
    if n > 0 {
      assert cols[..n] == cols[..n - 1] + [cols[n - 1]];
      PutColumnsOther(row, cols, vals, n - 1, k);
      PutGetOther(PutColumns(row, cols, vals, n - 1), cols[n - 1], vals[n - 1], k);
    }
  }

  /** Writing the columns sets each of them to its value. */
  lemma {:induction false} PutColumnsWritten(row: Row, cols: seq<string>, vals: seq<string>, n: nat, k: string, i: nat)
    requires n <= |cols| == |vals| && Consistent(cols, vals)
    requires i < n && cols[i] == k
    ensures Get(PutColumns(row, cols, vals, n), k) == Some(vals[i])
    decreases n
  {
    var before := PutColumns(row, cols, vals, n - 1);
    if cols[n - 1] == k {
      PutGetSame(before, k, vals[n - 1]);
      assert vals[i] == vals[n - 1];
    } else {
      PutColumnsWritten(row, cols, vals, n - 1, k, i);
      PutGetOther(before, cols[n - 1], vals[n - 1], k);
    }
  }

  /** `cols.forEach(col => { if (!headers.includes(col)) headers.push(col); })`. */
  function AppendAbsent(headers: seq<string>, cols: seq<string>): (r: seq<string>)
    decreases |cols|
  {
    if cols == [] then headers
    else
      var h := AppendAbsent(headers, cols[..|cols| - 1]);
      if cols[|cols| - 1] in h then h else h + [cols[|cols| - 1]]
  }

  /** The headers stay in front and in order; afterwards come the missing
      columns, each once; a header list without duplicates keeps none. */
  lemma {:induction false} AppendAbsentSpec(headers: seq<string>, cols: seq<string>)
    ensures |AppendAbsent(headers, cols)| >= |headers|
    ensures AppendAbsent(headers, cols)[..|headers|] == headers
    ensures forall x :: x in AppendAbsent(headers, cols) <==> x in headers || x in cols
    ensures DataProcessor.NoDuplicates(headers) ==> DataProcessor.NoDuplicates(AppendAbsent(headers, cols))
    decreases |cols|
  {
    if cols != [] {
      var init := cols[..|cols| - 1];
      AppendAbsentSpec(headers, init);
      var h := AppendAbsent(headers, init);
      assert cols == init + [cols[|cols| - 1]];
      if cols[|cols| - 1] !in h {
        assert (h + [cols[|cols| - 1]])[..|headers|] == h[..|headers|];
      }
    }
  }

  /** Columns that are all present already add nothing. */
  lemma {:induction false} AppendAbsentPresent(headers: seq<string>, cols: seq<string>)
    requires forall x | x in cols :: x in headers
    ensures AppendAbsent(headers, cols) == headers
    decreases |cols|
  {
    if cols != [] {
      AppendAbsentPresent(headers, cols[..|cols| - 1]);
    }
  }

  /** Adding the same columns twice is adding them once. */
  lemma AppendAbsentIdempotent(headers: seq<string>, cols: seq<string>)
    ensures AppendAbsent(AppendAbsent(headers, cols), cols) == AppendAbsent(headers, cols)
  {
    AppendAbsentSpec(headers, cols);
    AppendAbsentPresent(AppendAbsent(headers, cols), cols);
  }

  /** The loop that pushes each absent column. */
  method AddAbsentHeaders(mergedHeaders: seq<string>, cols: seq<string>) returns (newHeaders: seq<string>)
    ensures newHeaders == AppendAbsent(mergedHeaders, cols)
  {
    newHeaders := mergedHeaders;
    for k := 0 to |cols|
      invariant newHeaders == AppendAbsent(mergedHeaders, cols[..k])
    {
      assert cols[..k + 1][..k] == cols[..k];
      if cols[k] !in newHeaders {
        newHeaders := newHeaders + [cols[k]];
      }
    }
    assert cols[..|cols|] == cols;
  }

  /** `p + a == p + b` only when `a == b`. */
  lemma PrefixCancel(p: string, a: string, b: string)
    requires p + a == p + b
    ensures a == b
  {
    assert a == (p + a)[|p|..];
    assert b == (p + b)[|p|..];
  }

  /** `a + q == b + q` only when `a == b`. */
  lemma SuffixCancel(a: string, b: string, q: string)
    requires a + q == b + q
    ensures a == b
  {
    assert a == (a + q)[..|a|];
    assert b == (b + q)[..|b|];
  }

  // ---------------------------------------------------------------------
  // showServiceHealth after its requests

  /** One entry of a health answer: its `name` and `status`, the empty
      string when absent. Entries on which the lookup throws (`null`, or a
      truthy `name` that is not a string) have no counterpart here. */
  datatype HealthApp = HealthApp(name: string, status: string)

  /** `${env} Health` for every environment. */
  function HealthColumns(envs: seq<string>): (cols: seq<string>)
    ensures |cols| == |envs|
    ensures forall i | 0 <= i < |envs| :: cols[i] == envs[i] + " Health"
  {
    seq(|envs|, i requires 0 <= i < |envs| => envs[i] + " Health")
  }

  /** `healthDataByEnv[env] || []`: a failed, refused or non-list answer is
      stored as the empty list. */
  function AppsOf(fetched: map<string, seq<HealthApp>>, env: string): seq<HealthApp> {
    if env in fetched then fetched[env] else []
  }

  /** An application answers for a service when their normalised names
      agree ignoring case. */
  predicate SameService(appName: string, service0: string) {
    Lower(NormalizeHealthName(appName)) == Lower(service0)
  }

  /** The position of the first `want` in `keys`, `|keys|` when there is
      none. */
  function FirstIndex(keys: seq<string>, want: string): (i: nat)
    ensures i <= |keys|
    ensures i < |keys| ==> keys[i] == want
    ensures forall j | 0 <= j < i :: keys[j] != want
    decreases |keys|
  {
    if keys == [] then 0
    else if keys[0] == want then 0
    else 1 + FirstIndex(keys[1..], want)
  }

  /** Each application's name as the comparison sees it. */
  function AppKeys(apps: seq<HealthApp>): (keys: seq<string>)
    ensures |keys| == |apps|
  {
    seq(|apps|, i requires 0 <= i < |apps| => Lower(NormalizeHealthName(apps[i].name)))
  }

  /** The health cell of one environment: the status of the first
      application answering for the service (`healthData.find(...)`), when
      it has one. */
  function HealthCell(apps: seq<HealthApp>, service0: string): (cell: string)
    ensures cell != ""
  {
    var i := FirstIndex(AppKeys(apps), Lower(service0));
    if i < |apps| && apps[i].status != "" then apps[i].status else "Not found"
  }

  /** The first position holding `want` is the one FirstIndex finds. */
  lemma FirstIndexAt(keys: seq<string>, want: string, k: nat)
    requires k < |keys| && keys[k] == want
    requires forall j | 0 <= j < k :: keys[j] != want
    ensures FirstIndex(keys, want) == k
  {
  }

  /** The first answering application decides the cell. */
  lemma HealthCellFirstMatch(apps: seq<HealthApp>, service0: string, k: nat)
    requires k < |apps| && SameService(apps[k].name, service0)
    requires forall j | 0 <= j < k :: !SameService(apps[j].name, service0)
    ensures HealthCell(apps, service0) == if apps[k].status != "" then apps[k].status else "Not found"
  {
    var keys := AppKeys(apps);
    forall j | 0 <= j < k ensures keys[j] != Lower(service0) {
      assert !SameService(apps[j].name, service0);
    }
    FirstIndexAt(keys, Lower(service0), k);
  }

  /** With no answering application the cell is `Not found`. */
  lemma HealthCellNoMatch(apps: seq<HealthApp>, service0: string)
    requires forall j | 0 <= j < |apps| :: !SameService(apps[j].name, service0)
    ensures HealthCell(apps, service0) == "Not found"
  {
    var keys := AppKeys(apps);
    forall j | 0 <= j < |apps| ensures keys[j] != Lower(service0) {
      assert !SameService(apps[j].name, service0);
    }
  }

  /** The health column of one environment for a normalised service name:
      empty for an empty name, else the cell found. */
  function HealthValue(service0: string, env: string, fetched: map<string, seq<HealthApp>>): string {
    if service0 == "" then "" else HealthCell(AppsOf(fetched, env), service0)
  }

  /** The value each health column of a row receives. */
  function HealthValues(row: Row, envs: seq<string>, fetched: map<string, seq<HealthApp>>): (vals: seq<string>)
    ensures |vals| == |envs|
  {
    var service0 := NormalizeHealthName(Value(row, "Service0"));
    seq(|envs|, i requires 0 <= i < |envs| => HealthValue(service0, envs[i], fetched))
  }

  /** A row with its health columns written. */
  function HealthRow(row: Row, envs: seq<string>, fetched: map<string, seq<HealthApp>>): Row {
    PutColumns(row, HealthColumns(envs), HealthValues(row, envs, fetched), |envs|)
  }

  function HealthMapper(envs: seq<string>, fetched: map<string, seq<HealthApp>>): Row -> Row {
    row => HealthRow(row, envs, fetched)
  }

  /** showServiceHealth once every environment has answered: nothing
      changes without environments or credentials; otherwise the health
      columns are added where absent and every row is rewritten. */
  function ServiceHealth(mergedData: seq<Row>, mergedHeaders: seq<string>, envText: string,
                         hasCredentials: bool, fetched: map<string, seq<HealthApp>>): Updated
  {
    var environments := NonBlankLines(envText);
    if Trim(envText) == "" || !hasCredentials || environments == [] then Updated(mergedData, mergedHeaders)
    else Updated(MapRows(HealthMapper(environments, fetched), mergedData, |mergedData|),
                 AppendAbsent(mergedHeaders, HealthColumns(environments)))
  }

  /** A health column names one environment. */
  lemma HealthColumnsConsistent(row: Row, envs: seq<string>, fetched: map<string, seq<HealthApp>>)
    ensures Consistent(HealthColumns(envs), HealthValues(row, envs, fetched))
  {
    var cols := HealthColumns(envs);
    forall i, j | 0 <= i < |cols| && 0 <= j < |cols| && cols[i] == cols[j]
      ensures HealthValues(row, envs, fetched)[i] == HealthValues(row, envs, fetched)[j]
    {
      SuffixCancel(envs[i], envs[j], " Health");
    }
  }

  /** What a rewritten row holds: each health column the status found for
      its environment (the empty string when the service name normalises
      to nothing), every other key untouched. */
  lemma HealthRowSpec(row: Row, envs: seq<string>, fetched: map<string, seq<HealthApp>>, k: string)
    ensures (forall i | 0 <= i < |envs| :: k != envs[i] + " Health") ==>
      Get(HealthRow(row, envs, fetched), k) == Get(row, k)
    ensures forall i | 0 <= i < |envs| && k == envs[i] + " Health" ::
      Get(HealthRow(row, envs, fetched), k)
        == Some(HealthValue(NormalizeHealthName(Value(row, "Service0")), envs[i], fetched))
  {
    var cols := HealthColumns(envs);
    var vals := HealthValues(row, envs, fetched);
    HealthColumnsConsistent(row, envs, fetched);
    assert cols[..|envs|] == cols;
    if k !in cols {
      PutColumnsOther(row, cols, vals, |envs|, k);
    }
    forall i | 0 <= i < |envs| && k == envs[i] + " Health"
      ensures Get(HealthRow(row, envs, fetched), k) == Some(HealthValue(NormalizeHealthName(Value(row, "Service0")), envs[i], fetched))
    {
      PutColumnsWritten(row, cols, vals, |envs|, k, i);
    }
  }

  /** showServiceHealth keeps the number and order of rows: unconfigured
      it changes nothing, configured it rewrites every row's health columns
      and adds each health header once, so running it again adds none. */
  lemma ServiceHealthSpec(mergedData: seq<Row>, mergedHeaders: seq<string>, envText: string,
                          hasCredentials: bool, fetched: map<string, seq<HealthApp>>, i: nat)
    requires i < |mergedData|
    ensures |ServiceHealth(mergedData, mergedHeaders, envText, hasCredentials, fetched).data| == |mergedData|
    ensures Trim(envText) == "" || !hasCredentials || NonBlankLines(envText) == [] ==>
      ServiceHealth(mergedData, mergedHeaders, envText, hasCredentials, fetched) == Updated(mergedData, mergedHeaders)
    ensures Trim(envText) != "" && hasCredentials && NonBlankLines(envText) != [] ==>
      var u := ServiceHealth(mergedData, mergedHeaders, envText, hasCredentials, fetched);
      u.data[i] == HealthRow(mergedData[i], NonBlankLines(envText), fetched)
      && u.headers == AppendAbsent(mergedHeaders, HealthColumns(NonBlankLines(envText)))
    ensures var u := ServiceHealth(mergedData, mergedHeaders, envText, hasCredentials, fetched);
      ServiceHealth(u.data, u.headers, envText, hasCredentials, fetched).headers == u.headers
  {
    var envs := NonBlankLines(envText);
    if !(Trim(envText) == "" || !hasCredentials || envs == []) {
      MapRowsAt(HealthMapper(envs, fetched), mergedData, |mergedData|, i);
      AppendAbsentIdempotent(mergedHeaders, HealthColumns(envs));
    }
  }

  /** One row of `mergedData.map(...)`: an empty normalised name empties
      every health column, otherwise each environment's cell is looked up. */
  method HealthRowOf(row: Row, environments: seq<string>, healthColumns: seq<string>,
                     healthDataByEnv: map<string, seq<HealthApp>>) returns (newRow: Row)
    requires healthColumns == HealthColumns(environments)
    ensures newRow == HealthRow(row, environments, healthDataByEnv)
  {
    ghost var vals := HealthValues(row, environments, healthDataByEnv);
    newRow := row;
    var service0 := NormalizeHealthName(Value(row, "Service0"));
    if service0 == "" {
      for c := 0 to |healthColumns|
        invariant newRow == PutColumns(row, healthColumns, vals, c)
      {
        newRow := Put(newRow, healthColumns[c], "");
      }
      return;
    }
    for index := 0 to |environments|
      invariant newRow == PutColumns(row, healthColumns, vals, index)
    {
      var columnName := healthColumns[index];
      var healthData := AppsOf(healthDataByEnv, environments[index]);
      newRow := Put(newRow, columnName, HealthCell(healthData, service0));
    }
  }

  /** showServiceHealth, every environment's answer given. */
  method ShowServiceHealth(mergedData: seq<Row>, mergedHeaders: seq<string>, envText: string,
                           hasCredentials: bool, healthDataByEnv: map<string, seq<HealthApp>>)
    returns (updatedData: seq<Row>, updatedHeaders: seq<string>)
    ensures Updated(updatedData, updatedHeaders)
      == ServiceHealth(mergedData, mergedHeaders, envText, hasCredentials, healthDataByEnv)
  {
    if Trim(envText) == "" || !hasCredentials {
      return mergedData, mergedHeaders;
    }
    var environments := NonBlankLines(envText);
    if environments == [] {
      return mergedData, mergedHeaders;
    }
    var healthColumns := HealthColumns(environments);
    var newHeaders := AddAbsentHeaders(mergedHeaders, healthColumns);
    ghost var f := HealthMapper(environments, healthDataByEnv);
    updatedData := [];
    for i := 0 to |mergedData|
      invariant updatedData == MapRows(f, mergedData, i)
    {
      var newRow := HealthRowOf(mergedData[i], environments, healthColumns, healthDataByEnv);
      updatedData := updatedData + [newRow];
    }
    return updatedData, newHeaders;
  }

  // ---------------------------------------------------------------------
  // fetchProductionBuild after its requests

  /** The JSON of one build: `displayName`, `id` and `number`, each the
      empty string when absent or falsy. */
  datatype BuildInfo = BuildInfo(displayName: string, id: string, number: string)

  /** One entry of a job's `builds`: its `url` (empty when absent) and the
      answer to `<url>api/json`, None when that request failed, was refused
      or threw. */
  datatype Build = Build(url: string, answer: Option<BuildInfo>)

  /** The answer to `<job>/api/json`: refused (the function throws), or
      answered with its `builds` list when that is a list. */
  datatype JobAnswer = JobRefused | JobAnswered(builds: Option<seq<Build>>)

  const MaxBuildsToCheck: nat := 20

  /** `builds.slice(0, MAX_BUILDS_TO_CHECK)`. */
  function BuildsToCheck(builds: seq<Build>): (r: seq<Build>)
    ensures |r| <= MaxBuildsToCheck && |r| <= |builds| && r == builds[..|r|]
    ensures |builds| <= MaxBuildsToCheck ==> r == builds
    ensures |builds| > MaxBuildsToCheck ==> |r| == MaxBuildsToCheck
  {
    if |builds| <= MaxBuildsToCheck then builds else builds[..MaxBuildsToCheck]
  }

  /** A build that is fetched and whose display name mentions production,
      in any case. */
  predicate IsProduction(b: Build) {
    b.url != "" && b.answer.Some? && Contains(Lower(b.answer.value.displayName), "production")
  }

  /** `data.id ? String(data.id) : String(data.number || '')`. */
  function BuildId(info: BuildInfo): string {
    if info.id != "" then info.id else info.number
  }

  /** The id of the first production build of a list, empty when none is. */
  function FirstProduction(builds: seq<Build>): string
    decreases |builds|
  {
    if builds == [] then ""
    else if IsProduction(builds[0]) then BuildId(builds[0].answer.value)
    else FirstProduction(builds[1..])
  }

  /** How many builds the search looks at: up to and including the first
      production build, or all of them. */
  function Examined(builds: seq<Build>): (n: nat)
    ensures n <= |builds|
    decreases |builds|
  {
    if builds == [] then 0
    else if IsProduction(builds[0]) then 1
    else 1 + Examined(builds[1..])
  }

  /** What fetchProductionBuild resolves to: None when it throws. */
  function ProductionBuild(job: JobAnswer): Option<string> {
    match job
    case JobRefused => None
    case JobAnswered(None) => Some("")
    case JobAnswered(Some(builds)) => Some(FirstProduction(BuildsToCheck(builds)))
  }

  /** The progress reports `(1, total)`, ..., `(n, total)`. */
  function Progress(n: nat, total: nat): (ps: seq<(nat, nat)>)
    ensures |ps| == n
    ensures forall k | 0 <= k < n :: ps[k] == (k + 1, total)
  {
    seq(n, k requires 0 <= k < n => (k + 1, total))
  }

  /** The first production build gives the id. */
  lemma {:induction false} FirstProductionAt(builds: seq<Build>, k: nat)
    requires k < |builds| && IsProduction(builds[k])
    requires forall j | 0 <= j < k :: !IsProduction(builds[j])
    ensures FirstProduction(builds) == BuildId(builds[k].answer.value)
    ensures Examined(builds) == k + 1
    decreases k
  {
    if k > 0 {
      assert !IsProduction(builds[0]);
      forall j | 0 <= j < k - 1 ensures !IsProduction(builds[1..][j]) {
        assert builds[1..][j] == builds[j + 1];
      }
      FirstProductionAt(builds[1..], k - 1);
      assert builds[1..][k - 1] == builds[k];
    }
  }

  /** Without a production build the id is empty and every build is
      looked at. */
  lemma {:induction false} FirstProductionNone(builds: seq<Build>)
    requires forall j | 0 <= j < |builds| :: !IsProduction(builds[j])
    ensures FirstProduction(builds) == ""
    ensures Examined(builds) == |builds|
    decreases |builds|
  {
    if builds != [] {
      forall j | 0 <= j < |builds| - 1 ensures !IsProduction(builds[1..][j]) {
        assert builds[1..][j] == builds[j + 1];
      }
      FirstProductionNone(builds[1..]);
    }
  }

  /** Only the first twenty builds count: a production build further down
      the list is not found. */
  lemma ProductionBuildBeyondLimit(builds: seq<Build>)
    requires |builds| > MaxBuildsToCheck
    requires forall j | 0 <= j < MaxBuildsToCheck :: !IsProduction(builds[j])
    ensures ProductionBuild(JobAnswered(Some(builds))) == Some("")
  {
    var r := BuildsToCheck(builds);
    forall j | 0 <= j < |r| ensures !IsProduction(r[j]) {
      assert r[j] == builds[j];
    }
    FirstProductionNone(r);
  }

  /** One step of the search. */
  lemma ExaminedStep(builds: seq<Build>, i: nat)
    requires i < |builds|
    ensures !IsProduction(builds[i]) ==>
      FirstProduction(builds[i..]) == FirstProduction(builds[i + 1..])
      && Examined(builds[i..]) == 1 + Examined(builds[i + 1..])
    ensures IsProduction(builds[i]) ==>
      FirstProduction(builds[i..]) == BuildId(builds[i].answer.value) && Examined(builds[i..]) == 1
  {
    assert builds[i..][1..] == builds[i + 1..];
  }

  /** The search loop of fetchProductionBuild: it reports `(i + 1, total)`
      before looking at build `i`, skips builds without a URL or whose
      request fails, and stops at the first production build. */
  method FetchProductionBuild(job: JobAnswer) returns (id: Option<string>, progress: seq<(nat, nat)>)
    ensures id == ProductionBuild(job)
    ensures job.JobAnswered? && job.builds.Some? ==>
      var buildsToCheck := BuildsToCheck(job.builds.value);
      progress == Progress(Examined(buildsToCheck), |buildsToCheck|)
    ensures !(job.JobAnswered? && job.builds.Some?) ==> progress == []
  {
    if job.JobRefused? {
      return None, [];
    }
    if job.builds.None? {
      return Some(""), [];
    }
    var buildsToCheck := BuildsToCheck(job.builds.value);
    var totalBuilds := |buildsToCheck|;
    progress := [];
    for i := 0 to |buildsToCheck|
      invariant FirstProduction(buildsToCheck) == FirstProduction(buildsToCheck[i..])
      invariant Examined(buildsToCheck) == i + Examined(buildsToCheck[i..])
      invariant progress == Progress(i, totalBuilds)
    {
      var build := buildsToCheck[i];
      progress := progress + [(i + 1, totalBuilds)];
      ExaminedStep(buildsToCheck, i);
      if build.url == "" {
        continue;
      }
      match build.answer {
        case None =>
          continue;
        case Some(buildData) =>
          if Contains(Lower(buildData.displayName), "production") {
            return Some(BuildId(buildData)), progress;
          }
      }
    }
    assert buildsToCheck[|buildsToCheck|..] == [];
    return Some(""), progress;
  }

  // ---------------------------------------------------------------------
  // showLastSuccessfulBuilds after its requests

  /** `row['Service0'] || ''`. */
  function ServiceName(row: Row): string {
    Value(row, "Service0")
  }

  /** A row the adapter works on: it names a service, and that service is
      in the filter set when one is given. */
  predicate Selected(row: Row, filter: Option<set<string>>) {
    ServiceName(row) != "" && (filter.None? || ServiceName(row) in filter.value)
  }

  /** `serviceName.replace(/-headless$/i, '')`. */
  function CleanName(name: string): string {
    StripSuffixIgnoreCase(name, "-headless")
  }

  /** The lower-cased clean name a row contributes to the table's names. */
  function TableKey(row: Row): string {
    Lower(CleanName(ServiceName(row)))
  }

  /** `serviceNamesInTable` after the first `n` rows. */
  function TableNames(data: seq<Row>, filter: Option<set<string>>, n: nat): set<string>
    requires n <= |data|
  {
    if n == 0 then {}
    else TableNames(data, filter, n - 1) + (if Selected(data[n - 1], filter) then {TableKey(data[n - 1])} else {})
  }

  /** The table's names are exactly the keys of the selected rows. */
  lemma {:induction false} TableNamesMembers(data: seq<Row>, filter: Option<set<string>>, n: nat, x: string)
    requires n <= |data|
    ensures x in TableNames(data, filter, n) <==> exists i | 0 <= i < n :: Selected(data[i], filter) && TableKey(data[i]) == x
    decreases n
  {
    if n > 0 {
      TableNamesMembers(data, filter, n - 1, x);
    }
  }

  /** The loop collecting `serviceNamesInTable`. */
  method ServiceNamesInTable(mergedData: seq<Row>, filteredServiceNames: Option<set<string>>)
    returns (serviceNamesInTable: set<string>)
    ensures serviceNamesInTable == TableNames(mergedData, filteredServiceNames, |mergedData|)
  {
    serviceNamesInTable := {};
    for i := 0 to |mergedData|
      invariant serviceNamesInTable == TableNames(mergedData, filteredServiceNames, i)
    {
      var serviceName := ServiceName(mergedData[i]);
      if serviceName != "" && (filteredServiceNames.None? || serviceName in filteredServiceNames.value) {
        serviceNamesInTable := serviceNamesInTable + {Lower(CleanName(serviceName))};
      }
    }
  }

  /** A link mentions a table service when its lower-cased text contains
      one of the names. */
  predicate MentionsService(link: string, names: set<string>) {
    exists n | n in names :: Contains(Lower(link), n)
  }

  /** `allBuildLinks.filter(...)`: the links mentioning a table service. */
  function BuildLinks(links: seq<string>, names: set<string>): (r: seq<string>)
    ensures |r| <= |links|
    decreases |links|
  {
    if links == [] then []
    else (if MentionsService(links[0], names) then [links[0]] else []) + BuildLinks(links[1..], names)
  }

  /** The kept links are those mentioning a table service, in their
      order. */
  lemma {:induction false} BuildLinksMembers(links: seq<string>, names: set<string>, x: string)
    ensures x in BuildLinks(links, names) <==> x in links && MentionsService(x, names)
    ensures TableRenderer.Subsequence(BuildLinks(links, names), links)
    decreases |links|
  {
    if links != [] {
      var rest := BuildLinks(links[1..], names);
      BuildLinksMembers(links[1..], names, x);
      assert links == [links[0]] + links[1..];
      if MentionsService(links[0], names) {
        assert ([links[0]] + rest)[1..] == rest;
      } else {
        assert [] + rest == rest;
        TableRenderer.SubsequenceSkip(rest, links);
      }
    }
  }

  /** A link serves a service for a kind of build when it contains the
      lower-cased clean name and the kind's word. */
  predicate LinkFor(link: string, clean: string, word: string) {
    Contains(Lower(link), Lower(clean)) && Contains(Lower(link), word)
  }

  /** `buildLinks.find(...)`: the first link serving the service. */
  function FindLink(links: seq<string>, clean: string, word: string): (r: Option<string>)
    ensures r.Some? ==> r.value in links && LinkFor(r.value, clean, word)
    ensures r.None? ==> forall k | 0 <= k < |links| :: !LinkFor(links[k], clean, word)
    decreases |links|
  {
    if links == [] then None
    else if LinkFor(links[0], clean, word) then Some(links[0])
    else FindLink(links[1..], clean, word)
  }

  /** The first serving link is the one chosen. */
  lemma {:induction false} FindLinkFirst(links: seq<string>, clean: string, word: string, k: nat)
    requires k < |links| && LinkFor(links[k], clean, word)
    requires forall j | 0 <= j < k :: !LinkFor(links[j], clean, word)
    ensures FindLink(links, clean, word) == Some(links[k])
    decreases k
  {
    if k > 0 {
      assert !LinkFor(links[0], clean, word);
      forall j | 0 <= j < k - 1 ensures !LinkFor(links[1..][j], clean, word) {
        assert links[1..][j] == links[j + 1];
      }
      FindLinkFirst(links[1..], clean, word, k - 1);
      assert links[1..][k - 1] == links[k];
    }
  }

  /** Filtering the links by the table's names first does not change the
      link any table service chooses. */
  lemma {:induction false} FindLinkPrefiltered(links: seq<string>, names: set<string>, clean: string, word: string)
    requires Lower(clean) in names
    ensures FindLink(BuildLinks(links, names), clean, word) == FindLink(links, clean, word)
    decreases |links|
  {
    if links != [] {
      var rest := BuildLinks(links[1..], names);
      FindLinkPrefiltered(links[1..], names, clean, word);
      if LinkFor(links[0], clean, word) {
        assert MentionsService(links[0], names);
        assert BuildLinks(links, names) == [links[0]] + rest;
      } else if MentionsService(links[0], names) {
        assert BuildLinks(links, names) == [links[0]] + rest;
        assert ([links[0]] + rest)[1..] == rest;
      } else {
        assert BuildLinks(links, names) == rest;
      }
    }
  }

  /** The opening tag of a build link, up to its closing `>`. */
  function AnchorOpen(link: string): string {
    "<a href=\"" + link + "\" target=\"_blank\" rel=\"noopener noreferrer\""
  }

  /** The markup a found production build is shown as. */
  function AnchorCell(link: string, id: string): string {
    AnchorOpen(link) + ">" + id + "</a>"
  }

  /** The opening tag opens a link and, for a link without `>`, holds no
      `>`. */
  lemma AnchorOpenForm(link: string)
    requires '>' !in link
    ensures '>' !in AnchorOpen(link) && Contains(AnchorOpen(link), "<a")
  {
    var p := AnchorOpen(link);
    assert OccursAt(p, "<a", 0);
    var pre := "<a href=\"";
    var post := "\" target=\"_blank\" rel=\"noopener noreferrer\"";
    assert p == pre + link + post;
    assert '>' !in pre && '>' !in post;
  }

  /** The answer to a job link; a link with no answer is a refused one. */
  function JobOf(jobs: map<string, JobAnswer>, link: string): JobAnswer {
    if link in jobs then jobs[link] else JobRefused
  }

  /** A build column: `Build not found` without a link or a production
      build, `Error` when the search throws, the markup otherwise. */
  function BuildCell(link: Option<string>, jobs: map<string, JobAnswer>): string {
    match link
    case None => "Build not found"
    case Some(l) =>
      match ProductionBuild(JobOf(jobs, l))
      case None => "Error"
      case Some(id) => if id != "" then AnchorCell(l, id) else "Build not found"
  }

  /** The renderer reads a build number back from the markup. */
  lemma AnchorReadBack(link: string, id: string)
    requires '>' !in link
    requires id != "" && AllDigits(id)
    requires !Contains(Lower(AnchorCell(link, id)), "build not found")
    ensures TableRenderer.ExtractBuildNumber(AnchorCell(link, id)) == id
  {
    var p := AnchorOpen(link);
    assert AnchorCell(link, id) == p + ">" + id + "</a>" + "";
    AnchorOpenForm(link);
    TableRenderer.ExtractBuildNumberAnchor(p, id, "");
  }

  /** A link and its search result whose markup the renderer can read:
      the link has no `>`, a found id is a digit string, and the markup
      does not mention `build not found`. */
  predicate Readable(link: string, result: Option<string>) {
    result.Some? && result.value != "" ==>
      '>' !in link && AllDigits(result.value) && !Contains(Lower(AnchorCell(link, result.value)), "build not found")
  }

  /** The build-number reader of the table renderer finds in a build cell
      exactly the production build id the search returned, and nothing
      when there was no link, no production build or an error. */
  lemma BuildCellReadBack(link: Option<string>, jobs: map<string, JobAnswer>)
    requires link.Some? ==> Readable(link.value, ProductionBuild(JobOf(jobs, link.value)))
    ensures TableRenderer.ExtractBuildNumber(BuildCell(link, jobs))
      == if link.Some? && ProductionBuild(JobOf(jobs, link.value)).Some?
         then ProductionBuild(JobOf(jobs, link.value)).value else ""
  {
    var cell := BuildCell(link, jobs);
    if cell == "Build not found" {
      assert OccursAt(Lower(cell), "build not found", 0);
      assert TableRenderer.NoBuild(cell);
    } else if cell == "Error" {
      assert Lower(cell) == "error";
    } else {
      AnchorReadBack(link.value, ProductionBuild(JobOf(jobs, link.value)).value);
    }
  }

  /** A processed row: its two build columns written. */
  function BuildRow(row: Row, buildLinks: seq<string>, jobs: map<string, JobAnswer>): Row {
    var clean := CleanName(ServiceName(row));
    Put(Put(row, "build_images", BuildCell(FindLink(buildLinks, clean, "images"), jobs)),
        "build_bundle", BuildCell(FindLink(buildLinks, clean, "bundle"), jobs))
  }

  /** A processed row holds the two build cells and every other key as it
      was. */
  lemma BuildRowSpec(row: Row, buildLinks: seq<string>, jobs: map<string, JobAnswer>, k: string)
    ensures k != "build_images" && k != "build_bundle" ==> Get(BuildRow(row, buildLinks, jobs), k) == Get(row, k)
    ensures Get(BuildRow(row, buildLinks, jobs), "build_images")
      == Some(BuildCell(FindLink(buildLinks, CleanName(ServiceName(row)), "images"), jobs))
    ensures Get(BuildRow(row, buildLinks, jobs), "build_bundle")
      == Some(BuildCell(FindLink(buildLinks, CleanName(ServiceName(row)), "bundle"), jobs))
  {
    var clean := CleanName(ServiceName(row));
    var r1 := Put(row, "build_images", BuildCell(FindLink(buildLinks, clean, "images"), jobs));
    PutGet(row, "build_images", BuildCell(FindLink(buildLinks, clean, "images"), jobs));
    PutGet(r1, "build_bundle", BuildCell(FindLink(buildLinks, clean, "bundle"), jobs));
  }

  /** What happens to one row: selected rows are processed, the others
      pass through. */
  function ProcessedRow(row: Row, filter: Option<set<string>>, buildLinks: seq<string>, jobs: map<string, JobAnswer>): Row {
    if Selected(row, filter) then BuildRow(row, buildLinks, jobs) else row
  }

  function BuildsMapper(filter: Option<set<string>>, buildLinks: seq<string>, jobs: map<string, JobAnswer>): Row -> Row {
    row => ProcessedRow(row, filter, buildLinks, jobs)
  }

  /** The number of selected rows among the first `n`. */
  function SelectedCount(data: seq<Row>, filter: Option<set<string>>, n: nat): (c: nat)
    requires n <= |data|
    ensures c <= n
  {
    if n == 0 then 0 else SelectedCount(data, filter, n - 1) + (if Selected(data[n - 1], filter) then 1 else 0)
  }

  /** The run goes ahead: links and credentials are configured and some
      link mentions a table service. */
  predicate BuildsConfigured(mergedData: seq<Row>, linksText: string, hasCredentials: bool, filter: Option<set<string>>) {
    Trim(linksText) != "" && hasCredentials && NonBlankLines(linksText) != []
    && BuildLinks(NonBlankLines(linksText), TableNames(mergedData, filter, |mergedData|)) != []
  }

  /** showLastSuccessfulBuilds once every job has answered: nothing changes
      unless the run goes ahead; then the two build headers are added where
      absent and every selected row is processed. */
  function LastSuccessfulBuilds(mergedData: seq<Row>, mergedHeaders: seq<string>, linksText: string,
                                hasCredentials: bool, filter: Option<set<string>>,
                                jobs: map<string, JobAnswer>): Updated
  {
    if !BuildsConfigured(mergedData, linksText, hasCredentials, filter) then Updated(mergedData, mergedHeaders)
    else
      var buildLinks := BuildLinks(NonBlankLines(linksText), TableNames(mergedData, filter, |mergedData|));
      Updated(MapRows(BuildsMapper(filter, buildLinks, jobs), mergedData, |mergedData|),
              AppendAbsent(mergedHeaders, ["build_images", "build_bundle"]))
  }

  /** The row count is kept and unselected rows pass through unchanged; a
      run that does not go ahead changes nothing; in one that does, a
      selected row gets in each build column the cell of the first link,
      among all configured links, that serves it, and the headers gain the
      two build columns once. */
  lemma LastSuccessfulBuildsSpec(mergedData: seq<Row>, mergedHeaders: seq<string>, linksText: string,
                                 hasCredentials: bool, filter: Option<set<string>>,
                                 jobs: map<string, JobAnswer>, i: nat)
    requires i < |mergedData|
    ensures var u := LastSuccessfulBuilds(mergedData, mergedHeaders, linksText, hasCredentials, filter, jobs);
      |u.data| == |mergedData| && (!Selected(mergedData[i], filter) ==> u.data[i] == mergedData[i])
    ensures !BuildsConfigured(mergedData, linksText, hasCredentials, filter) ==>
      LastSuccessfulBuilds(mergedData, mergedHeaders, linksText, hasCredentials, filter, jobs) == Updated(mergedData, mergedHeaders)
    ensures BuildsConfigured(mergedData, linksText, hasCredentials, filter) ==>
      var u := LastSuccessfulBuilds(mergedData, mergedHeaders, linksText, hasCredentials, filter, jobs);
      u.headers == AppendAbsent(mergedHeaders, ["build_images", "build_bundle"])
      && AppendAbsent(u.headers, ["build_images", "build_bundle"]) == u.headers
    ensures BuildsConfigured(mergedData, linksText, hasCredentials, filter) && Selected(mergedData[i], filter) ==>
      var u := LastSuccessfulBuilds(mergedData, mergedHeaders, linksText, hasCredentials, filter, jobs);
      var clean := CleanName(ServiceName(mergedData[i]));
      Get(u.data[i], "build_images") == Some(BuildCell(FindLink(NonBlankLines(linksText), clean, "images"), jobs))
      && Get(u.data[i], "build_bundle") == Some(BuildCell(FindLink(NonBlankLines(linksText), clean, "bundle"), jobs))
  {
    if BuildsConfigured(mergedData, linksText, hasCredentials, filter) {
      var all := NonBlankLines(linksText);
      var names := TableNames(mergedData, filter, |mergedData|);
      var buildLinks := BuildLinks(all, names);
      MapRowsAt(BuildsMapper(filter, buildLinks, jobs), mergedData, |mergedData|, i);
      AppendAbsentIdempotent(mergedHeaders, ["build_images", "build_bundle"]);
      if Selected(mergedData[i], filter) {
        var row := mergedData[i];
        var clean := CleanName(ServiceName(row));
        TableNamesMembers(mergedData, filter, |mergedData|, Lower(clean));
        FindLinkPrefiltered(all, names, clean, "images");
        FindLinkPrefiltered(all, names, clean, "bundle");
        BuildRowSpec(row, buildLinks, jobs, "build_images");
      }
    }
  }

  /** One build column: the search runs only when a link was found. */
  method BuildCellOf(link: Option<string>, jobs: map<string, JobAnswer>) returns (cell: string)
    ensures cell == BuildCell(link, jobs)
  {
    match link
    case None =>
      cell := "Build not found";
    case Some(l) =>
      var buildInfo, _ := FetchProductionBuild(JobOf(jobs, l));
      match buildInfo
      case None =>
        cell := "Error";
      case Some(id) =>
        cell := if id != "" then AnchorCell(l, id) else "Build not found";
  }

  /** `newRow` of a selected row. */
  method BuildRowOf(row: Row, buildLinks: seq<string>, jobs: map<string, JobAnswer>) returns (newRow: Row)
    ensures newRow == BuildRow(row, buildLinks, jobs)
  {
    newRow := row;
    var serviceNameClean := CleanName(ServiceName(row));
    var imagesLink := FindLink(buildLinks, serviceNameClean, "images");
    var bundleLink := FindLink(buildLinks, serviceNameClean, "bundle");
    var images := BuildCellOf(imagesLink, jobs);
    newRow := Put(newRow, "build_images", images);
    var bundle := BuildCellOf(bundleLink, jobs);
    newRow := Put(newRow, "build_bundle", bundle);
  }

  /** The two header pushes. */
  method AddBuildHeaders(mergedHeaders: seq<string>) returns (newHeaders: seq<string>)
    ensures newHeaders == AppendAbsent(mergedHeaders, ["build_images", "build_bundle"])
  {
    newHeaders := mergedHeaders;
    if "build_images" !in newHeaders {
      newHeaders := newHeaders + ["build_images"];
    }
    assert newHeaders == AppendAbsent(mergedHeaders, ["build_images"]);
    if "build_bundle" !in newHeaders {
      newHeaders := newHeaders + ["build_bundle"];
    }
    assert ["build_images", "build_bundle"][..1] == ["build_images"];
  }

  /** The loop over the rows, counting the processed services. */
  method ProcessRows(mergedData: seq<Row>, filteredServiceNames: Option<set<string>>, buildLinks: seq<string>,
                     jobs: map<string, JobAnswer>) returns (updatedData: seq<Row>, processedServices: nat)
    ensures updatedData == MapRows(BuildsMapper(filteredServiceNames, buildLinks, jobs), mergedData, |mergedData|)
    ensures processedServices == SelectedCount(mergedData, filteredServiceNames, |mergedData|)
  {
    ghost var f := BuildsMapper(filteredServiceNames, buildLinks, jobs);
    processedServices := 0;
    updatedData := [];
    for i := 0 to |mergedData|
      invariant updatedData == MapRows(f, mergedData, i)
      invariant processedServices == SelectedCount(mergedData, filteredServiceNames, i)
    {
      var row := mergedData[i];
      var serviceName := ServiceName(row);
      if serviceName == "" {
        updatedData := updatedData + [row];
        continue;
      }
      if filteredServiceNames.Some? && serviceName !in filteredServiceNames.value {
        updatedData := updatedData + [row];
        continue;
      }
      var newRow := BuildRowOf(row, buildLinks, jobs);
      updatedData := updatedData + [newRow];
      processedServices := processedServices + 1;
    }
  }

  /** showLastSuccessfulBuilds, every job's answers given. Besides the rows
      and headers it returns the progress counter and the number of
      services it announced, which agree at the end. */
  method ShowLastSuccessfulBuilds(mergedData: seq<Row>, mergedHeaders: seq<string>, linksText: string,
                                  hasCredentials: bool, filteredServiceNames: Option<set<string>>,
                                  jobs: map<string, JobAnswer>)
    returns (updatedData: seq<Row>, updatedHeaders: seq<string>, processedServices: nat, servicesToProcess: nat)
    ensures Updated(updatedData, updatedHeaders)
      == LastSuccessfulBuilds(mergedData, mergedHeaders, linksText, hasCredentials, filteredServiceNames, jobs)
    ensures processedServices == servicesToProcess <= |mergedData|
    ensures BuildsConfigured(mergedData, linksText, hasCredentials, filteredServiceNames) ==>
      servicesToProcess == SelectedCount(mergedData, filteredServiceNames, |mergedData|)
  {
    if Trim(linksText) == "" || !hasCredentials {
      return mergedData, mergedHeaders, 0, 0;
    }
    var allBuildLinks := NonBlankLines(linksText);
    if allBuildLinks == [] {
      return mergedData, mergedHeaders, 0, 0;
    }
    var serviceNamesInTable := ServiceNamesInTable(mergedData, filteredServiceNames);
    var buildLinks := BuildLinks(allBuildLinks, serviceNamesInTable);
    if buildLinks == [] {
      return mergedData, mergedHeaders, 0, 0;
    }
    updatedHeaders := AddBuildHeaders(mergedHeaders);
    servicesToProcess := SelectedCount(mergedData, filteredServiceNames, |mergedData|);
    updatedData, processedServices := ProcessRows(mergedData, filteredServiceNames, buildLinks, jobs);
  }

  // ---------------------------------------------------------------------
  // getBuildVersions after its requests

  /** `app.instances[0].registration` of an answered application: absent
      (no instances, or a falsy registration), or present with its
      `metadata` object, which may itself be absent. */
  datatype Registration = Unregistered | Registered(metadata: Option<Row>)

  /** One application of a version answer: its `name` (empty when absent)
      and its registration. */
  datatype VersionApp = VersionApp(name: string, registration: Registration)

  const VersionKey := "app.kubernetes.io/version"
  const BundleKey := "catonetworks.com/config-bundle-version"

  /** Reading the bundle of a named application registered without metadata
      throws, which ends the handling of that environment's answer. */
  predicate Throws(app: VersionApp) {
    app.name != "" && app.registration == Registered(None)
  }

  /** The version an application reports, `Not found` by default. */
  function AppVersion(reg: Registration): (v: string)
    ensures v != ""
    ensures v != "Not found" ==> reg.Registered? && reg.metadata.Some? && v == Value(reg.metadata.value, VersionKey)
  {
    if reg.Registered? && reg.metadata.Some? && Value(reg.metadata.value, VersionKey) != ""
    then Value(reg.metadata.value, VersionKey) else "Not found"
  }

  /** The bundle an application reports, `Not found` by default. A
      registration without metadata is never read here: it throws first
      (see `Throws`). */
  function AppBundle(reg: Registration): (b: string)
    ensures b != ""
    ensures b != "Not found" ==> reg.Registered? && reg.metadata.Some? && b == Value(reg.metadata.value, BundleKey)
  {
    if reg.Registered? && reg.metadata.Some? && Value(reg.metadata.value, BundleKey) != ""
    then Value(reg.metadata.value, BundleKey) else "Not found"
  }

  /** `versionDataMap` or `bundleDataMap`: normalised name, then environment,
      to the stored value. */
  type Table = map<string, map<string, string>>

  /** Both maps. */
  datatype Tables = Tables(versions: Table, bundles: Table)

  /** `map.get(name)[env] = value`, creating the inner object when needed. */
  function Record(t: Table, key: string, env: string, v: string): Table {
    t[key := (if key in t then t[key] else map[])[env := v]]
  }

  /** `map.get(name)?.[env]`. */
  function Lookup(t: Table, key: string, env: string): Option<string> {
    if key in t && env in t[key] then Some(t[key][env]) else None
  }

  /** A record is read back under its own key and environment and changes
      nothing else. */
  lemma RecordLookup(t: Table, key: string, env: string, v: string, k: string, e: string)
    ensures Lookup(Record(t, key, env, v), k, e) == if k == key && e == env then Some(v) else Lookup(t, k, e)
  {
  }

  /** How many applications of an answer are handled before one throws. */
  function Cut(apps: seq<VersionApp>): (n: nat)
    ensures n <= |apps|
    ensures forall i | 0 <= i < n :: !Throws(apps[i])
    ensures n < |apps| ==> Throws(apps[n])
    decreases |apps|
  {
    if apps == [] then 0
    else if Throws(apps[0]) then 0
    else 1 + Cut(apps[1..])
  }

  /** The tables after storing, for `env`, every named application of
      `apps` in order, under its name as `normalize` rewrites it
      (getBuildVersions passes NormalizeVersionName; the lemmas below hold
      for any normaliser). */
  function StoreApps(t: Tables, env: string, apps: seq<VersionApp>, normalize: string -> string): Tables
    decreases |apps|
  {
    if apps == [] then t
    else
      var prev := StoreApps(t, env, apps[..|apps| - 1], normalize);
      var app := apps[|apps| - 1];
      if app.name == "" then prev
      else
        var key := normalize(app.name);
        Tables(Record(prev.versions, key, env, AppVersion(app.registration)),
               Record(prev.bundles, key, env, AppBundle(app.registration)))
  }

  /** Storing one more application. */
  lemma StoreAppsSnoc(t: Tables, env: string, apps: seq<VersionApp>, j: nat, normalize: string -> string)
    requires j < |apps|
    ensures StoreApps(t, env, apps[..j + 1], normalize)
      == if apps[j].name == "" then StoreApps(t, env, apps[..j], normalize)
         else Tables(Record(StoreApps(t, env, apps[..j], normalize).versions, normalize(apps[j].name), env, AppVersion(apps[j].registration)),
                     Record(StoreApps(t, env, apps[..j], normalize).bundles, normalize(apps[j].name), env, AppBundle(apps[j].registration)))
  {
    assert apps[..j + 1][..j] == apps[..j];
  }

  /** One environment's answer handled: the applications before the first
      that throws. */
  function StoreEnv(t: Tables, env: string, apps: seq<VersionApp>, normalize: string -> string): Tables {
    StoreApps(t, env, apps[..Cut(apps)], normalize)
  }

  /** An environment's answer; a failed, refused or non-list answer stores
      nothing, like an empty list. */
  function AnswerOf(answers: map<string, seq<VersionApp>>, env: string): seq<VersionApp> {
    if env in answers then answers[env] else []
  }

  /** The tables after the first `n` environments. */
  function StoreEnvs(envs: seq<string>, answers: map<string, seq<VersionApp>>, n: nat, normalize: string -> string): Tables
    requires n <= |envs|
  {
    if n == 0 then Tables(map[], map[])
    else StoreEnv(StoreEnvs(envs, answers, n - 1, normalize), envs[n - 1], AnswerOf(answers, envs[n - 1]), normalize)
  }

  /** The last named application of `apps` whose name normalises to
      `key`. */
  function LastFor(apps: seq<VersionApp>, key: string, normalize: string -> string): (r: Option<VersionApp>)
    ensures r.Some? ==> r.value in apps && r.value.name != "" && normalize(r.value.name) == key
    decreases |apps|
  {
    if apps == [] then None
    else
      var app := apps[|apps| - 1];
      if app.name != "" && normalize(app.name) == key then Some(app)
      else LastFor(apps[..|apps| - 1], key, normalize)
  }

  /** What an environment's answer reports for a name: the registration of
      the last application handled under that name, if any. */
  function Reported(apps: seq<VersionApp>, key: string, normalize: string -> string): Option<Registration> {
    match LastFor(apps[..Cut(apps)], key, normalize)
    case None => None
    case Some(app) => Some(app.registration)
  }

  /** Storing applications for `env` leaves the other environments alone
      and, under each name, keeps what the last of them reports. */
  lemma {:induction false} StoreAppsLookup(t: Tables, env: string, apps: seq<VersionApp>, normalize: string -> string, key: string, e: string)
    ensures Lookup(StoreApps(t, env, apps, normalize).versions, key, e)
      == if e == env && LastFor(apps, key, normalize).Some? then Some(AppVersion(LastFor(apps, key, normalize).value.registration))
         else Lookup(t.versions, key, e)
    ensures Lookup(StoreApps(t, env, apps, normalize).bundles, key, e)
      == if e == env && LastFor(apps, key, normalize).Some? then Some(AppBundle(LastFor(apps, key, normalize).value.registration))
         else Lookup(t.bundles, key, e)
    decreases |apps|
  {
    if apps != [] {
      var init := apps[..|apps| - 1];
      StoreAppsLookup(t, env, init, normalize, key, e);
      var prev := StoreApps(t, env, init, normalize);
      var app := apps[|apps| - 1];
      if app.name != "" {
        var k := normalize(app.name);
        RecordLookup(prev.versions, k, env, AppVersion(app.registration), key, e);
        RecordLookup(prev.bundles, k, env, AppBundle(app.registration), key, e);
      }
    }
  }

  /** After all environments, a name's entry for an environment is what
      that environment's answer reports for it, whatever the order in which
      the environments are handled; environments not listed have none. */
  lemma {:induction false} StoreEnvsLookup(envs: seq<string>, answers: map<string, seq<VersionApp>>, n: nat, normalize: string -> string, key: string, e: string)
    requires n <= |envs|
    ensures Lookup(StoreEnvs(envs, answers, n, normalize).versions, key, e)
      == if e in envs[..n] && Reported(AnswerOf(answers, e), key, normalize).Some?
         then Some(AppVersion(Reported(AnswerOf(answers, e), key, normalize).value)) else None
    ensures Lookup(StoreEnvs(envs, answers, n, normalize).bundles, key, e)
      == if e in envs[..n] && Reported(AnswerOf(answers, e), key, normalize).Some?
         then Some(AppBundle(Reported(AnswerOf(answers, e), key, normalize).value)) else None
    decreases n
  {
    if n > 0 {
      StoreEnvsLookup(envs, answers, n - 1, normalize, key, e);
      var env := envs[n - 1];
      var apps := AnswerOf(answers, env);
      StoreAppsLookup(StoreEnvs(envs, answers, n - 1, normalize), env, apps[..Cut(apps)], normalize, key, e);
      assert envs[..n] == envs[..n - 1] + [env];
    }
  }

  /** The cell of a `Version`/`Bundle` column: `Not found` without a
      service name or a stored value. */
  function VersionCell(t: Table, serviceName: string, env: string, normalize: string -> string): (cell: string)
    ensures cell != ""
  {
    if serviceName == "" then "Not found"
    else
      match Lookup(t, normalize(serviceName), env)
      case Some(v) => if v != "" then v else "Not found"
      case None => "Not found"
  }

  /** The version cell a service gets for an environment: what the
      environment's answer reports under the service's normalised name, or
      `Not found`. */
  function ReportedVersion(answers: map<string, seq<VersionApp>>, serviceName: string, env: string, normalize: string -> string): string {
    if serviceName == "" then "Not found"
    else match Reported(AnswerOf(answers, env), normalize(serviceName), normalize)
      case None => "Not found"
      case Some(reg) => AppVersion(reg)
  }

  /** The same for the bundle cell. */
  function ReportedBundle(answers: map<string, seq<VersionApp>>, serviceName: string, env: string, normalize: string -> string): string {
    if serviceName == "" then "Not found"
    else match Reported(AnswerOf(answers, env), normalize(serviceName), normalize)
      case None => "Not found"
      case Some(reg) => AppBundle(reg)
  }

  /** The cells read from the filled maps are the reports of the answers,
      for every listed environment. */
  lemma TablesCell(envs: seq<string>, answers: map<string, seq<VersionApp>>, normalize: string -> string, serviceName: string, e: string)
    requires e in envs
    ensures VersionCell(StoreEnvs(envs, answers, |envs|, normalize).versions, serviceName, e, normalize) == ReportedVersion(answers, serviceName, e, normalize)
    ensures VersionCell(StoreEnvs(envs, answers, |envs|, normalize).bundles, serviceName, e, normalize) == ReportedBundle(answers, serviceName, e, normalize)
  {
    if serviceName != "" {
      StoreEnvsLookup(envs, answers, |envs|, normalize, normalize(serviceName), e);
      assert envs[..|envs|] == envs;
    }
  }

  /** The `Version` and `Bundle` cells of a service, per environment. */
  function CellsOf(t: Tables, serviceName: string, normalize: string -> string): string -> (string, string) {
    env => (VersionCell(t.versions, serviceName, env, normalize), VersionCell(t.bundles, serviceName, env, normalize))
  }

  /** The columns getBuildVersions writes into each row, in the order it
      writes them: `Version env` then `Bundle env`, environment after
      environment. */
  function RowColumns(envs: seq<string>): (cols: seq<string>)
    ensures |cols| == 2 * |envs|
  {
    seq(2 * |envs|, j requires 0 <= j < 2 * |envs| =>
      if j % 2 == 0 then "Version " + envs[j / 2] else "Bundle " + envs[j / 2])
  }

  /** The values written, in the same order. */
  function RowValues(envs: seq<string>, cells: string -> (string, string)): (vals: seq<string>)
    ensures |vals| == 2 * |envs|
  {
    seq(2 * |envs|, j requires 0 <= j < 2 * |envs| =>
      if j % 2 == 0 then cells(envs[j / 2]).0 else cells(envs[j / 2]).1)
  }

  /** The two columns of environment `k` and their values. */
  lemma RowEntries(envs: seq<string>, cells: string -> (string, string), k: nat)
    requires k < |envs|
    ensures RowColumns(envs)[2 * k] == "Version " + envs[k]
    ensures RowColumns(envs)[2 * k + 1] == "Bundle " + envs[k]
    ensures RowValues(envs, cells)[2 * k] == cells(envs[k]).0
    ensures RowValues(envs, cells)[2 * k + 1] == cells(envs[k]).1
  {
    assert (2 * k) % 2 == 0 && (2 * k) / 2 == k;
    assert (2 * k + 1) % 2 == 1 && (2 * k + 1) / 2 == k;
  }

  /** A row with the `Version`/`Bundle` columns of every environment
      written. */
  function VersionsRow(row: Row, envs: seq<string>, cells: string -> (string, string)): Row {
    PutColumns(row, RowColumns(envs), RowValues(envs, cells), 2 * |envs|)
  }

  /** The two column names of an environment never coincide. */
  lemma ColumnsDiffer(a: string, b: string)
    ensures "Version " + a != "Bundle " + b
  {
    assert ("Version " + a)[0] == 'V';
    assert ("Bundle " + b)[0] == 'B';
  }

  /** `k` is neither column of `env`. */
  predicate OtherColumn(k: string, env: string) {
    k != "Version " + env && k != "Bundle " + env
  }

  /** A column written twice belongs to the same environment both times, so
      it is given the same value. */
  lemma RowColumnsConsistent(envs: seq<string>, cells: string -> (string, string))
    ensures Consistent(RowColumns(envs), RowValues(envs, cells))
  {
    var cols, vals := RowColumns(envs), RowValues(envs, cells);
    forall i, j | 0 <= i < |cols| && 0 <= j < |cols| && cols[i] == cols[j]
      ensures vals[i] == vals[j]
    {
      if i % 2 == 0 && j % 2 == 0 {
        PrefixCancel("Version ", envs[i / 2], envs[j / 2]);
      } else if i % 2 != 0 && j % 2 != 0 {
        PrefixCancel("Bundle ", envs[i / 2], envs[j / 2]);
      } else if i % 2 == 0 {
        ColumnsDiffer(envs[i / 2], envs[j / 2]);
      } else {
        ColumnsDiffer(envs[j / 2], envs[i / 2]);
      }
    }
  }

  /** A key that is no column of any environment is not written. */
  lemma RowColumnsOther(envs: seq<string>, k: string)
    requires forall j | 0 <= j < |envs| :: OtherColumn(k, envs[j])
    ensures k !in RowColumns(envs)
  {
    var cols := RowColumns(envs);
    forall j | 0 <= j < |cols|
      ensures cols[j] != k
    {
      assert OtherColumn(k, envs[j / 2]);
    }
  }

  /** The columns of one more environment: two more puts. */
  lemma VersionsRowSnoc(row: Row, envs: seq<string>, cells: string -> (string, string), k: nat)
    requires k < |envs|
    ensures PutColumns(row, RowColumns(envs), RowValues(envs, cells), 2 * (k + 1))
      == Put(Put(PutColumns(row, RowColumns(envs), RowValues(envs, cells), 2 * k), "Version " + envs[k], cells(envs[k]).0),
             "Bundle " + envs[k], cells(envs[k]).1)
  {
    var cols, vals := RowColumns(envs), RowValues(envs, cells);
    RowEntries(envs, cells, k);
    var m := 2 * k;
    var p0 := PutColumns(row, cols, vals, m);
    var p1 := PutColumns(row, cols, vals, m + 1);
    assert p1 == Put(p0, cols[m], vals[m]);
    assert PutColumns(row, cols, vals, m + 2) == Put(p1, cols[m + 1], vals[m + 1]);
    assert 2 * (k + 1) == m + 2;
  }

  /** Keys other than the written columns keep their values. */
  lemma VersionsRowOther(row: Row, envs: seq<string>, cells: string -> (string, string), k: string)
    requires forall j | 0 <= j < |envs| :: OtherColumn(k, envs[j])
    ensures Get(VersionsRow(row, envs, cells), k) == Get(row, k)
  {
    var cols, vals := RowColumns(envs), RowValues(envs, cells);
    RowColumnsOther(envs, k);
    RowColumnsConsistent(envs, cells);
    assert cols[..2 * |envs|] == cols;
    PutColumnsOther(row, cols, vals, 2 * |envs|, k);
  }

  /** The `Version` column of a listed environment holds its cell. */
  lemma VersionsRowVersion(row: Row, envs: seq<string>, cells: string -> (string, string), i: nat)
    requires i < |envs|
    ensures Get(VersionsRow(row, envs, cells), "Version " + envs[i]) == Some(cells(envs[i]).0)
  {
    var cols, vals := RowColumns(envs), RowValues(envs, cells);
    RowColumnsConsistent(envs, cells);
    RowEntries(envs, cells, i);
    PutColumnsWritten(row, cols, vals, 2 * |envs|, "Version " + envs[i], 2 * i);
  }

  /** The `Bundle` column of a listed environment holds its cell. */
  lemma VersionsRowBundle(row: Row, envs: seq<string>, cells: string -> (string, string), i: nat)
    requires i < |envs|
    ensures Get(VersionsRow(row, envs, cells), "Bundle " + envs[i]) == Some(cells(envs[i]).1)
  {
    var cols, vals := RowColumns(envs), RowValues(envs, cells);
    RowColumnsConsistent(envs, cells);
    RowEntries(envs, cells, i);
    PutColumnsWritten(row, cols, vals, 2 * |envs|, "Bundle " + envs[i], 2 * i + 1);
  }

  function VersionsMapper(envs: seq<string>, t: Tables): Row -> Row {
    row => VersionsRow(row, envs, CellsOf(t, ServiceName(row), NormalizeVersionName))
  }


  /** `[...headers, ...versionHeaders, ...bundleHeaders]`. */
  function VersionHeaders(headers: seq<string>, envs: seq<string>): (r: seq<string>)
    ensures |r| == |headers| + 2 * |envs|
    ensures r[..|headers|] == headers
    ensures forall i | 0 <= i < |envs| :: r[|headers| + i] == "Version " + envs[i]
    ensures forall i | 0 <= i < |envs| :: r[|headers| + |envs| + i] == "Bundle " + envs[i]
  {
    headers + seq(|envs|, i requires 0 <= i < |envs| => "Version " + envs[i])
            + seq(|envs|, i requires 0 <= i < |envs| => "Bundle " + envs[i])
  }

  /** Whether getBuildVersions goes past its guards. */
  predicate VersionsConfigured(headers: seq<string>, envText: string, hasCredentials: bool) {
    Trim(envText) != "" && hasCredentials && NonBlankLines(envText) != [] && "Service0" in headers
  }

  /** getBuildVersions once every environment has answered: nothing
      changes without environments, credentials or a `Service0` header;
      otherwise the version and bundle headers are appended and every row
      gets its cells. */
  function BuildVersions(data: seq<Row>, headers: seq<string>, envText: string, hasCredentials: bool,
                         answers: map<string, seq<VersionApp>>): Updated
  {
    var envs := NonBlankLines(envText);
    if !VersionsConfigured(headers, envText, hasCredentials) then Updated(data, headers)
    else Updated(MapRows(VersionsMapper(envs, StoreEnvs(envs, answers, |envs|, NormalizeVersionName)), data, |data|),
                 VersionHeaders(headers, envs))
  }

  /** The rows are kept in number, and nothing changes when a guard
      stops the run. */
  lemma BuildVersionsShape(data: seq<Row>, headers: seq<string>, envText: string, hasCredentials: bool,
                           answers: map<string, seq<VersionApp>>)
    ensures |BuildVersions(data, headers, envText, hasCredentials, answers).data| == |data|
    ensures !VersionsConfigured(headers, envText, hasCredentials) ==>
      BuildVersions(data, headers, envText, hasCredentials, answers) == Updated(data, headers)
    ensures VersionsConfigured(headers, envText, hasCredentials) ==>
      BuildVersions(data, headers, envText, hasCredentials, answers).headers == VersionHeaders(headers, NonBlankLines(envText))
  {
  }

  /** Every row of a configured run holds, for every listed environment,
      the version and the bundle that environment's answer reports for the
      row's normalised service name, or `Not found`. */
  lemma BuildVersionsCells(data: seq<Row>, headers: seq<string>, envText: string, hasCredentials: bool,
                           answers: map<string, seq<VersionApp>>, i: nat, e: string)
    requires VersionsConfigured(headers, envText, hasCredentials)
    requires i < |data| && e in NonBlankLines(envText)
    ensures Get(BuildVersions(data, headers, envText, hasCredentials, answers).data[i], "Version " + e)
      == Some(ReportedVersion(answers, ServiceName(data[i]), e, NormalizeVersionName))
    ensures Get(BuildVersions(data, headers, envText, hasCredentials, answers).data[i], "Bundle " + e)
      == Some(ReportedBundle(answers, ServiceName(data[i]), e, NormalizeVersionName))
  {
    var envs := NonBlankLines(envText);
    var t := StoreEnvs(envs, answers, |envs|, NormalizeVersionName);
    var k :| 0 <= k < |envs| && envs[k] == e;
    MapRowsAt(VersionsMapper(envs, t), data, |data|, i);
    VersionsRowVersion(data[i], envs, CellsOf(t, ServiceName(data[i]), NormalizeVersionName), k);
    VersionsRowBundle(data[i], envs, CellsOf(t, ServiceName(data[i]), NormalizeVersionName), k);
    TablesCell(envs, answers, NormalizeVersionName, ServiceName(data[i]), e);
  }

  /** Every other key of every row keeps its value. */
  lemma BuildVersionsOther(data: seq<Row>, headers: seq<string>, envText: string, hasCredentials: bool,
                           answers: map<string, seq<VersionApp>>, i: nat, k: string)
    requires i < |data|
    requires forall j | 0 <= j < |NonBlankLines(envText)| :: OtherColumn(k, NonBlankLines(envText)[j])
    ensures Get(BuildVersions(data, headers, envText, hasCredentials, answers).data[i], k) == Get(data[i], k)
  {
    var envs := NonBlankLines(envText);
    if VersionsConfigured(headers, envText, hasCredentials) {
      var t := StoreEnvs(envs, answers, |envs|, NormalizeVersionName);
      MapRowsAt(VersionsMapper(envs, t), data, |data|, i);
      VersionsRowOther(data[i], envs, CellsOf(t, ServiceName(data[i]), NormalizeVersionName), k);
    }
  }

  /** getBuildVersions appends its headers even when they are present: run
      twice, it lists every version header twice. */
  lemma BuildVersionsNotIdempotent(data: seq<Row>, headers: seq<string>, envText: string, hasCredentials: bool,
                                   answers: map<string, seq<VersionApp>>)
    requires VersionsConfigured(headers, envText, hasCredentials)
    ensures var u := BuildVersions(data, headers, envText, hasCredentials, answers);
      var w := BuildVersions(u.data, u.headers, envText, hasCredentials, answers);
      |w.headers| == |headers| + 4 * |NonBlankLines(envText)|
      && w.headers[|headers|] == w.headers[|u.headers|] == "Version " + NonBlankLines(envText)[0]
  {
    var envs := NonBlankLines(envText);
    var u := BuildVersions(data, headers, envText, hasCredentials, answers);
    BuildVersionsShape(data, headers, envText, hasCredentials, answers);
    assert u.headers[..|headers|] == headers;
    assert "Service0" in u.headers;
    assert VersionsConfigured(u.headers, envText, hasCredentials);
    BuildVersionsShape(u.data, u.headers, envText, hasCredentials, answers);
  }

  /** One environment's answer handled in place: the applications in order,
      until one throws. */
  method FillEnv(tables: Tables, env: string, apps: seq<VersionApp>) returns (filled: Tables)
    ensures filled == StoreEnv(tables, env, apps, NormalizeVersionName)
  {
    filled := tables;
    var j := 0;
    while j < |apps| && !Throws(apps[j])
      invariant j <= Cut(apps)
      invariant filled == StoreApps(tables, env, apps[..j], NormalizeVersionName)
    {
      var app := apps[j];
      StoreAppsSnoc(tables, env, apps, j, NormalizeVersionName);
      if app.name != "" {
        var normalizedName := NormalizeVersionName(app.name);
        var version := AppVersion(app.registration);
        var bundle := AppBundle(app.registration);
        filled := Tables(Record(filled.versions, normalizedName, env, version),
                         Record(filled.bundles, normalizedName, env, bundle));
      }
      j := j + 1;
    }
    assert j == Cut(apps);
  }

  /** The loop of one row of `data.map(...)`: for each environment in turn,
      the `Version` then the `Bundle` column is written with the cells
      `cells` gives for it. */
  method WriteColumns(row: Row, environments: seq<string>, cells: string -> (string, string)) returns (newRow: Row)
    ensures newRow == VersionsRow(row, environments, cells)
  {
    newRow := row;
    for k := 0 to |environments|
      invariant newRow == PutColumns(row, RowColumns(environments), RowValues(environments, cells), 2 * k)
    {
      var env := environments[k];
      VersionsRowSnoc(row, environments, cells, k);
      var (version, bundle) := cells(env);
      newRow := Put(newRow, "Version " + env, version);
      newRow := Put(newRow, "Bundle " + env, bundle);
    }
  }

  /** One row of `data.map(...)`: the cells come from the tables under the
      row's normalised service name. */
  method VersionsRowOf(row: Row, environments: seq<string>, tables: Tables) returns (newRow: Row)
    ensures newRow == VersionsRow(row, environments, CellsOf(tables, ServiceName(row), NormalizeVersionName))
  {
    newRow := WriteColumns(row, environments, CellsOf(tables, ServiceName(row), NormalizeVersionName));
  }

  /** getBuildVersions, every environment's answer given. The answers are
      handled one environment after the other. */
  method GetBuildVersions(data: seq<Row>, headers: seq<string>, envText: string, hasCredentials: bool,
                          answers: map<string, seq<VersionApp>>)
    returns (updatedData: seq<Row>, updatedHeaders: seq<string>)
    ensures Updated(updatedData, updatedHeaders) == BuildVersions(data, headers, envText, hasCredentials, answers)
  {
    if Trim(envText) == "" || !hasCredentials {
      return data, headers;
    }
    var environments := NonBlankLines(envText);
    if environments == [] || "Service0" !in headers {
      return data, headers;
    }
    updatedHeaders := VersionHeaders(headers, environments);
    var tables := Tables(map[], map[]);
    for k := 0 to |environments|
      invariant tables == StoreEnvs(environments, answers, k, NormalizeVersionName)
    {
      tables := FillEnv(tables, environments[k], AnswerOf(answers, environments[k]));
    }
    ghost var f := VersionsMapper(environments, tables);
    updatedData := [];
    for i := 0 to |data|
      invariant updatedData == MapRows(f, data, i)
    {
      var newRow := VersionsRowOf(data[i], environments, tables);
      updatedData := updatedData + [newRow];
    }
  }
}

=== FILE: table_renderer.dfy ===
/**
  The table's state and its drift logic: the build number read from a build
  cell, the three-way classification of version and bundle cells against the
  tag in the summary, the chain of row filters, and the module-level
  variables (data, headers, visible headers, deleted rows, filter flags) as
  the fields of one object.
*/
module TableRenderer {
  import opened Text
  import opened Records
  import opened Utils

  // ---------------------------------------------------------------------
  // extractBuildNumber

  /** The length of the run of digits starting at `i`. */
  function DigitRun(s: string, i: nat): (n: nat)
    requires i <= |s|
    ensures i + n <= |s| && AllDigits(s[i..i + n])
    ensures i + n == |s| || !IsDigit(s[i + n])
    decreases |s| - i
  {
    if i < |s| && IsDigit(s[i]) then
      var n := DigitRun(s, i + 1);
      assert s[i..i + 1 + n] == [s[i]] + s[i + 1..i + 1 + n];
      1 + n
    else 0
  }

  /** `>(\d+)<\/a>` matches with its `>` at `i`: the digits after it are
      followed by `</a>` (the digit run cannot stop early, since `<` is not a
      digit). */
  predicate AnchorNumberAt(s: string, i: nat) {
    i < |s| && s[i] == '>' && DigitRun(s, i + 1) > 0 && StartsWith(s[i + 1 + DigitRun(s, i + 1)..], "</a>")
  }

  /** The digits of the leftmost match at or after `i`, or empty. */
  function FindAnchorNumber(s: string, i: nat): (r: string)
    requires i <= |s|
    ensures r == "" || (AllDigits(r) && r != "")
    decreases |s| - i
  {
    if i == |s| then ""
    else if AnchorNumberAt(s, i) then s[i + 1..i + 1 + DigitRun(s, i + 1)]
    else FindAnchorNumber(s, i + 1)
  }

  /** The markers a build cell holds instead of a build. */
  predicate NoBuild(buildValue: string) {
    buildValue == "" || Lower(buildValue) == "error" || Contains(Lower(buildValue), "build not found")
  }

  /** extractBuildNumber: nothing for an empty cell, `error` or `build not
      found`; for markup, the digits of the first `>digits</a>`; for plain
      text, the trimmed text when it is all digits. The result is always
      empty or a digit string. */
  function ExtractBuildNumber(buildValue: string): (r: string)
    ensures r == "" || (AllDigits(r) && r != "")
    ensures NoBuild(buildValue) ==> r == ""
  {
    if NoBuild(buildValue) then ""
    else if Contains(buildValue, "<a") then FindAnchorNumber(buildValue, 0)
    else
      var trimmed := Trim(buildValue);
      if trimmed != "" && AllDigits(trimmed) then trimmed else ""
  }

  /** A digit string contains no letter, so no word. */
  lemma DigitsContainNoWord(d: string, w: string)
    requires AllDigits(d) && w != "" && !IsDigit(w[0])
    ensures !Contains(d, w)
  {
  }

  /** A plain build number is read back as itself. */
  lemma ExtractBuildNumberPlain(d: string)
    requires d != "" && AllDigits(d)
    ensures ExtractBuildNumber(d) == d
  {
    assert Lower(d) == d;
    assert d[0] != "error"[0];
    DigitsContainNoWord(d, "build not found");
    DigitsContainNoWord(d, "<a");
    assert IsTrimmed(d);
    TrimOfTrimmed(d);
  }

  /** No match starts before the first `>`. */
  lemma {:induction false} FindAnchorNumberSkip(s: string, i: nat, j: nat)
    requires i <= j <= |s|
    requires forall k | i <= k < j :: s[k] != '>'
    ensures FindAnchorNumber(s, i) == FindAnchorNumber(s, j)
    decreases j - i
  {
    if i < j {
      FindAnchorNumberSkip(s, i + 1, j);
    }
  }

  /** The text `>d</a>` after `p` is a match. */
  lemma AnchorNumberAfter(p: string, d: string, q: string)
    requires d != "" && AllDigits(d)
    ensures AnchorNumberAt(p + ">" + d + "</a>" + q, |p|)
    ensures DigitRun(p + ">" + d + "</a>" + q, |p| + 1) == |d|
  {
    var s := p + ">" + d + "</a>" + q;
    var i := |p|;
    assert s[i] == '>';
    assert s[i + 1..i + 1 + |d|] == d;
    assert s[i + 1 + |d|] == '<';
    DigitRunOf(s, i + 1, |d|);
    assert s[i + 1 + |d|..][..4] == "</a>";
  }

  /** A link opened in `p` is opened in any text starting with `p`. */
  lemma ContainsPrefix(p: string, t: string, w: string)
    requires Contains(p, w)
    ensures Contains(p + t, w)
  {
    var k :| 0 <= k <= |p| - |w| && OccursAt(p, w, k);
    assert (p + t)[k..k + |w|] == p[k..k + |w|];
    assert OccursAt(p + t, w, k);
  }

  /** The first match in `p>d</a>q`, where `p` holds no `>`, is `d`. */
  lemma FindAnchorNumberAfter(p: string, d: string, q: string)
    requires '>' !in p
    requires d != "" && AllDigits(d)
    ensures FindAnchorNumber(p + ">" + d + "</a>" + q, 0) == d
  {
    var s := p + ">" + d + "</a>" + q;
    AnchorNumberAfter(p, d, q);
    assert s[..|p|] == p;
    FindAnchorNumberSkip(s, 0, |p|);
    assert s[|p| + 1..|p| + 1 + |d|] == d;
  }

  /** In a cell `p>d</a>q` whose prefix `p` opens a link and holds no `>`,
      the build number is `d`. */
  lemma ExtractBuildNumberAnchor(p: string, d: string, q: string)
    requires '>' !in p && Contains(p, "<a")
    requires d != "" && AllDigits(d)
    requires !Contains(Lower(p + ">" + d + "</a>" + q), "build not found")
    ensures ExtractBuildNumber(p + ">" + d + "</a>" + q) == d
  {
    var s := p + ">" + d + "</a>" + q;
    FindAnchorNumberAfter(p, d, q);
    ContainsPrefix(p, ">" + d + "</a>" + q, "<a");
    assert s == p + (">" + d + "</a>" + q);
    assert |Lower(s)| != |"error"|;
  }

  /** A run of `n` digits followed by a non-digit has length `n`. */
  lemma {:induction false} DigitRunOf(s: string, i: nat, n: nat)
    requires i + n < |s| && AllDigits(s[i..i + n]) && !IsDigit(s[i + n])
    ensures DigitRun(s, i) == n
    decreases n
  {
    if n > 0 {
      assert IsDigit(s[i..i + n][0]);
      assert s[i + 1..i + n] == s[i..i + n][1..];
      DigitRunOf(s, i + 1, n - 1);
    }
  }

  // ---------------------------------------------------------------------
  // The tag a row is checked against

  /** `(row['Summary0'] || row['Summary'] || '')`. */
  function SummaryOf(row: Row): string {
    if Value(row, "Summary0") != "" then Value(row, "Summary0") else Value(row, "Summary")
  }

  /** The third whitespace-separated word of the trimmed summary, or empty
      when it has fewer than three. */
  function ThirdWord(summary: string): (w: string)
    ensures NoSpace(w)
  {
    var words := SplitSpaces(Trim(summary));
    if |words| >= 3 then words[2] else ""
  }

  /** A space followed by a word is one separator. */
  lemma SplitSpacesSpace(rest: string)
    requires rest == "" || !IsSpace(rest[0])
    ensures SplitSpaces(" " + rest) == [[]] + SplitSpaces(rest)
  {
    assert (" " + rest)[1..] == rest;
    assert TrimStart(" " + rest) == rest;
  }

  /** A word followed by one space starts the split of the text. */
  lemma {:induction false} SplitSpacesWord(a: string, rest: string)
    requires a != "" && NoSpace(a)
    requires rest == "" || !IsSpace(rest[0])
    ensures SplitSpaces(a + " " + rest) == [a] + SplitSpaces(rest)
    decreases |a|
  {
    var s := a + " " + rest;
    assert s[0] == a[0] && !IsSpace(s[0]);
    var tail := SplitSpaces(s[1..]);
    assert SplitSpaces(s) == [[a[0]] + tail[0]] + tail[1..];
    if |a| == 1 {
      assert s[1..] == " " + rest;
      SplitSpacesSpace(rest);
      assert [a[0]] + [] == a;
    } else {
      assert s[1..] == a[1..] + " " + rest;
      SplitSpacesWord(a[1..], rest);
      assert [a[0]] + a[1..] == a;
    }
  }

  /** A single word splits to itself. */
  lemma {:induction false} SplitSpacesSingle(a: string)
    requires NoSpace(a)
    ensures SplitSpaces(a) == [a]
    decreases |a|
  {
    if a != "" {
      SplitSpacesSingle(a[1..]);
      assert [a[0]] + a[1..] == a;
    }
  }

  /** Three words separated by single spaces split into those words. */
  lemma SplitSpacesThree(a: string, b: string, c: string)
    requires a != "" && b != "" && c != ""
    requires NoSpace(a) && NoSpace(b) && NoSpace(c)
    ensures SplitSpaces(a + " " + (b + " " + c)) == [a, b, c]
  {
    SplitSpacesSingle(c);
    SplitSpacesWord(b, c);
    SplitSpacesWord(a, b + " " + c);
  }

  /** The tag of `a b c` is `c`. */
  lemma ThirdWordOf(a: string, b: string, c: string)
    requires a != "" && b != "" && c != ""
    requires NoSpace(a) && NoSpace(b) && NoSpace(c)
    ensures ThirdWord(a + " " + b + " " + c) == c
  {
    var s := a + " " + (b + " " + c);
    assert a + " " + b + " " + c == s;
    assert s[0] == a[0] && s[|s| - 1] == c[|c| - 1];
    TrimOfTrimmed(s);
    SplitSpacesThree(a, b, c);
  }

  // ---------------------------------------------------------------------
  // Drift classification of version and bundle cells (displayTable)

  /** How a checked cell is shown: not checked, in agreement with the tag,
      agreeing except for its build (only the last `_` segment is flagged),
      or flagged as a whole. */
  datatype Drift = Unchecked | Matches | BuildDiffers(versionPart: string, buildPart: string) | Differs

  /** The cells that are never compared. */
  predicate Sentinel(cell: string) {
    cell == "" || cell == "Not found" || cell == "Error"
  }

  /** The value a cell is compared with: `tag_build` when a build number is
      known, else the tag. */
  function Expected(tag: string, build: string): string {
    if build != "" then tag + "_" + build else tag
  }

  /** The classification of one cell; `checked` says the column is visible
      and of the kind checked (version, or bundle), `buildCell` is the row's
      `build_images` (resp. `build_bundle`) cell. */
  function Classify(checked: bool, cell: string, summary: string, buildCell: string): Drift {
    var tag := ThirdWord(summary);
    var build := ExtractBuildNumber(Trim(buildCell));
    Decide(checked && !Sentinel(cell) && tag != "", AreVersionsEqual(cell, Expected(tag, build)),
           build != "" && AreVersionsEqual(cell, tag), Split(cell, '_'))
  }

  /** The outcome of the classification once its tests are known: whether
      the cell is checked at all, whether it equals the expected value,
      whether it equals the tag alone although a build is known, and its
      `_` segments. */
  function Decide(checkedOk: bool, healthy: bool, buildOnly: bool, parts: seq<string>): (d: Drift)
    ensures d.BuildDiffers? ==> checkedOk && !healthy && buildOnly && |parts| > 1
    ensures d.BuildDiffers? ==> d == BuildDiffers(Join(parts[..|parts| - 1], '_'), parts[|parts| - 1])
  {
    if !checkedOk then Unchecked
    else if healthy then Matches
    else if buildOnly && |parts| > 1 then BuildDiffers(Join(parts[..|parts| - 1], '_'), parts[|parts| - 1])
    else Differs
  }

  /** A cell is flagged, in part or as a whole. */
  predicate Flagged(d: Drift) {
    d.BuildDiffers? || d.Differs?
  }

  /** A version cell of a row as displayed. */
  function VersionCell(row: Row, header: string, visible: seq<string>, files: seq<string>): Drift {
    Classify(header in visible && VersionColumn(header, files), Value(row, header), SummaryOf(row), Value(row, "build_images"))
  }

  /** A bundle cell of a row as displayed. */
  function BundleCell(row: Row, header: string, visible: seq<string>): Drift {
    Classify(header in visible && IsBundleColumn(header), Value(row, header), SummaryOf(row), Value(row, "build_bundle"))
  }

  /** A cell is checked exactly when its column is checked, it holds a value
      other than `Not found`/`Error` and the summary has a third word; a
      checked cell matches exactly when it equals the expected value. */
  lemma ClassifyChecked(checked: bool, cell: string, summary: string, buildCell: string)
    ensures Classify(checked, cell, summary, buildCell) != Unchecked
      <==> checked && !Sentinel(cell) && ThirdWord(summary) != ""
    ensures Classify(checked, cell, summary, buildCell) == Matches
      <==> checked && !Sentinel(cell) && ThirdWord(summary) != ""
           && AreVersionsEqual(cell, Expected(ThirdWord(summary), ExtractBuildNumber(Trim(buildCell))))
  {
  }

  /** The last `_` segment of a cell and everything before it join back to
      the cell. */
  lemma LastSegment(cell: string)
    requires |Split(cell, '_')| > 1
    ensures Join(Split(cell, '_')[..|Split(cell, '_')| - 1], '_') + "_" + Split(cell, '_')[|Split(cell, '_')| - 1] == cell
    ensures '_' !in Split(cell, '_')[|Split(cell, '_')| - 1]
  {
    var parts := Split(cell, '_');
    var k := |parts| - 1;
    JoinSplit(cell, '_');
    JoinAt(parts, k, '_');
    assert parts[k..] == [parts[k]];
  }

  /** Only the build is flagged exactly when the cell is checked, a build
      is known, the cell agrees with the tag but not with `tag_build`, and
      the cell has a `_` to split at; without one the whole cell is
      flagged. */
  lemma ClassifyBuildDiffers(checked: bool, cell: string, summary: string, buildCell: string)
    ensures Classify(checked, cell, summary, buildCell).BuildDiffers?
      <==> checked && !Sentinel(cell) && ThirdWord(summary) != ""
           && ExtractBuildNumber(Trim(buildCell)) != ""
           && AreVersionsEqual(cell, ThirdWord(summary))
           && !AreVersionsEqual(cell, ThirdWord(summary) + "_" + ExtractBuildNumber(Trim(buildCell)))
           && |Split(cell, '_')| > 1
  {
  }

  /** A decision that only the build differs splits the cell at its last
      `_`. */
  lemma DecideParts(checkedOk: bool, healthy: bool, buildOnly: bool, cell: string)
    requires Decide(checkedOk, healthy, buildOnly, Split(cell, '_')).BuildDiffers?
    ensures Decide(checkedOk, healthy, buildOnly, Split(cell, '_')).versionPart + "_"
      + Decide(checkedOk, healthy, buildOnly, Split(cell, '_')).buildPart == cell
    ensures '_' !in Decide(checkedOk, healthy, buildOnly, Split(cell, '_')).buildPart
  {
    LastSegment(cell);
  }

  /** The part flagged when only the build differs is the cell's last `_`
      segment, and the rest is the cell before it. */
  lemma ClassifyBuildDiffersParts(checked: bool, cell: string, summary: string, buildCell: string)
    requires Classify(checked, cell, summary, buildCell).BuildDiffers?
    ensures Classify(checked, cell, summary, buildCell).versionPart + "_" + Classify(checked, cell, summary, buildCell).buildPart == cell
    ensures '_' !in Classify(checked, cell, summary, buildCell).buildPart
  {
    var tag := ThirdWord(summary);
    var build := ExtractBuildNumber(Trim(buildCell));
    DecideParts(checked && !Sentinel(cell) && tag != "", AreVersionsEqual(cell, Expected(tag, build)),
                build != "" && AreVersionsEqual(cell, tag), cell);
  }

  // ---------------------------------------------------------------------
  // Row filters (getFilteredData)

  /** `xs` is `ys` with some elements removed, the rest in their order. */
  predicate Subsequence<T(==)>(xs: seq<T>, ys: seq<T>)
    decreases |ys|
  {
    if xs == [] then true
    else if ys == [] then false
    else if xs[0] == ys[0] then Subsequence(xs[1..], ys[1..])
    else Subsequence(xs, ys[1..])
  }

  lemma {:induction false} SubsequenceSkip<T>(xs: seq<T>, ys: seq<T>)
    requires ys != [] && Subsequence(xs, ys[1..])
    ensures Subsequence(xs, ys)
    decreases |ys|, 0
  {
    if xs != [] && xs[0] == ys[0] {
      SubsequenceTail(xs, ys[1..]);
    }
  }

  lemma {:induction false} SubsequenceTail<T>(xs: seq<T>, ys: seq<T>)
    requires xs != [] && Subsequence(xs, ys)
    ensures Subsequence(xs[1..], ys)
    decreases |ys|, 1
  {
    if xs[0] == ys[0] {
      SubsequenceSkip(xs[1..], ys);
    } else {
      SubsequenceTail(xs, ys[1..]);
      SubsequenceSkip(xs[1..], ys);
    }
  }

  lemma {:induction false} SubsequenceTrans<T>(xs: seq<T>, ys: seq<T>, zs: seq<T>)
    requires Subsequence(xs, ys) && Subsequence(ys, zs)
    ensures Subsequence(xs, zs)
    decreases |zs|
  {
    if xs != [] {
      if ys[0] == zs[0] {
        if xs[0] == ys[0] {
          SubsequenceTrans(xs[1..], ys[1..], zs[1..]);
        } else {
          SubsequenceTrans(xs, ys[1..], zs[1..]);
        }
      } else {
        SubsequenceTrans(xs, ys, zs[1..]);
        SubsequenceSkip(xs, zs);
      }
    }
  }

  lemma {:induction false} SubsequenceRefl<T>(xs: seq<T>)
    ensures Subsequence(xs, xs)
    decreases |xs|
  {
    if xs != [] {
      SubsequenceRefl(xs[1..]);
    }
  }

  /** The filters getFilteredData applies: the four check boxes, then one
      per custom column filter. */
  datatype RowTest = Unhealthy | UnequalVersions | UnequalBundles | Chngs | Custom(column: string, value: string)

  /** `Status0` is present, non-empty and does not contain FULL_SERVICE. */
  predicate StatusNotFullService(row: Row) {
    Value(row, "Status0") != "" && !Contains(Upper(Value(row, "Status0")), "FULL_SERVICE")
  }

  /** A visible health column holding a status other than FULL_SERVICE. */
  predicate UnhealthyCell(row: Row, key: string, visible: seq<string>) {
    key in visible && EndsWith(Upper(key), " HEALTH")
    && Trim(Upper(Value(row, key))) != "" && Trim(Upper(Value(row, key))) != "FULL_SERVICE"
  }

  /** A visible, checked version cell that differs from the tag itself; the
      unhealthy filter ignores build numbers. */
  predicate TagMismatch(row: Row, key: string, visible: seq<string>, files: seq<string>) {
    key in visible && VersionColumn(key, files) && !Sentinel(Value(row, key))
    && !AreVersionsEqual(Value(row, key), ThirdWord(SummaryOf(row)))
  }

  /** A checked cell that differs from the expected value, the build number
      being read from the row's `buildKey` cell. */
  predicate Drifts(row: Row, key: string, checked: bool, buildKey: string) {
    checked && !Sentinel(Value(row, key))
    && !AreVersionsEqual(Value(row, key), Expected(ThirdWord(SummaryOf(row)), ExtractBuildNumber(Trim(Value(row, buildKey)))))
  }

  /** The unhealthy filter: a status other than FULL_SERVICE, an unhealthy
      visible health column, or a version cell differing from the tag. */
  predicate UnhealthyRow(row: Row, visible: seq<string>, files: seq<string>) {
    StatusNotFullService(row)
    || (exists i | 0 <= i < |row| :: UnhealthyCell(row, row[i].key, visible))
    || (ThirdWord(SummaryOf(row)) != "" && exists i | 0 <= i < |row| :: TagMismatch(row, row[i].key, visible, files))
  }

  /** The unequal-versions filter. */
  predicate UnequalVersionsRow(row: Row, visible: seq<string>, files: seq<string>) {
    ThirdWord(SummaryOf(row)) != ""
    && exists i | 0 <= i < |row| ::
         Drifts(row, row[i].key, row[i].key in visible && VersionColumn(row[i].key, files), "build_images")
  }

  /** The unequal-bundles filter. */
  predicate UnequalBundlesRow(row: Row, visible: seq<string>) {
    ThirdWord(SummaryOf(row)) != ""
    && exists i | 0 <= i < |row| ::
         Drifts(row, row[i].key, row[i].key in visible && IsBundleColumn(row[i].key), "build_bundle")
  }

  /** A custom filter; one whose lower-cased value is empty keeps every row
      (the source skips it). */
  predicate CustomMatch(row: Row, column: string, value: string) {
    Lower(value) == "" || Contains(Lower(Value(row, column)), Lower(value))
  }

  /** Whether a filter keeps a row. */
  predicate Keeps(t: RowTest, row: Row, visible: seq<string>, files: seq<string>) {
    match t
    case Unhealthy => UnhealthyRow(row, visible, files)
    case UnequalVersions => UnequalVersionsRow(row, visible, files)
    case UnequalBundles => UnequalBundlesRow(row, visible)
    case Chngs => Trim(Value(row, "Summary")) != ""
    case Custom(column, value) => CustomMatch(row, column, value)
  }

  /** `rows.filter(keep)`. */
  function Filter(rows: seq<Row>, keep: Row -> bool): (r: seq<Row>)
    ensures |r| <= |rows|
    decreases |rows|
  {
    if rows == [] then []
    else (if keep(rows[0]) then [rows[0]] else []) + Filter(rows[1..], keep)
  }

  /** The callback of one filter. */
  function KeepsFn(t: RowTest, visible: seq<string>, files: seq<string>): Row -> bool {
    row => Keeps(t, row, visible, files)
  }

  /** `rows.filter(...)` with one filter. */
  function FilterBy(rows: seq<Row>, t: RowTest, visible: seq<string>, files: seq<string>): (r: seq<Row>)
    ensures |r| <= |rows|
  {
    Filter(rows, KeepsFn(t, visible, files))
  }

  /** The filters applied one after the other, in order. */
  function Chain(rows: seq<Row>, tests: seq<RowTest>, visible: seq<string>, files: seq<string>): (r: seq<Row>)
    ensures |r| <= |rows|
    decreases |tests|
  {
    if tests == [] then rows
    else FilterBy(Chain(rows, tests[..|tests| - 1], visible, files), tests[|tests| - 1], visible, files)
  }

  /** `filter` keeps exactly the rows its callback accepts, in their
      order. */
  lemma {:induction false} FilterMembers(rows: seq<Row>, keep: Row -> bool, x: Row)
    ensures x in Filter(rows, keep) <==> x in rows && keep(x)
    ensures Subsequence(Filter(rows, keep), rows)
    decreases |rows|
  {
    if rows != [] {
      var rest := Filter(rows[1..], keep);
      FilterMembers(rows[1..], keep, x);
      assert rows == [rows[0]] + rows[1..];
      if keep(rows[0]) {
        assert ([rows[0]] + rest)[1..] == rest;
      } else {
        assert [] + rest == rest;
        SubsequenceSkip(rest, rows);
      }
    }
  }

  /** A filter keeps exactly the rows it accepts, in their order. */
  lemma FilterByMembers(rows: seq<Row>, t: RowTest, visible: seq<string>, files: seq<string>, x: Row)
    ensures x in FilterBy(rows, t, visible, files) <==> x in rows && Keeps(t, x, visible, files)
    ensures Subsequence(FilterBy(rows, t, visible, files), rows)
  {
    FilterMembers(rows, KeepsFn(t, visible, files), x);
  }

  /** `filter` with a callback accepting every row changes nothing. */
  lemma {:induction false} FilterKeepsAll(rows: seq<Row>, keep: Row -> bool)
    requires forall k | 0 <= k < |rows| :: keep(rows[k])
    ensures Filter(rows, keep) == rows
    decreases |rows|
  {
    if rows != [] {
      assert keep(rows[0]);
      FilterKeepsAll(rows[1..], keep);
    }
  }

  /** A filter that accepts every row changes nothing. */
  lemma FilterByKeepsAll(rows: seq<Row>, t: RowTest, visible: seq<string>, files: seq<string>)
    requires forall k | 0 <= k < |rows| :: Keeps(t, rows[k], visible, files)
    ensures FilterBy(rows, t, visible, files) == rows
  {
    var keep := KeepsFn(t, visible, files);
    forall k | 0 <= k < |rows|
      ensures keep(rows[k])
    {
    }
    FilterKeepsAll(rows, keep);
  }

  /** Every filter of the list accepts the row. */
  predicate PassesAll(tests: seq<RowTest>, x: Row, visible: seq<string>, files: seq<string>)
    decreases |tests|
  {
    tests == [] || (PassesAll(tests[..|tests| - 1], x, visible, files) && Keeps(tests[|tests| - 1], x, visible, files))
  }

  /** The chain keeps a subsequence of the rows in their order. */
  lemma {:induction false} ChainSubsequence(rows: seq<Row>, tests: seq<RowTest>, visible: seq<string>, files: seq<string>)
    ensures Subsequence(Chain(rows, tests, visible, files), rows)
    decreases |tests|
  {
    if tests == [] {
      SubsequenceRefl(rows);
    } else {
      var n := |tests| - 1;
      var before := Chain(rows, tests[..n], visible, files);
      ChainSubsequence(rows, tests[..n], visible, files);
      FilterByMembers(before, tests[n], visible, files, []);
      SubsequenceTrans(FilterBy(before, tests[n], visible, files), before, rows);
    }
  }

  /** The chain keeps exactly the rows every filter accepts. */
  lemma {:induction false} ChainMembers(rows: seq<Row>, tests: seq<RowTest>, visible: seq<string>, files: seq<string>, x: Row)
    ensures x in Chain(rows, tests, visible, files) <==> x in rows && PassesAll(tests, x, visible, files)
    decreases |tests|
  {
    if tests != [] {
      var n := |tests| - 1;
      ChainMembers(rows, tests[..n], visible, files, x);
      FilterByMembers(Chain(rows, tests[..n], visible, files), tests[n], visible, files, x);
    }
  }

  /** What getFilteredData returns, as one statement: a subsequence of the
      rows in their order, holding exactly the rows that every active filter
      accepts. */
  lemma FilteredRows(rows: seq<Row>, tests: seq<RowTest>, visible: seq<string>, files: seq<string>)
    ensures Subsequence(Chain(rows, tests, visible, files), rows)
    ensures forall x :: x in Chain(rows, tests, visible, files) <==> x in rows && PassesAll(tests, x, visible, files)
  {
    ChainSubsequence(rows, tests, visible, files);
    forall x {
      ChainMembers(rows, tests, visible, files, x);
    }
  }

  /** A flagged cell is one that is checked and differs from the expected
      value: what displayTable paints red is what the unequal filters look
      for. */
  lemma FlaggedIffDrifts(row: Row, key: string, checked: bool, buildKey: string)
    ensures Flagged(Classify(checked, Value(row, key), SummaryOf(row), Value(row, buildKey)))
      <==> ThirdWord(SummaryOf(row)) != "" && Drifts(row, key, checked, buildKey)
  {
  }

  /** The unequal-versions filter keeps a row exactly when displayTable
      flags one of its version cells, in part or as a whole. */
  lemma UnequalVersionsFlagged(row: Row, visible: seq<string>, files: seq<string>)
    ensures UnequalVersionsRow(row, visible, files)
      <==> exists i | 0 <= i < |row| :: Flagged(VersionCell(row, row[i].key, visible, files))
  {
    forall i | 0 <= i < |row|
      ensures Flagged(VersionCell(row, row[i].key, visible, files))
        <==> ThirdWord(SummaryOf(row)) != ""
             && Drifts(row, row[i].key, row[i].key in visible && VersionColumn(row[i].key, files), "build_images")
    {
      FlaggedIffDrifts(row, row[i].key, row[i].key in visible && VersionColumn(row[i].key, files), "build_images");
    }
  }

  /** The same for bundles. */
  lemma UnequalBundlesFlagged(row: Row, visible: seq<string>)
    ensures UnequalBundlesRow(row, visible)
      <==> exists i | 0 <= i < |row| :: Flagged(BundleCell(row, row[i].key, visible))
  {
    forall i | 0 <= i < |row|
      ensures Flagged(BundleCell(row, row[i].key, visible))
        <==> ThirdWord(SummaryOf(row)) != ""
             && Drifts(row, row[i].key, row[i].key in visible && IsBundleColumn(row[i].key), "build_bundle")
    {
      FlaggedIffDrifts(row, row[i].key, row[i].key in visible && IsBundleColumn(row[i].key), "build_bundle");
    }
  }

  /** A cell whose only difference is its build is not a version mismatch
      for the unhealthy filter, which compares with the tag alone. */
  lemma BuildOnlyIsNotTagMismatch(row: Row, key: string, visible: seq<string>, files: seq<string>)
    requires VersionCell(row, key, visible, files).BuildDiffers?
    ensures !TagMismatch(row, key, visible, files)
  {
  }

  // ---------------------------------------------------------------------
  // Header visibility (initializeTableData, toggleColumnVisibility, ...)

  /** `/\s+Health$/i`: at least one white-space character, then `health` in
      any case, at the end. */
  predicate HealthSuffix(h: string) {
    |h| >= 7 && IsSpace(h[|h| - 7]) && Lower(h[|h| - 6..]) == "health"
  }

  /** The new headers a re-initialisation shows by default. */
  predicate AutoShown(h: string) {
    EnvColumn(h, "version") || IsBundleColumn(h) || HealthSuffix(h) || h == "build_bundle" || h == "build_images"
  }

  /** `xs.filter(h => headers.includes(h))`. */
  function StillPresent(xs: seq<string>, headers: seq<string>): (r: seq<string>)
    decreases |xs|
  {
    if xs == [] then [] else (if xs[0] in headers then [xs[0]] else []) + StillPresent(xs[1..], headers)
  }

  /** The new headers shown by default: not among the previous headers and
      auto-shown. */
  function NewAutoShown(headers: seq<string>, previous: seq<string>): (r: seq<string>)
    decreases |headers|
  {
    if headers == [] then []
    else (if headers[0] !in previous && AutoShown(headers[0]) then [headers[0]] else []) + NewAutoShown(headers[1..], previous)
  }

  /** The visible headers after initializeTableData: on the first call every
      header; afterwards the previously visible headers still present, in
      their order, then the new auto-shown headers. */
  function NextVisible(previousVisible: seq<string>, previousAll: seq<string>, headers: seq<string>): seq<string> {
    if |previousVisible| > 0 then StillPresent(previousVisible, headers) + NewAutoShown(headers, previousAll)
    else headers
  }

  lemma {:induction false} StillPresentMembers(xs: seq<string>, headers: seq<string>)
    ensures forall h :: h in StillPresent(xs, headers) <==> h in xs && h in headers
    ensures Subsequence(StillPresent(xs, headers), xs)
    decreases |xs|
  {
    if xs != [] {
      var rest := StillPresent(xs[1..], headers);
      StillPresentMembers(xs[1..], headers);
      assert xs == [xs[0]] + xs[1..];
      if xs[0] in headers {
        assert ([xs[0]] + rest)[1..] == rest;
      } else {
        assert [] + rest == rest;
        SubsequenceSkip(rest, xs);
      }
    }
  }

  lemma {:induction false} NewAutoShownMembers(headers: seq<string>, previous: seq<string>)
    ensures forall h :: h in NewAutoShown(headers, previous) <==> h in headers && h !in previous && AutoShown(h)
    decreases |headers|
  {
    if headers != [] {
      NewAutoShownMembers(headers[1..], previous);
      assert headers == [headers[0]] + headers[1..];
    }
  }

  /** Which headers are visible after initializeTableData: a header is
      visible exactly when it is one of the new headers and either this is
      the first initialisation, it was visible before, or it is new and
      auto-shown. So the visible headers are always among the headers, a
      header that was hidden stays hidden, and the kept headers keep their
      order. */
  lemma NextVisibleMembers(previousVisible: seq<string>, previousAll: seq<string>, headers: seq<string>)
    ensures forall h ::
              h in NextVisible(previousVisible, previousAll, headers)
              <==> h in headers && (|previousVisible| == 0 || h in previousVisible || (h !in previousAll && AutoShown(h)))
    ensures |previousVisible| > 0 ==> Subsequence(StillPresent(previousVisible, headers), previousVisible)
  {
    StillPresentMembers(previousVisible, headers);
    NewAutoShownMembers(headers, previousAll);
  }

  /** A header that existed but was hidden stays hidden. */
  lemma HiddenStaysHidden(previousVisible: seq<string>, previousAll: seq<string>, headers: seq<string>, h: string)
    requires |previousVisible| > 0 && h in previousAll && h !in previousVisible
    ensures h !in NextVisible(previousVisible, previousAll, headers)
  {
    NextVisibleMembers(previousVisible, previousAll, headers);
  }

  /** `visibleHeaders.filter(h => h !== name)`. */
  function Remove(xs: seq<string>, name: string): (r: seq<string>)
    decreases |xs|
  {
    if xs == [] then [] else (if xs[0] != name then [xs[0]] else []) + Remove(xs[1..], name)
  }

  lemma {:induction false} RemoveMembers(xs: seq<string>, name: string)
    ensures forall h :: h in Remove(xs, name) <==> h in xs && h != name
    ensures name !in xs ==> Remove(xs, name) == xs
    decreases |xs|
  {
    if xs != [] {
      RemoveMembers(xs[1..], name);
      assert xs == [xs[0]] + xs[1..];
    }
  }

  /** toggleColumnVisibility: hide the column if visible, else append it. */
  function Toggled(visible: seq<string>, name: string): seq<string> {
    if name in visible then Remove(visible, name) else visible + [name]
  }

  /** Toggling flips the column's visibility and no other's; toggling a
      hidden column twice restores the visible headers. */
  lemma ToggledSpec(visible: seq<string>, name: string)
    ensures name in Toggled(visible, name) <==> name !in visible
    ensures forall h | h != name :: h in Toggled(visible, name) <==> h in visible
    ensures name !in visible ==> Toggled(Toggled(visible, name), name) == visible
  {
    RemoveMembers(visible, name);
    if name !in visible {
      RemoveMembers(visible + [name], name);
      RemoveAppend(visible, name);
    }
  }

  lemma {:induction false} RemoveAppend(xs: seq<string>, name: string)
    requires name !in xs
    ensures Remove(xs + [name], name) == xs
    decreases |xs|
  {
    if xs == [] {
      assert Remove([name], name) == [] + Remove([], name);
    } else {
      assert (xs + [name])[1..] == xs[1..] + [name];
      RemoveAppend(xs[1..], name);
      assert xs == [xs[0]] + xs[1..];
    }
  }

  // ---------------------------------------------------------------------
  // Column reordering (reorderArray in the drop handlers)

  /** reorderArray: out-of-range indices leave the array as it is; otherwise
      the element at `from` is taken out and put back at `to` of the
      shortened array. Because the source re-inserts it only when it is
      truthy, an empty header is dropped instead. */
  function ReorderArray(arr: seq<string>, from: nat, to: nat): (r: seq<string>)
  {
    if from >= |arr| || to >= |arr| then arr
    else
      var rest := arr[..from] + arr[from + 1..];
      if arr[from] != "" then rest[..to] + [arr[from]] + rest[to..] else rest
  }

  /** A move of a non-empty element: it lands at `to`, the other elements
      keep their relative order, and the result is a permutation. */
  lemma ReorderArrayMoves(arr: seq<string>, from: nat, to: nat)
    requires from < |arr| && to < |arr| && arr[from] != ""
    ensures |ReorderArray(arr, from, to)| == |arr|
    ensures ReorderArray(arr, from, to)[to] == arr[from]
    ensures ReorderArray(arr, from, to)[..to] + ReorderArray(arr, from, to)[to + 1..] == arr[..from] + arr[from + 1..]
    ensures multiset(ReorderArray(arr, from, to)) == multiset(arr)
  {
    var rest := arr[..from] + arr[from + 1..];
    var r := ReorderArray(arr, from, to);
    assert r == rest[..to] + [arr[from]] + rest[to..];
    assert r[..to] == rest[..to];
    assert r[to + 1..] == rest[to..];
    assert rest[..to] + rest[to..] == rest;
    assert arr == arr[..from] + [arr[from]] + arr[from + 1..];
    calc {
      multiset(r);
      multiset(rest[..to]) + multiset{arr[from]} + multiset(rest[to..]);
      multiset(rest) + multiset{arr[from]};
      multiset(arr[..from]) + multiset(arr[from + 1..]) + multiset{arr[from]};
      multiset(arr);
    }
  }

  /** Moving an element back undoes the move. */
  lemma ReorderArrayInverse(arr: seq<string>, from: nat, to: nat)
    requires from < |arr| && to < |arr| && arr[from] != ""
    ensures ReorderArray(ReorderArray(arr, from, to), to, from) == arr
  {
    var r := ReorderArray(arr, from, to);
    ReorderArrayMoves(arr, from, to);
    var rest := arr[..from] + arr[from + 1..];
    assert r[..to] + r[to + 1..] == rest;
    var back := ReorderArray(r, to, from);
    assert back == rest[..from] + [arr[from]] + rest[from..];
    assert rest[..from] == arr[..from];
    assert rest[from..] == arr[from + 1..];
  }

  /** An empty header at `from` is dropped: one element fewer, the others
      in their order. */
  lemma ReorderArrayDropsEmpty(arr: seq<string>, from: nat, to: nat)
    requires from < |arr| && to < |arr| && arr[from] == ""
    ensures ReorderArray(arr, from, to) == arr[..from] + arr[from + 1..]
    ensures multiset(ReorderArray(arr, from, to)) + multiset{""} == multiset(arr)
  {
    assert arr == arr[..from] + [arr[from]] + arr[from + 1..];
  }

  /** Reordering keeps only elements of the array, and all of them when no
      header is empty. */
  lemma ReorderArrayMembers(arr: seq<string>, from: nat, to: nat)
    ensures forall h | h in ReorderArray(arr, from, to) :: h in arr
    ensures "" !in arr ==> forall h :: h in ReorderArray(arr, from, to) <==> h in arr
  {
    if from < |arr| && to < |arr| {
      if arr[from] != "" {
        ReorderArrayMoves(arr, from, to);
        assert forall h :: h in ReorderArray(arr, from, to) <==> h in multiset(arr);
      } else {
        ReorderArrayDropsEmpty(arr, from, to);
        assert forall h | h in ReorderArray(arr, from, to) :: h in multiset(arr);
      }
    }
  }

  /** Applying one more filter to a chain. */
  lemma ChainSnoc(rows: seq<Row>, tests: seq<RowTest>, t: RowTest, visible: seq<string>, files: seq<string>)
    ensures Chain(rows, tests + [t], visible, files) == FilterBy(Chain(rows, tests, visible, files), t, visible, files)
  {
    assert (tests + [t])[..|tests|] == tests;
  }

  /** Extending a chain by the next filter of a list. */
  lemma ChainPrefix(rows: seq<Row>, flags: seq<RowTest>, tests: seq<RowTest>, i: nat, visible: seq<string>, files: seq<string>)
    requires i < |tests|
    ensures Chain(rows, flags + tests[..i + 1], visible, files) == FilterBy(Chain(rows, flags + tests[..i], visible, files), tests[i], visible, files)
  {
    assert flags + tests[..i + 1] == (flags + tests[..i]) + [tests[i]];
    ChainSnoc(rows, flags + tests[..i], tests[i], visible, files);
  }

  /** One custom filter per key of the custom-filter object, in key order. */
  function CustomTests(filters: Row): (ts: seq<RowTest>)
    ensures |ts| == |filters|
    ensures forall i | 0 <= i < |filters| :: ts[i] == Custom(filters[i].key, Value(filters, filters[i].key))
  {
    seq(|filters|, i requires 0 <= i < |filters| => Custom(filters[i].key, Value(filters, filters[i].key)))
  }

  /** A check-box filter, applied when it is switched on. */
  method ApplyIf(rows: seq<Row>, ghost tests: seq<RowTest>, data: seq<Row>, enabled: bool, t: RowTest,
                 visible: seq<string>, files: seq<string>) returns (r: seq<Row>)
    requires data == Chain(rows, tests, visible, files)
    ensures r == Chain(rows, tests + (if enabled then [t] else []), visible, files)
  {
    if enabled {
      ChainSnoc(rows, tests, t, visible, files);
      r := FilterBy(data, t, visible, files);
    } else {
      assert tests + [] == tests;
      r := data;
    }
  }

  /** One custom filter: skipped when its lower-cased value is empty. */
  method ApplyCustomFilter(rows: seq<Row>, column: string, value: string, visible: seq<string>, files: seq<string>)
    returns (r: seq<Row>)
    ensures r == FilterBy(rows, Custom(column, value), visible, files)
  {
    if Lower(value) != "" {
      r := FilterBy(rows, Custom(column, value), visible, files);
    } else {
      r := rows;
      assert forall k | 0 <= k < |rows| :: CustomMatch(rows[k], column, value);
      FilterByKeepsAll(rows, Custom(column, value), visible, files);
    }
  }

  /** The loop step of the custom filters: the filter of key `i`. */
  method CustomStep(rows: seq<Row>, ghost flags: seq<RowTest>, data: seq<Row>, filters: Row, i: nat,
                    visible: seq<string>, files: seq<string>) returns (r: seq<Row>)
    requires i < |filters|
    requires data == Chain(rows, flags + CustomTests(filters)[..i], visible, files)
    ensures r == Chain(rows, flags + CustomTests(filters)[..i + 1], visible, files)
  {
    var column := filters[i].key;
    var value := Value(filters, column);
    ChainPrefix(rows, flags, CustomTests(filters), i, visible, files);
    r := ApplyCustomFilter(data, column, value, visible, files);
  }

  /** The check-box filters that are switched on, in the order
      getFilteredData applies them. */
  function Flags(unhealthy: bool, unequalVersions: bool, unequalBundles: bool, chngs: bool): seq<RowTest> {
    (if unhealthy then [Unhealthy] else [])
    + (if unequalVersions then [UnequalVersions] else [])
    + (if unequalBundles then [UnequalBundles] else [])
    + (if chngs then [Chngs] else [])
  }

  /** The check-box filters of getFilteredData, each applied when switched
      on. */
  method ApplyFlags(rows: seq<Row>, unhealthy: bool, unequalVersions: bool, unequalBundles: bool, chngs: bool,
                    visible: seq<string>, files: seq<string>) returns (r: seq<Row>)
    ensures r == Chain(rows, Flags(unhealthy, unequalVersions, unequalBundles, chngs), visible, files)
  {
    r := ApplyIf(rows, [], rows, unhealthy, Unhealthy, visible, files);
    ghost var tests := if unhealthy then [Unhealthy] else [];
    r := ApplyIf(rows, tests, r, unequalVersions, UnequalVersions, visible, files);
    tests := tests + if unequalVersions then [UnequalVersions] else [];
    r := ApplyIf(rows, tests, r, unequalBundles, UnequalBundles, visible, files);
    tests := tests + if unequalBundles then [UnequalBundles] else [];
    r := ApplyIf(rows, tests, r, chngs, Chngs, visible, files);
  }

  /** The custom tests taken before the first one. */
  lemma TakeNone(flags: seq<RowTest>, tests: seq<RowTest>)
    ensures flags + tests[..0] == flags
  {
  }

  /** Every custom test taken. */
  lemma TakeAll(flags: seq<RowTest>, tests: seq<RowTest>)
    ensures flags + tests[..|tests|] == flags + tests
  {
  }

  /** The custom filters of getFilteredData, one per key of the
      custom-filter object, after the check-box filters `flags`. */
  method ApplyCustomFilters(rows: seq<Row>, ghost flags: seq<RowTest>, data: seq<Row>, filters: Row,
                            visible: seq<string>, files: seq<string>) returns (r: seq<Row>)
    requires data == Chain(rows, flags, visible, files)
    ensures r == Chain(rows, flags + CustomTests(filters), visible, files)
  {
    r := data;
    TakeNone(flags, CustomTests(filters));
    for i := 0 to |filters|
      invariant r == Chain(rows, flags + CustomTests(filters)[..i], visible, files)
    {
      r := CustomStep(rows, flags, r, filters, i, visible, files);
    }
    TakeAll(flags, CustomTests(filters));
  }

  // ---------------------------------------------------------------------
  // The renderer's state

  /** The module-level state of the table renderer. */
  class TableState {
    var mergedData: seq<Row>
    var mergedHeaders: seq<string>
    var visibleHeaders: seq<string>
    var sortColumn: string
    var sortDirection: string
    var showUnhealthyOnly: bool
    var showUnequalVersionsOnly: bool
    var showUnequalBundlesOnly: bool
    var showOnlyChngs: bool
    var customFilters: Row
    var deletedRows: seq<Row>
    var versionsFileNames: seq<string>

    /** Every visible header is one of the headers. */
    predicate Shown()
      reads this
    {
      forall h | h in visibleHeaders :: h in mergedHeaders
    }

    /** The check-box filters that are switched on, in the order they are
        applied. */
    function FlagTests(): seq<RowTest>
      reads this
    {
      Flags(showUnhealthyOnly, showUnequalVersionsOnly, showUnequalBundlesOnly, showOnlyChngs)
    }

    /** Every filter getFilteredData applies, in order. */
    function ActiveTests(): seq<RowTest>
      reads this
    {
      FlagTests() + CustomTests(customFilters)
    }

    constructor()
      ensures mergedData == [] && mergedHeaders == [] && visibleHeaders == []
      ensures sortColumn == "" && sortDirection == "asc"
      ensures !showUnhealthyOnly && !showUnequalVersionsOnly && !showUnequalBundlesOnly && !showOnlyChngs
      ensures customFilters == [] && deletedRows == [] && versionsFileNames == []
      ensures Shown()
    {
      mergedData := [];
      mergedHeaders := [];
      visibleHeaders := [];
      sortColumn := "";
      sortDirection := "asc";
      showUnhealthyOnly := false;
      showUnequalVersionsOnly := false;
      showUnequalBundlesOnly := false;
      showOnlyChngs := false;
      customFilters := [];
      deletedRows := [];
      versionsFileNames := [];
    }

    /** initializeTableData: replaces the data and headers, and carries the
        visibility settings over (NextVisibleMembers says which headers end
        up visible). */
    method InitializeTableData(data: seq<Row>, headers: seq<string>, versionFiles: seq<string>)
      modifies this
      ensures mergedData == data && mergedHeaders == headers && versionsFileNames == versionFiles
      ensures visibleHeaders == NextVisible(old(visibleHeaders), old(mergedHeaders), headers)
      ensures Shown()
      ensures sortColumn == old(sortColumn) && sortDirection == old(sortDirection)
      ensures FlagTests() == old(FlagTests()) && customFilters == old(customFilters)
      ensures deletedRows == old(deletedRows)
    {
      var previousVisibleHeaders := visibleHeaders;
      var previousAllHeaders := mergedHeaders;
      mergedData := data;
      mergedHeaders := headers;
      if |previousVisibleHeaders| > 0 {
        visibleHeaders := StillPresent(previousVisibleHeaders, headers);
        var newShown := NewAutoShown(headers, previousAllHeaders);
        visibleHeaders := visibleHeaders + newShown;
      } else {
        visibleHeaders := headers;
      }
      versionsFileNames := versionFiles;
      NextVisibleMembers(previousVisibleHeaders, previousAllHeaders, headers);
    }

    /** toggleColumnVisibility. */
    method ToggleColumnVisibility(columnName: string)
      modifies this`visibleHeaders
      ensures visibleHeaders == Toggled(old(visibleHeaders), columnName)
      ensures old(Shown()) && columnName in mergedHeaders ==> Shown()
    {
      if columnName in visibleHeaders {
        visibleHeaders := Remove(visibleHeaders, columnName);
      } else {
        visibleHeaders := visibleHeaders + [columnName];
      }
      ToggledSpec(old(visibleHeaders), columnName);
    }

    /** removeColumn: hides the column. */
    method RemoveColumn(columnToRemove: string)
      modifies this`visibleHeaders
      ensures visibleHeaders == Remove(old(visibleHeaders), columnToRemove)
      ensures columnToRemove !in visibleHeaders
      ensures old(Shown()) ==> Shown()
    {
      visibleHeaders := Remove(visibleHeaders, columnToRemove);
      RemoveMembers(old(visibleHeaders), columnToRemove);
    }

    /** showAllColumns. */
    method ShowAllColumns()
      modifies this`visibleHeaders
      ensures visibleHeaders == mergedHeaders
      ensures Shown()
    {
      visibleHeaders := mergedHeaders;
    }

    /** The column and chip drop handlers: when the dragged and target
        indices differ, both header arrays are reordered with the same
        indices. */
    method DropColumn(draggedIndex: nat, targetIndex: nat)
      modifies this`mergedHeaders, this`visibleHeaders
      ensures draggedIndex == targetIndex ==> mergedHeaders == old(mergedHeaders) && visibleHeaders == old(visibleHeaders)
      ensures draggedIndex != targetIndex ==>
                mergedHeaders == ReorderArray(old(mergedHeaders), draggedIndex, targetIndex)
                && visibleHeaders == ReorderArray(old(visibleHeaders), draggedIndex, targetIndex)
      ensures old(Shown()) && "" !in old(mergedHeaders) ==> Shown()
    {
      if draggedIndex != targetIndex {
        mergedHeaders := ReorderArray(mergedHeaders, draggedIndex, targetIndex);
        visibleHeaders := ReorderArray(visibleHeaders, draggedIndex, targetIndex);
        ReorderArrayMembers(old(mergedHeaders), draggedIndex, targetIndex);
        ReorderArrayMembers(old(visibleHeaders), draggedIndex, targetIndex);
      }
    }

    /** restoreDeletedRows: with nothing deleted, or when the user does not
        confirm, nothing changes; otherwise the deleted rows are appended to
        the data and the deleted list is emptied. No row is lost or
        duplicated either way. */
    method RestoreDeletedRows(confirmed: bool) returns (restoredCount: nat)
      modifies this`mergedData, this`deletedRows
      ensures |old(deletedRows)| == 0 || !confirmed ==>
                mergedData == old(mergedData) && deletedRows == old(deletedRows) && restoredCount == 0
      ensures |old(deletedRows)| > 0 && confirmed ==>
                mergedData == old(mergedData) + old(deletedRows) && deletedRows == [] && restoredCount == |old(deletedRows)|
      ensures multiset(mergedData) + multiset(deletedRows) == multiset(old(mergedData)) + multiset(old(deletedRows))
    {
      restoredCount := 0;
      if |deletedRows| == 0 {
        return;
      }
      if confirmed {
        mergedData := mergedData + deletedRows;
        restoredCount := |deletedRows|;
        deletedRows := [];
      }
    }

    /** setFilterStates: each setting given replaces the current one. */
    method SetFilterStates(unhealthy: Option<bool>, unequalVersions: Option<bool>, unequalBundles: Option<bool>,
                           chngs: Option<bool>, filters: Option<Row>)
      modifies this`showUnhealthyOnly, this`showUnequalVersionsOnly, this`showUnequalBundlesOnly,
               this`showOnlyChngs, this`customFilters
      ensures showUnhealthyOnly == if unhealthy.Some? then unhealthy.value else old(showUnhealthyOnly)
      ensures showUnequalVersionsOnly == if unequalVersions.Some? then unequalVersions.value else old(showUnequalVersionsOnly)
      ensures showUnequalBundlesOnly == if unequalBundles.Some? then unequalBundles.value else old(showUnequalBundlesOnly)
      ensures showOnlyChngs == if chngs.Some? then chngs.value else old(showOnlyChngs)
      ensures customFilters == if filters.Some? then filters.value else old(customFilters)
    {
      if unhealthy.Some? { showUnhealthyOnly := unhealthy.value; }
      if unequalVersions.Some? { showUnequalVersionsOnly := unequalVersions.value; }
      if unequalBundles.Some? { showUnequalBundlesOnly := unequalBundles.value; }
      if chngs.Some? { showOnlyChngs := chngs.value; }
      if filters.Some? { customFilters := filters.value; }
    }

    /** getFilteredData: the rows that pass every active filter, a
        subsequence of the data in its order (FilteredRows). */
    method GetFilteredData() returns (dataToShow: seq<Row>)
      ensures dataToShow == Chain(mergedData, ActiveTests(), visibleHeaders, versionsFileNames)
      ensures Subsequence(dataToShow, mergedData)
      ensures forall x :: x in dataToShow <==> x in mergedData && PassesAll(ActiveTests(), x, visibleHeaders, versionsFileNames)
    {
      var flagged := ApplyFlags(mergedData, showUnhealthyOnly, showUnequalVersionsOnly, showUnequalBundlesOnly,
                                showOnlyChngs, visibleHeaders, versionsFileNames);
      dataToShow := ApplyCustomFilters(mergedData, FlagTests(), flagged, customFilters, visibleHeaders, versionsFileNames);
      FilteredRows(mergedData, ActiveTests(), visibleHeaders, versionsFileNames);
    }
  }
}

=== FILE: text.dfy ===
/**
  String primitives with the semantics of the JavaScript String methods the
  matcher relies on: ASCII case mapping, `trim`, `split` on one character and
  on runs of white space, `join`, `includes`, `startsWith`, `endsWith`, and
  the literal `replace` calls used by the name normalisers.
*/
module Text {

  /** The characters JavaScript's `\s` and `String.prototype.trim` treat as
      white space: the ASCII controls, the space and the Unicode spaces and
      line terminators. */
  predicate IsSpace(c: char) {
    c == ' ' || c == '\t' || c == '\n' || c == '\r' || c == '\U{000B}' || c == '\U{000C}'
    || c == '\U{00A0}' || c == '\U{1680}' || ('\U{2000}' <= c <= '\U{200A}')
    || c == '\U{2028}' || c == '\U{2029}' || c == '\U{202F}' || c == '\U{205F}'
    || c == '\U{3000}' || c == '\U{FEFF}'
  }

  predicate IsDigit(c: char) { '0' <= c <= '9' }

  /** JavaScript `\w`: ASCII letters, digits and the underscore. */
  predicate IsWordChar(c: char) {
    ('a' <= c <= 'z') || ('A' <= c <= 'Z') || IsDigit(c) || c == '_'
  }

  predicate AllDigits(s: string) { forall i | 0 <= i < |s| :: IsDigit(s[i]) }

  predicate NoSpace(s: string) { forall i | 0 <= i < |s| :: !IsSpace(s[i]) }

  function LowerChar(c: char): char {
    if 'A' <= c <= 'Z' then (c as int + 32) as char else c
  }

  function UpperChar(c: char): char {
    if 'a' <= c <= 'z' then (c as int - 32) as char else c
  }

  /** `toLowerCase` on the ASCII range. */
  function Lower(s: string): string {
    seq(|s|, i requires 0 <= i < |s| => LowerChar(s[i]))
  }

  /** `toUpperCase` on the ASCII range. */
  function Upper(s: string): string {
    seq(|s|, i requires 0 <= i < |s| => UpperChar(s[i]))
  }

  lemma LowerAppend(a: string, b: string)
    ensures Lower(a + b) == Lower(a) + Lower(b)
  {
    assert Lower(a + b) == Lower(a) + Lower(b);
  }

  predicate StartsWith(s: string, p: string) { |p| <= |s| && s[..|p|] == p }

  predicate EndsWith(s: string, p: string) { |p| <= |s| && s[|s| - |p|..] == p }

  /** `s.includes(sub)`. */
  predicate Contains(s: string, sub: string) {
    exists i | 0 <= i <= |s| - |sub| :: OccursAt(s, sub, i)
  }

  predicate OccursAt(s: string, sub: string, i: int) {
    0 <= i <= |s| - |sub| && s[i..i + |sub|] == sub
  }

  /** Extending a slice by the next element; stated for any element type so
      that callers on sequences of strings need not compare strings. */
  lemma SliceSnoc<T>(s: seq<T>, a: nat, b: nat)
    requires a <= b < |s|
    ensures s[a..b + 1] == s[a..b] + [s[b]]
  {
  }

  lemma SliceAll<T>(s: seq<T>, a: nat)
    requires a <= |s|
    ensures s[a..|s|] == s[a..] && s[a..a] == []
  {
  }

  /** `s.indexOf(c)`: the first position of `c`, or -1. */
  function IndexOfChar(s: string, c: char): (i: int)
    ensures -1 <= i < |s|
    ensures i >= 0 ==> s[i] == c && c !in s[..i]
    ensures i < 0 ==> c !in s
  {
    if s == [] then -1
    else if s[0] == c then 0
    else
      var t := IndexOfChar(s[1..], c);
      assert s == [s[0]] + s[1..];
      if t < 0 then -1 else (assert s[..t + 1] == [s[0]] + s[1..][..t]; t + 1)
  }

  /** `s.lastIndexOf(c)`: the last position of `c`, or -1. */
  function LastIndexOfChar(s: string, c: char): (i: int)
    ensures -1 <= i < |s|
    ensures i >= 0 ==> s[i] == c && c !in s[i + 1..]
    ensures i < 0 ==> c !in s
  {
    if s == [] then -1
    else if s[|s| - 1] == c then |s| - 1
    else
      var t := LastIndexOfChar(s[..|s| - 1], c);
      assert s == s[..|s| - 1] + [s[|s| - 1]];
      if t >= 0 then assert s[t + 1..] == s[..|s| - 1][t + 1..] + [s[|s| - 1]]; t else t
  }

  /** The last occurrence is the one after which `c` no longer occurs. */
  lemma {:induction false} LastIndexOfCharAt(s: string, c: char, p: nat)
    requires p < |s| && s[p] == c && c !in s[p + 1..]
    ensures LastIndexOfChar(s, c) == p
    decreases |s|
  {
    if p < |s| - 1 {
      assert s[|s| - 1] in s[p + 1..];
      var t := s[..|s| - 1];
      assert t[p + 1..] == s[p + 1..|s| - 1];
      assert t[p + 1..] == s[p + 1..][..|s| - 1 - (p + 1)];
      LastIndexOfCharAt(t, c, p);
    }
  }

  /** `s.indexOf(sub)`: the first position where `sub` occurs, or -1. */
  function IndexOfSub(s: string, sub: string): (i: int)
    ensures -1 <= i <= |s|
    ensures i >= 0 ==> OccursAt(s, sub, i) && forall j | 0 <= j < i :: !OccursAt(s, sub, j)
    ensures i < 0 ==> !Contains(s, sub)
  {
    IndexOfSubFrom(s, sub, 0)
  }

  function IndexOfSubFrom(s: string, sub: string, from: nat): (i: int)
    requires from <= |s| + 1
    ensures -1 <= i <= |s|
    ensures i >= 0 ==> from <= i && OccursAt(s, sub, i) && forall j | from <= j < i :: !OccursAt(s, sub, j)
    ensures i < 0 ==> forall j | from <= j :: !OccursAt(s, sub, j)
    decreases |s| + 1 - from
  {
    if from + |sub| > |s| then -1
    else if s[from..from + |sub|] == sub then from
    else IndexOfSubFrom(s, sub, from + 1)
  }

  /** `s.replace(/<suffix>$/, '')`: drops one trailing occurrence. */
  function StripSuffix(s: string, suffix: string): (r: string)
    ensures EndsWith(s, suffix) ==> r + suffix == s
    ensures !EndsWith(s, suffix) ==> r == s
  {
    if EndsWith(s, suffix) then s[..|s| - |suffix|] else s
  }

  /** `/<suffix>$/i` matches `s`, for a lower-case ASCII suffix: compared
      from the end, one character at a time. */
  predicate EndsWithIgnoreCase(s: string, suffix: string)
    decreases |suffix|
  {
    |suffix| <= |s|
    && (suffix == []
        || (LowerChar(s[|s| - 1]) == suffix[|suffix| - 1]
            && EndsWithIgnoreCase(s[..|s| - 1], suffix[..|suffix| - 1])))
  }

  /** The match ignores case: it is an exact match on the lower-cased
      text. */
  lemma {:induction false} EndsWithIgnoreCaseLower(s: string, suffix: string)
    ensures EndsWithIgnoreCase(s, suffix) <==> EndsWith(Lower(s), suffix)
    decreases |suffix|
  {
    if suffix != [] && |suffix| <= |s| {
      var s', t' := s[..|s| - 1], suffix[..|suffix| - 1];
      EndsWithIgnoreCaseLower(s', t');
      var l := Lower(s);
      assert Lower(s') == l[..|s| - 1];
      assert l[|s| - |suffix|..] == l[..|s| - 1][|s'| - |t'|..] + [l[|s| - 1]];
      assert suffix == t' + [suffix[|suffix| - 1]];
    }
  }

  /** `s.replace(/<suffix>$/i, '')` for a lower-case ASCII suffix. */
  function StripSuffixIgnoreCase(s: string, suffix: string): string {
    if EndsWithIgnoreCase(s, suffix) then s[..|s| - |suffix|] else s
  }

  /** The result is `s` with the suffix, in any case, dropped once from its
      end, or `s` itself when it does not end with it. */
  lemma StripSuffixIgnoreCaseSpec(s: string, suffix: string)
    ensures var r := StripSuffixIgnoreCase(s, suffix);
      |r| <= |s| && r == s[..|r|]
      && (EndsWith(Lower(s), suffix) <==> |r| + |suffix| == |s|)
      && (EndsWith(Lower(s), suffix) ==> Lower(s[|r|..]) == suffix)
  {
    EndsWithIgnoreCaseLower(s, suffix);
    var r := StripSuffixIgnoreCase(s, suffix);
    if EndsWith(Lower(s), suffix) {
      assert Lower(s[|r|..]) == Lower(s)[|r|..];
    }
  }

  /** `s.replace(/<from>/g, <to>)` for single characters. */
  function ReplaceChar(s: string, from: char, to: char): (r: string)
    ensures |r| == |s|
    ensures forall i | 0 <= i < |s| :: r[i] == (if s[i] == from then to else s[i])
  {
    seq(|s|, i requires 0 <= i < |s| => if s[i] == from then to else s[i])
  }

  /** The number of white-space characters `s` starts with. */
  function LeadingSpaces(s: string): (n: nat)
    ensures n <= |s| && (n == |s| || !IsSpace(s[n]))
    ensures forall i | 0 <= i < n :: IsSpace(s[i])
  {
    if |s| > 0 && IsSpace(s[0]) then 1 + LeadingSpaces(s[1..]) else 0
  }

  /** The number of white-space characters `s` ends with. */
  function TrailingSpaces(s: string): (n: nat)
    ensures n <= |s| && (n == |s| || !IsSpace(s[|s| - n - 1]))
    ensures forall i | |s| - n <= i < |s| :: IsSpace(s[i])
  {
    if |s| > 0 && IsSpace(s[|s| - 1]) then 1 + TrailingSpaces(s[..|s| - 1]) else 0
  }

  /** `trimStart`: the suffix of `s` left after its leading white space. */
  function TrimStart(s: string): (r: string)
    ensures |r| <= |s| && r == s[|s| - |r|..]
    ensures forall i | 0 <= i < |s| - |r| :: IsSpace(s[i])
    ensures r == [] || !IsSpace(r[0])
  {
    s[LeadingSpaces(s)..]
  }

  /** `trimEnd`: the prefix of `s` left before its trailing white space. */
  function TrimEnd(s: string): (r: string)
    ensures |r| <= |s| && r == s[..|r|]
    ensures forall i | |r| <= i < |s| :: IsSpace(s[i])
    ensures r == [] || !IsSpace(r[|r| - 1])
  {
    s[..|s| - TrailingSpaces(s)]
  }

  /** `trim`. */
  function Trim(s: string): string {
    TrimEnd(TrimStart(s))
  }

  predicate IsTrimmed(s: string) {
    s == [] || (!IsSpace(s[0]) && !IsSpace(s[|s| - 1]))
  }

  /** The number of leading white-space characters `trim` drops. */
  function Lead(s: string): (n: nat)
    ensures n <= |s| && TrimStart(s) == s[n..]
  {
    |s| - |TrimStart(s)|
  }

  /** Trim removes exactly the white space at both ends and nothing else:
      the result is the slice of `s` that starts at the first and ends at the
      last non-space character. */
  lemma TrimShape(s: string)
    ensures IsTrimmed(Trim(s))
    ensures Lead(s) + |Trim(s)| <= |s| && Trim(s) == s[Lead(s)..Lead(s) + |Trim(s)|]
    ensures forall j | 0 <= j < Lead(s) :: IsSpace(s[j])
    ensures forall j | Lead(s) + |Trim(s)| <= j < |s| :: IsSpace(s[j])
  {
    TrimIsTrimmed(s);
    TrimSlice(s);
    TrimTail(s);
  }

  lemma TrimIsTrimmed(s: string)
    ensures IsTrimmed(Trim(s))
  {
    var t := TrimStart(s);
    var r := TrimEnd(t);
    if r != [] {
      assert r[0] == t[0];
    }
  }

  lemma TrimSlice(s: string)
    ensures Lead(s) + |Trim(s)| <= |s| && Trim(s) == s[Lead(s)..Lead(s) + |Trim(s)|]
  {
    var t := TrimStart(s);
    var r := TrimEnd(t);
    assert r == t[..|r|];
  }

  lemma TrimTail(s: string)
    ensures forall j | Lead(s) + |Trim(s)| <= j < |s| :: IsSpace(s[j])
  {
    var t := TrimStart(s);
    var r := TrimEnd(t);
    var i := Lead(s);
    assert |Trim(s)| == |r|;
    forall j | i + |r| <= j < |s| ensures IsSpace(s[j]) {
      var k := j - i;
      assert IsSpace(t[k]);
      assert t[k] == s[j];
    }
  }

  lemma TrimOfTrimmed(s: string)
    requires IsTrimmed(s)
    ensures Trim(s) == s
  {
  }

  /** `s.split(sep)` for a one-character separator: never empty, and the
      pieces are the maximal separator-free segments. */
  function Split(s: string, sep: char): (parts: seq<string>)
    ensures |parts| >= 1
    ensures forall k | 0 <= k < |parts| :: sep !in parts[k]
    decreases |s|
  {
    if s == [] then [[]]
    else
      var rest := Split(s[1..], sep);
      if s[0] == sep then [[]] + rest
      else [[s[0]] + rest[0]] + rest[1..]
  }

  /** `parts.join(sep)`. */
  function Join(parts: seq<string>, sep: char): string
    decreases |parts|
  {
    if |parts| == 0 then []
    else if |parts| == 1 then parts[0]
    else parts[0] + [sep] + Join(parts[1..], sep)
  }

  lemma {:induction false} JoinSplit(s: string, sep: char)
    ensures Join(Split(s, sep), sep) == s
    decreases |s|
  {
    if s != [] {
      JoinSplit(s[1..], sep);
      var rest := Split(s[1..], sep);
      if s[0] == sep {
        assert Split(s, sep)[1..] == rest;
        if |rest| == 1 {
          assert Join(Split(s, sep), sep) == [] + [sep] + Join(rest, sep);
        }
      } else {
        assert s == [s[0]] + s[1..];
        if |rest| > 1 {
          assert Split(s, sep)[1..] == rest[1..];
          assert Join(rest, sep) == rest[0] + [sep] + Join(rest[1..], sep);
        }
      }
    }
  }

  /** One step of Split, stated for a non-empty string written `[c] + t`. */
  lemma SplitCons(c: char, t: string, sep: char)
    ensures Split([c] + t, sep)
      == if c == sep then [[]] + Split(t, sep) else [[c] + Split(t, sep)[0]] + Split(t, sep)[1..]
  {
    assert ([c] + t)[1..] == t;
  }

  lemma HeadTail<T>(u: seq<T>, v: seq<T>)
    requires |u| >= 1
    ensures (u + v)[0] == u[0] && (u + v)[1..] == u[1..] + v
  {
  }

  lemma ConsAssoc<T>(x: T, u: seq<T>, v: seq<T>)
    ensures [x] + (u + v) == ([x] + u) + v
  {
  }

  lemma {:induction false} SplitAppend(a: string, b: string, sep: char)
    ensures Split(a + [sep] + b, sep) == Split(a, sep) + Split(b, sep)
    decreases |a|
  {
    if a == [] {
      assert a + [sep] + b == [sep] + b;
      SplitCons(sep, b, sep);
    } else {
      var t := a[1..];
      SplitAppend(t, b, sep);
      assert a + [sep] + b == [a[0]] + (t + [sep] + b);
      assert a == [a[0]] + t;
      SplitCons(a[0], t + [sep] + b, sep);
      SplitCons(a[0], t, sep);
      var ra := Split(t, sep);
      var rb := Split(b, sep);
      if a[0] == sep {
        ConsAssoc([], ra, rb);
      } else {
        HeadTail(ra, rb);
        ConsAssoc([a[0]] + ra[0], ra[1..], rb);
      }
    }
  }

  lemma {:induction false} SplitWithoutSep(s: string, sep: char)
    requires sep !in s
    ensures Split(s, sep) == [s]
    decreases |s|
  {
    if s != [] {
      assert s[0] != sep && sep !in s[1..];
      SplitWithoutSep(s[1..], sep);
      assert [s[0]] + s[1..] == s;
    }
  }

  lemma {:induction false} JoinAt(parts: seq<string>, k: nat, sep: char)
    requires 0 < k < |parts|
    ensures Join(parts, sep) == Join(parts[..k], sep) + [sep] + Join(parts[k..], sep)
    decreases k
  {
    if k == 1 {
      assert Join(parts[..1], sep) == parts[0];
      assert parts[1..] == parts[k..];
    } else {
      JoinAt(parts[1..], k - 1, sep);
      assert parts[1..][..k - 1] == parts[..k][1..];
      assert parts[1..][k - 1..] == parts[k..];
      assert Join(parts[..k], sep) == parts[0] + [sep] + Join(parts[..k][1..], sep);
    }
  }

  /** The pieces of `s.split(/\s+/)`: like Split, but a run of white space
      is one separator. */
  function SplitSpaces(s: string): (parts: seq<string>)
    ensures |parts| >= 1
    ensures forall k | 0 <= k < |parts| :: NoSpace(parts[k])
    decreases |s|
  {
    if s == [] then [[]]
    else if IsSpace(s[0]) then [[]] + SplitSpaces(TrimStart(s))
    else
      var rest := SplitSpaces(s[1..]);
      [[s[0]] + rest[0]] + rest[1..]
  }

  /** `text.split('\n').map(l => l.trim()).filter(l => l)`: the trimmed,
      non-empty lines, in order. */
  function NonBlankLines(text: string): (lines: seq<string>)
    ensures forall k | 0 <= k < |lines| :: lines[k] != [] && IsTrimmed(lines[k])
  {
    TrimmedNonEmpty(Split(text, '\n'))
  }

  function TrimmedNonEmpty(raw: seq<string>): (lines: seq<string>)
    ensures |lines| <= |raw|
    ensures forall k | 0 <= k < |lines| :: lines[k] != [] && IsTrimmed(lines[k])
    decreases |raw|
  {
    if raw == [] then []
    else
      var t := Trim(raw[0]);
      TrimIsTrimmed(raw[0]);
      (if t != [] then [t] else []) + TrimmedNonEmpty(raw[1..])
  }
}

=== FILE: utils.dfy ===
/**
  The shared helpers of the matcher: service names from deployment links,
  the tolerant CSV reader, the version-manifest validation, the column-name
  classifiers and the build-number-tolerant version equality.
*/
module Utils {
  import opened Text
  import opened Records

  // ---------------------------------------------------------------------
  // Deployment links

  const DeployMarker: string := "/deploy_"

  /** `link` ends in the path segment `deploy_<name>`, optionally followed by
      one slash, and `<name>` is a non-empty segment without slashes: what the
      pattern `/\/deploy_([^\/]+)\/?$/` accepts, with `<name>` its group. */
  predicate NamedBy(link: string, name: string) {
    name != [] && '/' !in name
    && (EndsWith(link, DeployMarker + name) || EndsWith(link, DeployMarker + name + "/"))
  }

  /** The link without one trailing slash. */
  function DropTrailingSlash(link: string): (t: string)
    ensures t == link || (link == t + "/")
  {
    if link != [] && link[|link| - 1] == '/' then link[..|link| - 1] else link
  }

  /** The text after the last slash of `t`, provided that slash starts
      `/deploy_` and something follows it; otherwise empty. */
  function NameAfterDeploy(t: string): (name: string)
    ensures name != [] ==> '/' !in name && EndsWith(t, DeployMarker + name)
  {
    var i := LastIndexOfChar(t, '/');
    if i >= 0 && StartsWith(t[i..], DeployMarker) && |t| - i > |DeployMarker| then
      assert t[i..] == DeployMarker + t[i + |DeployMarker|..];
      t[i + |DeployMarker|..]
    else []
  }

  /** extractServiceNameFromLink: the `<name>` of a link of the form
      `.../deploy_<name>` or `.../deploy_<name>/`, and the empty string for
      every other link (an empty one included). */
  function ExtractServiceNameFromLink(link: string): (name: string)
    ensures name != [] ==> NamedBy(link, name)
  {
    NameAfterDeploy(DropTrailingSlash(link))
  }

  lemma NameAfterDeployFinds(t: string, name: string)
    requires name != [] && '/' !in name && EndsWith(t, DeployMarker + name)
    ensures NameAfterDeploy(t) == name
  {
    var m := DeployMarker + name;
    var p := |t| - |m|;
    assert t[p..] == m;
    assert t[p] == '/';
    assert t[p + 1..] == m[1..] == "deploy_" + name;
    assert '/' !in "deploy_";
    LastIndexOfCharAt(t, '/', p);
    assert t[p + |DeployMarker|..] == m[|DeployMarker|..] == name;
  }

  /** The converse of ExtractServiceNameFromLink's contract: whenever a link
      names a service, that name is what is extracted. Together they say the
      extraction returns exactly the one name the link carries, if any. */
  lemma ExtractServiceNameComplete(link: string, name: string)
    requires NamedBy(link, name)
    ensures ExtractServiceNameFromLink(link) == name
  {
    var m := DeployMarker + name;
    if EndsWith(link, m) {
      assert link[|link| - 1] == name[|name| - 1];
      assert DropTrailingSlash(link) == link;
      NameAfterDeployFinds(link, name);
    } else {
      var t := link[..|link| - 1];
      assert DropTrailingSlash(link) == t;
      assert t[|t| - |m|..] == link[|link| - |m + "/"|..][..|m|];
      NameAfterDeployFinds(t, name);
    }
  }

  // ---------------------------------------------------------------------
  // parseCSV

  /** `line.trim().replace(/^"|"$/g, '')`: trimmed, then one leading and one
      trailing double quote dropped. */
  function CleanCell(s: string): (r: string)
    ensures |r| <= |s|
  {
    TrimShape(s);
    var t := Trim(s);
    var a := if t != [] && t[0] == '"' then t[1..] else t;
    if a != [] && a[|a| - 1] == '"' then a[..|a| - 1] else a
  }

  /** A piece of `text.split(/\r?\n/)` other than the last loses the carriage
      return before its line feed. */
  function DropCR(line: string): string {
    if line != [] && line[|line| - 1] == '\r' then line[..|line| - 1] else line
  }

  /** `text.split(/\r?\n/)`. */
  function SplitLines(text: string): (lines: seq<string>)
    ensures |lines| == |Split(text, '\n')| >= 1
  {
    var parts := Split(text, '\n');
    seq(|parts|, i requires 0 <= i < |parts| => if i < |parts| - 1 then DropCR(parts[i]) else parts[i])
  }

  /** The header candidates of a line: split on every comma, each cell
      cleaned. */
  function HeaderCells(line: string): (cells: seq<string>)
    ensures |cells| == |Split(line, ',')|
  {
    var parts := Split(line, ',');
    seq(|parts|, i requires 0 <= i < |parts| => CleanCell(parts[i]))
  }

  function QuoteCount(s: string): nat {
    if s == [] then 0 else (if s[0] == '"' then 1 else 0) + QuoteCount(s[1..])
  }

  /** `line.split(/,(?=(?:(?:[^"]*"){2})*[^"]*$)/)`: a comma separates two
      fields exactly when an even number of double quotes follows it on the
      line, that is when it stands outside a quoted field. */
  function SplitCsvLine(s: string): (fields: seq<string>)
    ensures |fields| >= 1
    decreases |s|
  {
    if s == [] then [[]]
    else
      var rest := SplitCsvLine(s[1..]);
      if s[0] == ',' && QuoteCount(s[1..]) % 2 == 0 then [[]] + rest
      else [[s[0]] + rest[0]] + rest[1..]
  }

  /** Splitting a data line loses nothing: the fields joined by commas give
      the line back. */
  lemma {:induction false} SplitCsvLineJoin(s: string)
    ensures Join(SplitCsvLine(s), ',') == s
    decreases |s|
  {
    if s != [] {
      SplitCsvLineJoin(s[1..]);
      var rest := SplitCsvLine(s[1..]);
      if s[0] == ',' && QuoteCount(s[1..]) % 2 == 0 {
        assert SplitCsvLine(s)[1..] == rest;
        if |rest| == 1 {
          assert Join(SplitCsvLine(s), ',') == [] + [','] + Join(rest, ',');
        }
      } else {
        assert s == [s[0]] + s[1..];
        if |rest| > 1 {
          assert SplitCsvLine(s)[1..] == rest[1..];
          assert Join(rest, ',') == rest[0] + [','] + Join(rest[1..], ',');
        }
      }
    }
  }

  /** On a line without double quotes every comma separates, so data lines
      and header lines are split alike. */
  lemma {:induction false} SplitCsvLineUnquoted(s: string)
    requires '"' !in s
    ensures SplitCsvLine(s) == Split(s, ',')
    decreases |s|
  {
    if s != [] {
      assert '"' !in s[1..];
      SplitCsvLineUnquoted(s[1..]);
      if s[0] == ',' {
        QuoteCountNone(s[1..]);
      }
    }
  }

  lemma {:induction false} QuoteCountNone(s: string)
    requires '"' !in s
    ensures QuoteCount(s) == 0
    decreases |s|
  {
    if s != [] {
      assert '"' !in s[1..];
      QuoteCountNone(s[1..]);
    }
  }

  /** The cells of a data line. */
  function Cells(line: string): (cells: seq<string>)
    ensures |cells| == |SplitCsvLine(line)|
  {
    var parts := SplitCsvLine(line);
    seq(|parts|, i requires 0 <= i < |parts| => CleanCell(parts[i]))
  }

  /** `values[index]`, with the missing value of a short line read as empty. */
  function CellAt(cells: seq<string>, i: nat): string {
    if i < |cells| then cells[i] else ""
  }

  /** The row object built from the first `n` header columns: each named
      column assigned its cell in column order, unnamed columns skipped. */
  function RowFrom(header: seq<string>, cells: seq<string>, n: nat): Row
    requires n <= |header|
  {
    if n == 0 then []
    else
      var r := RowFrom(header, cells, n - 1);
      if header[n - 1] != "" then Put(r, header[n - 1], CellAt(cells, n - 1)) else r
  }

  /** A parsed row has exactly the named header columns as keys. */
  lemma {:induction false} RowFromKeys(header: seq<string>, cells: seq<string>, n: nat)
    requires n <= |header|
    ensures forall k :: Has(RowFrom(header, cells, n), k) <==> k != "" && k in header[..n]
    decreases n
  {
    if n > 0 {
      RowFromKeys(header, cells, n - 1);
      var r := RowFrom(header, cells, n - 1);
      var c := header[n - 1];
      assert header[..n] == header[..n - 1] + [c];
      if c != "" {
        PutGet(r, c, CellAt(cells, n - 1));
        var s := Put(r, c, CellAt(cells, n - 1));
        forall k ensures Has(s, k) <==> k != "" && k in header[..n] {
          if k == c {
            assert Get(s, k).Some?;
          } else {
            assert Get(s, k) == Get(r, k);
          }
        }
      }
    }
  }

  /** No key of a parsed row occurs twice. */
  lemma {:induction false} RowFromDistinct(header: seq<string>, cells: seq<string>, n: nat)
    requires n <= |header|
    ensures DistinctKeys(RowFrom(header, cells, n))
    decreases n
  {
    if n > 0 {
      RowFromDistinct(header, cells, n - 1);
      if header[n - 1] != "" {
        PutGet(RowFrom(header, cells, n - 1), header[n - 1], CellAt(cells, n - 1));
      }
    }
  }

  /** A column named more than once holds the cell of its last occurrence,
      since the later assignment wins; a short line leaves the empty value. */
  lemma {:induction false} RowFromValue(header: seq<string>, cells: seq<string>, n: nat, j: nat)
    requires j < n <= |header| && header[j] != ""
    requires forall m | j < m < n :: header[m] != header[j]
    ensures Get(RowFrom(header, cells, n), header[j]) == Some(CellAt(cells, j))
    decreases n
  {
    var r := RowFrom(header, cells, n - 1);
    var c := header[n - 1];
    if j == n - 1 {
      PutGet(r, c, CellAt(cells, j));
    } else {
      RowFromValue(header, cells, n - 1, j);
      assert c != header[j];
      if c != "" {
        PutGet(r, c, CellAt(cells, n - 1));
      }
    }
  }

  /** Builds one row object column by column, as the `header.forEach` of
      parseCSV does. */
  method BuildRow(header: seq<string>, cells: seq<string>) returns (row: Row)
    ensures row == RowFrom(header, cells, |header|)
  {
    row := [];
    for index := 0 to |header|
      invariant row == RowFrom(header, cells, index)
    {
      var col := header[index];
      if col != "" {
        row := Put(row, col, CellAt(cells, index));
      }
    }
  }

  /** Only the first ten lines are searched for the header. */
  function SearchLimit(lines: seq<string>): nat {
    if |lines| < 10 then |lines| else 10
  }

  /** The first line at or after `i`, within the search limit, whose cells
      include the key column; -1 when there is none. */
  function HeaderFrom(lines: seq<string>, key: string, i: nat): (h: int)
    requires i <= SearchLimit(lines)
    ensures h == -1 || i <= h < SearchLimit(lines)
    ensures h >= 0 ==> (key in HeaderCells(lines[h])
      && forall j | i <= j < h :: key !in HeaderCells(lines[j]))
    ensures h < 0 ==> forall j | i <= j < SearchLimit(lines) :: key !in HeaderCells(lines[j])
    decreases SearchLimit(lines) - i
  {
    if i == SearchLimit(lines) then -1
    else if key in HeaderCells(lines[i]) then i
    else HeaderFrom(lines, key, i + 1)
  }

  /** The rows `rowsOf` gives for each of `lines[start..end]`, one line
      after the other. */
  function Collect(rowsOf: string -> seq<Row>, lines: seq<string>, start: nat, end: nat): seq<Row>
    requires start <= end <= |lines|
    decreases end - start
  {
    if end == start then [] else Collect(rowsOf, lines, start, end - 1) + rowsOf(lines[end - 1])
  }

  /** The row object of one line, or none for a blank line. */
  function RowsOf(header: seq<string>, line: string): (rows: seq<Row>)
    ensures |rows| <= 1
  {
    if Trim(line) == "" then [] else [RowFrom(header, Cells(line), |header|)]
  }

  /** The rows of each line under `header`. */
  function LineRows(header: seq<string>): string -> seq<Row> {
    line => RowsOf(header, line)
  }

  /** The row objects of the non-blank lines among `lines[start..end]`, in
      order. */
  function DataRows(header: seq<string>, lines: seq<string>, start: nat, end: nat): seq<Row>
    requires start <= end <= |lines|
  {
    Collect(LineRows(header), lines, start, end)
  }

  /** The rows of one more line come after the others. */
  lemma DataRowsSnoc(header: seq<string>, lines: seq<string>, start: nat, j: nat)
    requires start <= j < |lines|
    ensures DataRows(header, lines, start, j + 1) == DataRows(header, lines, start, j) + RowsOf(header, lines[j])
  {
  }

  /** The keys of a row are exactly the named header columns, each once. */
  ghost predicate RowShape(r: Row, header: seq<string>) {
    DistinctKeys(r) && forall k :: Has(r, k) <==> k != "" && k in header
  }

  lemma RowOfLineShape(header: seq<string>, line: string)
    ensures forall r | r in RowsOf(header, line) :: RowShape(r, header)
  {
    RowFromKeys(header, Cells(line), |header|);
    RowFromDistinct(header, Cells(line), |header|);
    assert header[..|header|] == header;
  }

  /** Every collected row has the shape each line's rows have. */
  lemma {:induction false} CollectShape(rowsOf: string -> seq<Row>, lines: seq<string>, start: nat, end: nat, header: seq<string>)
    requires start <= end <= |lines|
    requires forall line, r | r in rowsOf(line) :: RowShape(r, header)
    ensures forall i | 0 <= i < |Collect(rowsOf, lines, start, end)| :: RowShape(Collect(rowsOf, lines, start, end)[i], header)
    decreases end - start
  {
    if end > start {
      var init := Collect(rowsOf, lines, start, end - 1);
      var last := rowsOf(lines[end - 1]);
      CollectShape(rowsOf, lines, start, end - 1, header);
      var rows := Collect(rowsOf, lines, start, end);
      forall i | 0 <= i < |rows| ensures RowShape(rows[i], header) {
        if i < |init| {
          assert rows[i] == init[i];
        } else {
          assert rows[i] == last[i - |init|];
          assert rows[i] in last;
        }
      }
    }
  }

  /** Every row of `rows` has exactly the named header columns as keys. */
  ghost predicate AllShaped(rows: seq<Row>, header: seq<string>) {
    forall i | 0 <= i < |rows| :: RowShape(rows[i], header)
  }

  /** Every data row has exactly the named header columns as keys, each once. */
  lemma DataRowsShape(header: seq<string>, lines: seq<string>, start: nat, end: nat)
    requires start <= end <= |lines|
    ensures AllShaped(DataRows(header, lines, start, end), header)
  {
    forall line, r | r in LineRows(header)(line) ensures RowShape(r, header) {
      RowOfLineShape(header, line);
    }
    CollectShape(LineRows(header), lines, start, end, header);
  }

  /** A line that is empty once trimmed. */
  predicate Blank(line: string) {
    Trim(line) == ""
  }

  /** The sum of `size` over `lines[start..end]`. */
  function Total(size: string -> nat, lines: seq<string>, start: nat, end: nat): nat
    requires start <= end <= |lines|
    decreases end - start
  {
    if end == start then 0 else Total(size, lines, start, end - 1) + size(lines[end - 1])
  }

  /** The number of non-blank lines among `lines[start..end]`. */
  function CountNonBlank(lines: seq<string>, start: nat, end: nat): nat
    requires start <= end <= |lines|
  {
    Total(line => if Blank(line) then 0 else 1, lines, start, end)
  }

  /** Collecting `size(line)` rows per line gives the sum of the sizes. */
  lemma {:induction false} CollectCount(rowsOf: string -> seq<Row>, size: string -> nat, lines: seq<string>, start: nat, end: nat)
    requires start <= end <= |lines|
    requires forall line :: |rowsOf(line)| == size(line)
    ensures |Collect(rowsOf, lines, start, end)| == Total(size, lines, start, end)
    decreases end - start
  {
    if end > start {
      CollectCount(rowsOf, size, lines, start, end - 1);
    }
  }

  /** One row per non-blank line: blank lines give no row. */
  lemma DataRowsCount(header: seq<string>, lines: seq<string>, start: nat, end: nat)
    requires start <= end <= |lines|
    ensures |DataRows(header, lines, start, end)| == CountNonBlank(lines, start, end)
  {
    var size: string -> nat := line => if Blank(line) then 0 else 1;
    forall line ensures |LineRows(header)(line)| == size(line) {
      RowsOfCount(header, line);
    }
    CollectCount(LineRows(header), size, lines, start, end);
  }

  /** A line gives a row exactly when it is not blank. */
  lemma RowsOfCount(header: seq<string>, line: string)
    ensures |RowsOf(header, line)| == if Blank(line) then 0 else 1
  {
  }

  /** What parseCSV returns for `text` and the key column. */
  function ParsedRows(text: string, key: string): seq<Row> {
    ParseLines(SplitLines(Trim(text)), key)
  }

  /** The rows of the lines of a file: none without a header line, else the
      rows of the lines after it. */
  function ParseLines(lines: seq<string>, key: string): seq<Row> {
    var h := HeaderFrom(lines, key, 0);
    if h < 0 then [] else DataRows(HeaderCells(lines[h]), lines, h + 1, |lines|)
  }

  /** The header search of parseCSV: the first of the first ten lines whose
      cells include the key column. */
  method FindHeader(lines: seq<string>, keyColumn: string) returns (headerLineIndex: int)
    ensures headerLineIndex == HeaderFrom(lines, keyColumn, 0)
  {
    var searchLimit := if |lines| < 10 then |lines| else 10;
    var i := 0;
    while i < searchLimit
      invariant 0 <= i <= searchLimit == SearchLimit(lines)
      invariant HeaderFrom(lines, keyColumn, i) == HeaderFrom(lines, keyColumn, 0)
    {
      var potentialHeader := HeaderCells(lines[i]);
      if keyColumn in potentialHeader {
        return i;
      }
      i := i + 1;
    }
    return -1;
  }

  /** One data line: no row when it is blank, else its row object. */
  method ReadLine(header: seq<string>, line: string) returns (found: seq<Row>)
    ensures found == RowsOf(header, line)
  {
    found := [];
    if Trim(line) != "" {
      var rowObject := BuildRow(header, Cells(line));
      found := [rowObject];
    }
  }

  /** The row objects of the non-blank lines after the header. */
  method ReadRows(header: seq<string>, lines: seq<string>, start: nat) returns (rows: seq<Row>)
    requires start <= |lines|
    ensures rows == DataRows(header, lines, start, |lines|)
  {
    rows := [];
    for j := start to |lines|
      invariant rows == DataRows(header, lines, start, j)
    {
      var found := ReadLine(header, lines[j]);
      DataRowsSnoc(header, lines, start, j);
      rows := rows + found;
    }
  }

  /** parseCSV: locates the header among the first ten lines by the key
      column, then turns every non-blank later line into a row object. */
  method ParseCSV(text: string, keyColumn: string) returns (rows: seq<Row>)
    ensures rows == ParsedRows(text, keyColumn)
  {
    var lines := SplitLines(Trim(text));
    assert ParsedRows(text, keyColumn) == ParseLines(lines, keyColumn);
    var headerLineIndex := FindHeader(lines, keyColumn);
    if headerLineIndex == -1 {
      return [];
    }
    var header := HeaderCells(lines[headerLineIndex]);
    rows := ReadRows(header, lines, headerLineIndex + 1);
  }

  /** A file whose first ten lines never name the key column yields no rows. */
  lemma ParseLinesNoHeader(lines: seq<string>, key: string)
    requires forall j | 0 <= j < SearchLimit(lines) :: key !in HeaderCells(lines[j])
    ensures ParseLines(lines, key) == []
  {
  }

  /** Otherwise every row has exactly the named columns of the header line as
      keys, each once. */
  lemma ParseLinesShape(lines: seq<string>, key: string)
    requires HeaderFrom(lines, key, 0) >= 0
    ensures AllShaped(ParseLines(lines, key), HeaderCells(lines[HeaderFrom(lines, key, 0)]))
  {
    var h := HeaderFrom(lines, key, 0);
    assert ParseLines(lines, key) == DataRows(HeaderCells(lines[h]), lines, h + 1, |lines|);
    DataRowsShape(HeaderCells(lines[h]), lines, h + 1, |lines|);
  }

  // ---------------------------------------------------------------------
  // parseVersionsJSON

  /** A parsed JSON value; numbers are kept as integers. */
  datatype Json =
    | JNull
    | JBool(b: bool)
    | JNum(n: int)
    | JStr(s: string)
    | JArr(items: seq<Json>)
    | JObj(members: seq<Member>)

  /** One `"key": value` pair of an object, kept in source order. */
  datatype Member = Member(key: string, value: Json)

  datatype ManifestError =
    | NoServiceVersionsArray   // 'JSON file must contain a "service_versions" array'
    | EmptyServiceVersions     // 'service_versions array cannot be empty'
    | NoServiceKey             // 'Each service object must have a "service" key'
    | NullAccess               // the TypeError of reading a property of null

  datatype Result<T, E> = Ok(value: T) | Err(error: E)

  /** JavaScript truthiness of a present value. */
  predicate Truthy(j: Json) {
    match j
    case JNull => false
    case JBool(b) => b
    case JNum(n) => n != 0
    case JStr(s) => s != ""
    case _ => true
  }

  /** The value of the first member named `key`. */
  function Lookup(ms: seq<Member>, key: string): (v: Option<Json>)
    ensures v.Some? <==> exists i | 0 <= i < |ms| :: ms[i].key == key
  {
    if ms == [] then None
    else if ms[0].key == key then Some(ms[0].value)
    else Lookup(ms[1..], key)
  }

  /** `j.key` on a non-null value: the own member of an object, else undefined. */
  function Prop(j: Json, key: string): Option<Json> {
    if j.JObj? then Lookup(j.members, key) else None
  }

  predicate TruthyProp(j: Json, key: string) {
    Prop(j, key).Some? && Truthy(Prop(j, key).value)
  }

  /** The structure parseVersionsJSON demands: an object whose
      `service_versions` is a non-empty array whose first entry has a truthy
      `service`. */
  predicate WellFormedManifest(doc: Json) {
    TruthyProp(doc, "service_versions") && Prop(doc, "service_versions").value.JArr?
    && |Prop(doc, "service_versions").value.items| > 0
    && TruthyProp(Prop(doc, "service_versions").value.items[0], "service")
  }

  /** parseVersionsJSON after `JSON.parse`: the document itself when it is
      well formed, otherwise the first check it fails. */
  function ValidateVersionsJson(doc: Json): (r: Result<Json, ManifestError>)
    ensures r.Ok? <==> WellFormedManifest(doc)
    ensures r.Ok? ==> r.value == doc
    ensures r == Err(NoServiceVersionsArray) <==>
      doc != JNull && !(TruthyProp(doc, "service_versions") && Prop(doc, "service_versions").value.JArr?)
    ensures r == Err(EmptyServiceVersions) <==>
      TruthyProp(doc, "service_versions") && Prop(doc, "service_versions").value == JArr([])
    ensures r == Err(NullAccess) ==> doc == JNull || Prop(doc, "service_versions").value.items[0] == JNull
  {
    if doc == JNull then Err(NullAccess)
    else if !TruthyProp(doc, "service_versions") || !Prop(doc, "service_versions").value.JArr? then
      Err(NoServiceVersionsArray)
    else
      var items := Prop(doc, "service_versions").value.items;
      if |items| == 0 then Err(EmptyServiceVersions)
      else if items[0] == JNull then Err(NullAccess)
      else if !TruthyProp(items[0], "service") then Err(NoServiceKey)
      else Ok(doc)
  }

  // ---------------------------------------------------------------------
  // Column classifiers

  /** `[\w.-]`. */
  predicate IsEnvChar(c: char) {
    IsWordChar(c) || c == '.' || c == '-'
  }

  /** `\s+[\w.-]+$`: a run of white space, then a non-empty environment name
      up to the end. */
  predicate EnvTail(s: string) {
    var e := TrimStart(s);
    0 < |e| < |s| && forall i | 0 <= i < |e| :: IsEnvChar(e[i])
  }

  /** `/^<word>\s+[\w.-]+$/i` for a lower-case word. */
  predicate EnvColumn(name: string, word: string) {
    |word| <= |name| && Lower(name[..|word|]) == word && EnvTail(name[|word|..])
  }

  /** The column prefix a versions file contributes: the base name without
      `.json` up to its first underscore, when that underscore is not the
      first character, else the whole base name. */
  function FilePrefix(fileName: string): (p: string)
    ensures '_' !in p || StartsWith(p, "_")
  {
    var baseName := StripSuffixIgnoreCase(fileName, ".json");
    var u := IndexOfChar(baseName, '_');
    if u > 0 then baseName[..u] else baseName
  }

  /** `<token>_version_...` with a token free of underscores. */
  predicate GenericVersionName(name: string) {
    var vi := IndexOfSub(name, "_version_");
    vi > 0 && '_' !in name[..vi]
  }

  /** The version-column test of isVersionColumn, as one formula. */
  predicate VersionColumn(name: string, files: seq<string>) {
    name != ""
    && (EnvColumn(name, "version")
        || StartsWith(name, "version_")
        || (exists f | f in files :: StartsWith(name, FilePrefix(f) + "_version_"))
        || GenericVersionName(name))
  }

  /** isVersionColumn: the checks in the source's order, returning at the
      first that succeeds. */
  method IsVersionColumn(columnName: string, versionsFileNames: seq<string>) returns (b: bool)
    ensures b == VersionColumn(columnName, versionsFileNames)
  {
    if columnName == "" {
      return false;
    }
    if EnvColumn(columnName, "version") {
      return true;
    }
    if StartsWith(columnName, "version_") {
      return true;
    }
    for k := 0 to |versionsFileNames|
      invariant forall f | f in versionsFileNames[..k] :: !StartsWith(columnName, FilePrefix(f) + "_version_")
    {
      var fileName := versionsFileNames[k];
      if StartsWith(columnName, FilePrefix(fileName) + "_version_") {
        return true;
      }
      assert versionsFileNames[..k + 1] == versionsFileNames[..k] + [fileName];
    }
    assert versionsFileNames[..|versionsFileNames|] == versionsFileNames;
    var versionIndex := IndexOfSub(columnName, "_version_");
    if versionIndex > 0 && '_' !in columnName[..versionIndex] {
      return true;
    }
    return false;
  }

  /** isBundleColumn: `/^Bundle\s+[\w.-]+$/i`. */
  predicate IsBundleColumn(columnName: string) {
    EnvColumn(columnName, "bundle")
  }

  /** Every column the versions-file enrichment names after a file in the
      list, `<prefix>_version_<field>`, is recognised as a version column. */
  lemma FileColumnIsVersionColumn(f: string, files: seq<string>, field: string)
    requires f in files
    ensures VersionColumn(FilePrefix(f) + "_version_" + field, files)
  {
    var name := FilePrefix(f) + "_version_" + field;
    assert name[..|FilePrefix(f) + "_version_"|] == FilePrefix(f) + "_version_";
  }

  /** A name matching `/^<word>\s+.../i` starts with the word's first letter
      in either case. */
  lemma EnvColumnFirst(name: string, word: string)
    requires word != [] && EnvColumn(name, word)
    ensures LowerChar(name[0]) == word[0]
  {
    assert Lower(name[..|word|])[0] == LowerChar(name[0]);
  }

  /** A name without underscores whose first letter is neither `v` nor `b`,
      in either case, is neither a version nor a bundle column, whatever the
      versions files are. This covers `Service0`, `Jenkins Link` and
      `Environment`. */
  lemma PlainNameNotClassified(name: string, files: seq<string>)
    requires name != [] && '_' !in name && LowerChar(name[0]) != 'v' && LowerChar(name[0]) != 'b'
    ensures !VersionColumn(name, files) && !IsBundleColumn(name)
  {
    NotEnvColumn(name, "version");
    NotEnvColumn(name, "bundle");
    NoUnderscorePrefix(name, "version_", 7);
    NoFilePrefixMatch(name, files);
    NotGenericVersionName(name);
  }

  lemma NotEnvColumn(name: string, word: string)
    requires name != [] && word != [] && LowerChar(name[0]) != word[0]
    ensures !EnvColumn(name, word)
  {
    if |word| <= |name| {
      assert Lower(name[..|word|])[0] == LowerChar(name[0]);
    }
  }

  /** A name without underscores has no prefix containing one. */
  lemma NoUnderscorePrefix(name: string, p: string, i: nat)
    requires '_' !in name && i < |p| && p[i] == '_'
    ensures !StartsWith(name, p)
  {
    if |p| <= |name| {
      assert name[i] == name[..|p|][i];
    }
  }

  lemma NoFilePrefixMatch(name: string, files: seq<string>)
    requires '_' !in name
    ensures forall f | f in files :: !StartsWith(name, FilePrefix(f) + "_version_")
  {
    forall f | f in files ensures !StartsWith(name, FilePrefix(f) + "_version_") {
      NoUnderscorePrefix(name, FilePrefix(f) + "_version_", |FilePrefix(f)|);
    }
  }

  lemma NotGenericVersionName(name: string)
    requires '_' !in name
    ensures !GenericVersionName(name)
  {
    forall i | 0 <= i <= |name| - 9 ensures !OccursAt(name, "_version_", i) {
      assert name[i..i + 9][0] == name[i] != '_';
    }
  }

  /** One space before an environment name makes an environment tail. */
  lemma EnvTailOfName(env: string)
    requires env != [] && forall i | 0 <= i < |env| :: IsEnvChar(env[i])
    ensures EnvTail(" " + env)
  {
    var s := " " + env;
    assert s[1..] == env;
    assert !IsSpace(env[0]);
    assert TrimStart(s) == TrimStart(env) == env;
  }

  lemma EnvColumnOfName(w: string, env: string)
    requires env != [] && forall i | 0 <= i < |env| :: IsEnvChar(env[i])
    ensures EnvColumn(w + " " + env, Lower(w))
  {
    EnvTailOfName(env);
    var name := w + " " + env;
    assert name[..|w|] == w;
    assert name[|w|..] == " " + env;
  }

  lemma LowerWords()
    ensures Lower("Version") == "version" && Lower("Bundle") == "bundle"
  {
  }

  /** The columns of the build-versions lookup: `Version <env>` is a version
      column and not a bundle column. */
  lemma VersionEnvColumn(env: string, files: seq<string>)
    requires env != [] && forall i | 0 <= i < |env| :: IsEnvChar(env[i])
    ensures VersionColumn("Version " + env, files) && !IsBundleColumn("Version " + env)
  {
    VersionEnvIsVersion(env, files);
    NotEnvColumn("Version " + env, "bundle");
  }

  lemma VersionEnvIsVersion(env: string, files: seq<string>)
    requires env != [] && forall i | 0 <= i < |env| :: IsEnvChar(env[i])
    ensures VersionColumn("Version " + env, files)
  {
    VersionEnvMatches(env);
  }

  lemma VersionEnvMatches(env: string)
    requires env != [] && forall i | 0 <= i < |env| :: IsEnvChar(env[i])
    ensures EnvColumn("Version " + env, "version")
  {
    LowerWords();
    EnvColumnOfName("Version", env);
  }

  /** `Bundle <env>` is a bundle column. */
  lemma BundleEnvColumn(env: string)
    requires env != [] && forall i | 0 <= i < |env| :: IsEnvChar(env[i])
    ensures IsBundleColumn("Bundle " + env)
  {
    LowerWords();
    EnvColumnOfName("Bundle", env);
  }

  // ---------------------------------------------------------------------
  // areVersionsEqual

  /** The normalised form compared by areVersionsEqual. */
  function Norm(v: string): string {
    Trim(Lower(v))
  }

  /** areVersionsEqual: split both normalised versions on underscores and, when
      one has more segments, compare its first segments, as many as the other
      has, with the other. */
  function AreVersionsEqual(version1: string, version2: string): (eq: bool)
    ensures eq ==> version1 != "" && version2 != ""
  {
    if version1 == "" || version2 == "" then false
    else
      var v1Lower := Norm(version1);
      var v2Lower := Norm(version2);
      var v1Parts := Split(v1Lower, '_');
      var v2Parts := Split(v2Lower, '_');
      if |v1Parts| == |v2Parts| then v1Lower == v2Lower
      else if |v1Parts| > |v2Parts| then Join(v1Parts[..|v2Parts|], '_') == v2Lower
      else Join(v2Parts[..|v1Parts|], '_') == v1Lower
  }

  /** The relation as a plain statement about strings: equal normal forms, or
      one normal form extends the other by `_` and further segments. */
  predicate SameRelease(a: string, b: string) {
    a == b || StartsWith(a, b + "_") || StartsWith(b, a + "_")
  }

  /** When `a` has more segments than `b`, comparing its first segments with
      `b` is asking whether `a` starts with `b_`. */
  lemma TruncatedCompare(a: string, b: string)
    requires |Split(a, '_')| > |Split(b, '_')|
    ensures Join(Split(a, '_')[..|Split(b, '_')|], '_') == b <==> StartsWith(a, b + "_")
  {
    if Join(Split(a, '_')[..|Split(b, '_')|], '_') == b {
      TruncatedToPrefix(a, b);
    }
    if StartsWith(a, b + "_") {
      PrefixToTruncated(a, b);
    }
  }

  lemma TruncatedToPrefix(a: string, b: string)
    requires |Split(a, '_')| > |Split(b, '_')|
    requires Join(Split(a, '_')[..|Split(b, '_')|], '_') == b
    ensures StartsWith(a, b + "_")
  {
    var pa := Split(a, '_');
    var k := |Split(b, '_')|;
    JoinSplit(a, '_');
    JoinAt(pa, k, '_');
    var rest := Join(pa[k..], '_');
    assert a == b + "_" + rest;
    assert a[..|b| + 1] == b + "_";
  }

  lemma PrefixOfAppend<T>(u: seq<T>, v: seq<T>)
    ensures (u + v)[..|u|] == u
  {
  }

  lemma PrefixToTruncated(a: string, b: string)
    requires StartsWith(a, b + "_")
    ensures |Split(a, '_')| > |Split(b, '_')|
    ensures Join(Split(a, '_')[..|Split(b, '_')|], '_') == b
  {
    var c := a[|b| + 1..];
    assert a == b + ['_'] + c;
    SplitAppend(b, c, '_');
    PrefixOfAppend(Split(b, '_'), Split(c, '_'));
    JoinSplit(b, '_');
  }

  lemma SegmentCountOfExtension(a: string, b: string)
    requires StartsWith(a, b + "_")
    ensures |Split(a, '_')| > |Split(b, '_')|
  {
    var c := a[|b| + 1..];
    assert a == b + ['_'] + c;
    SplitAppend(b, c, '_');
  }

  /** areVersionsEqual holds exactly when both inputs are non-empty and their
      normal forms are equal or one is the other followed by `_` and more. */
  lemma AreVersionsEqualIff(version1: string, version2: string)
    ensures AreVersionsEqual(version1, version2) <==>
      version1 != "" && version2 != "" && SameRelease(Norm(version1), Norm(version2))
  {
    if version1 != "" && version2 != "" {
      var a := Norm(version1);
      var b := Norm(version2);
      var na := |Split(a, '_')|;
      var nb := |Split(b, '_')|;
      if na == nb {
        if StartsWith(a, b + "_") { SegmentCountOfExtension(a, b); }
        if StartsWith(b, a + "_") { SegmentCountOfExtension(b, a); }
      } else if na > nb {
        TruncatedCompare(a, b);
        if StartsWith(b, a + "_") { SegmentCountOfExtension(b, a); }
      } else {
        TruncatedCompare(b, a);
        if StartsWith(a, b + "_") { SegmentCountOfExtension(a, b); }
      }
    }
  }

  /** The relation does not depend on the order of its arguments. */
  lemma AreVersionsEqualSymmetric(x: string, y: string)
    ensures AreVersionsEqual(x, y) == AreVersionsEqual(y, x)
  {
    AreVersionsEqualIff(x, y);
    AreVersionsEqualIff(y, x);
  }

  /** Lower-case letters, digits and underscores. */
  predicate PlainVersion(s: string) {
    forall i | 0 <= i < |s| :: ('a' <= s[i] <= 'z') || IsDigit(s[i]) || s[i] == '_'
  }

  lemma NormOfPlain(s: string)
    requires PlainVersion(s)
    ensures Norm(s) == s
  {
    assert Lower(s) == s;
    TrimOfTrimmed(s);
  }

  /** A build number on one side only is ignored, in either argument
      position: `prod_w1_20250101_7` equals `prod_w1_20250101`. */
  lemma BuildNumberIgnored(v: string, build: string)
    requires v != "" && PlainVersion(v) && PlainVersion(build)
    ensures AreVersionsEqual(v + "_" + build, v) && AreVersionsEqual(v, v + "_" + build)
  {
    var w := v + "_" + build;
    assert PlainVersion(w);
    NormOfPlain(v);
    NormOfPlain(w);
    assert w[..|v| + 1] == v + "_";
    AreVersionsEqualIff(w, v);
    AreVersionsEqualIff(v, w);
  }

  /** Two different versions of the same length never match:
      `prod_w1_20250102` does not equal `prod_w1_20250101`. */
  lemma SameLengthDifferentUnequal(a: string, b: string)
    requires PlainVersion(a) && PlainVersion(b) && |a| == |b| && a != b
    ensures !AreVersionsEqual(a, b)
  {
    NormOfPlain(a);
    NormOfPlain(b);
    AreVersionsEqualIff(a, b);
  }

  lemma PlainJoin(v: string, b: string)
    requires PlainVersion(v) && PlainVersion(b)
    ensures PlainVersion(v + "_" + b) && (v + "_" + b)[|v| + 1..] == b
  {
  }

  /** The tolerance makes the relation intransitive: two different builds of
      a release both equal the bare release but not each other. */
  lemma AreVersionsEqualNotTransitive(v: string, b1: string, b2: string)
    requires v != "" && PlainVersion(v) && PlainVersion(b1) && PlainVersion(b2)
    requires |b1| == |b2| && b1 != b2
    ensures AreVersionsEqual(v + "_" + b1, v) && AreVersionsEqual(v, v + "_" + b2)
    ensures !AreVersionsEqual(v + "_" + b1, v + "_" + b2)
  {
    BuildNumberIgnored(v, b1);
    BuildNumberIgnored(v, b2);
    PlainJoin(v, b1);
    PlainJoin(v, b2);
    SameLengthDifferentUnequal(v + "_" + b1, v + "_" + b2);
  }
}
